=== FILE: README.md ===
# TR*MP TRAIN game-state engine in Dafny

TR*MP TRAIN is a browser Snake variant. The "corporation" is a body of grid
cells that moves across a 28 x 28 board. It grows by consuming assets, labor
and communities. It dies on a wall, on itself or on a regulation, unless
invincibility is on.

This project models the state those moves change, together with the rules
around it:

- Score counters: capital, workforce, layoffs, and the inequality and crisis
  meters.
- Eight levels, with the asset-count thresholds that end each one.
- An economic phase machine (Growth, Recession, Depression, Recovery). Each
  phase has its capital multiplier and its layoffs.
- The tick period, derived from the difficulty's base speed and the crisis
  level, and halved in boost mode.
- A saved-game record and its restore.
- The storm power-up with its seven effects.
- The keyboard, button and swipe handlers that steer the body.

## Modules

- `Grid` (grid.dfy):
  - the board, cells and the occupancy scans;
  - the random-cell oracle that stands for `createRandomPosition`.
- `Economy` (economy.dfy): the pure rules.
  - difficulty and level tables;
  - phase selection, multipliers and attrition;
  - the tick period.
- `Format` (format.dfy): `formatCapital`, with a decimal rendering and its
  inverse, so the display can be read back.
- `Rules` (rules.dfy): value-level specifications the imperative code is
  proved against.
  - the move rule `Resolve` and the body update `Advanced`;
  - the wall nudge `AwayFromWalls`;
  - the 25-field `Snapshot` and its invariant `SnapshotValid`;
  - the refresh `Refreshed` that `restoreGameState` applies;
  - the consumption priority `MealAt`;
  - the bounded placement loop `FillPool`.
- `Storm` (storm.dfy): the storm power-up.
  - value functions `Activate` and `End`;
  - a `StormSystem` class whose methods are proved equal to them.
- `Engine` (game.dfy): class `Game`.
  - Its fields are the top-level `let` bindings of js/game.js.
  - Its methods are the functions that update them.
  - `Valid()` is the invariant between operations: meters in [0, 100], the
    level invariant, the phase multiplier, a unit velocity and every cell on
    the board. Every method keeps it, except `LevelUp` and
    `CheckLevelProgression`. Those two run inside the asset branch, between a
    threshold update and the level change. Each states the parts of the
    invariant it needs and keeps.
- `Controls` (controls.dfy): class `Input`, the state of js/controls.js. It
  drives a `Game` through the same accessors the page uses.

## How the environment is modelled

- **Randomness.** Cell draws come from an oracle `rng: nat -> GridPos` and a
  cursor. An operation that draws takes the cursor and returns the next one.
  The other draws of a tick are a `Rolls` record.
- **Time.** `Date.now()` is a parameter.
- **Timers.** Each timer (`setInterval`, `setTimeout`) becomes a flag, or a
  returned period to re-arm the loop with. The timer's callback is a method the
  page calls when it fires.

## Behaviour of the code

Each of these follows what the code does:

- **Collision includes the tail.** The test runs on the body before the move,
  so the cell the tail is about to leave is still fatal (`Rules.Resolve`).
- **No level-8 ending.** Level 8 only switches invincibility on. There is no
  timed final phase.
- **The reversal guard ignores body length.** A one-cell body cannot reverse
  either.
- **startGame keeps two counters.** It resets neither `laborConsumed` nor
  `communitiesConsumed`.
- **The level check in the game loop never fires.** Under the level
  invariant, the `checkLevelProgression` call in `gameLoop` finds nothing to do
  (`Engine.Game.RecheckLevel`).
- **The level-7 batch usually adds nothing.** The five `addRegulation` calls
  of `startNextLevel` run before the cap is raised. When the regulations are
  at the cap, they add nothing (`Engine.Game.EnterLevel`). That is the usual
  case, because every level start fills them to it. They do add cells when a
  difficulty change raised the cap after the last fill. `setDifficulty` does
  not fill, and neither does the saved-game resume. Below the cap, each call
  adds one free cell until the cap or a full board stops it
  (`Rules.AddRegulationsMeaning`).
- **The storm cannot reach the game's own state.** Its effects write `window`
  properties, and `let` bindings are not `window` properties. Of the
  properties the effects read, `exposeGameAPI` defines only two:
  - `corporation`: the empty array of the initial declaration, which
    `startGame` then replaces with a fresh one;
  - `setGameSpeed`: read by RALLY TIME's guard, which also needs
    `window.gameSpeed` and so never passes (see "## Left out").

  On that window, every effect and every end rule leaves the game's state
  alone (`Storm.EffectsOnExposedHost`).

## Model

| member | source | states |
|---|---|---|
| Grid.CheckCollision | js/game.js:1379-1386 | true exactly when some segment at index 1 or later (tail included) equals the cell |
| Grid.CheckRegulationCollision | js/game.js:1388-1395 | true exactly when some regulation equals the cell |
| Grid.FirstIndex | js/game.js:561-562 | the index of the first entry equal to the cell, or -1 exactly when there is none; no earlier entry matches |
| Grid.RemoveAt | js/game.js:567 | `splice(i, 1)`: one entry shorter; the entries before i are kept, and the later ones shift down by one |
| Grid.WrapCoord | js/game.js:419-424 | the result is always on the board; an on-board coordinate is unchanged; -1 becomes 27 and 28 becomes 0 |
| Grid.Wrap | js/game.js:419-424 | the wrapped cell is on the board, and an on-board cell is unchanged |
| Grid.FirstFreeCell | js/game.js:668-678 | a cell that is on the board and not occupied; None exactly when every cell is occupied |
| Economy.MaxRegulationsFor | js/game.js:1005-1008 | the cap is at least the difficulty's base (at least 1), and is exactly the base on EASY |
| Economy.MaxRegulationsMonotone | js/game.js:1005-1008 | the cap never falls as the level rises; above EASY it rises by exactly one per level |
| Economy.Threshold | js/game.js:122-131 | each level's threshold lies between 5 and 50 |
| Economy.ThresholdIsTable | js/game.js:122-131 | the threshold of level l is `levelFeatures[l - 1].assetsRequired` |
| Economy.LevelTableOrdered | js/game.js:122-131 | the table has 8 entries, numbered 1..8 in order, and its thresholds strictly rise |
| Economy.ThresholdStep | js/game.js:122-131 | a later level has a strictly higher threshold (by induction on the gap) |
| Economy.LevelAfter | js/game.js:691-699 | the level stays in 1..8 and rises by at most one |
| Economy.LevelInvariantKept | js/game.js:691-699 | after one more asset and the progression check, the consumed count lies between the previous threshold and the current one; the level rises exactly when the count reaches the threshold below level 8 |
| Economy.Raise | js/game.js:582-583 | `Math.min(meter + amount, 100)`: never below the old meter, never above 100, and exactly the sum when it fits |
| Economy.NextPhase | js/game.js:1501-1512 | for each phase, the exact crisis ranges and current phases that lead to it (both directions) |
| Economy.NextPhaseIdempotent | js/game.js:1501-1518 | choosing the phase again for the same crisis level gives the same phase |
| Economy.Multiplier | js/game.js:1520-1538 | each multiplier lies in (0, 1], and equals 1 only in Growth |
| Economy.AttritionTenths | js/game.js:1525-1533 | layoffs happen exactly on entering Recession or Depression, at most two tenths |
| Economy.AttritionAccounting | js/game.js:1525-1533 | the workforce never goes negative or grows; kept plus laid off is the old workforce, or one less when the share is fractional |
| Economy.NoAttritionOutsideDownturns | js/game.js:1522-1537 | Growth and Recovery keep the workforce and lay off nobody |
| Economy.TickPeriod | js/game.js:999-1003 | the period is at least 20 ms, at most the base speed, and exactly the base at crisis 0 |
| Economy.TickPeriodMonotone | js/game.js:999-1003 | more crisis never lengthens the period |
| Economy.TickPeriodMonotoneBelowCap | js/game.js:1000-1001 | below crisis 100 the period does not grow with the crisis |
| Economy.TickPeriodAtCap | js/game.js:1000-1001 | the halved period from crisis 100 on is at most the period at any lower crisis |
| Economy.BoostPeriod | js/game.js:1020-1032 | boosting gives floor(gameSpeed / 2); otherwise the period is gameSpeed |
| Format.NatToString | js/game.js:1036-1038 | a non-empty string of digits with no leading zero |
| Format.ParseNatToString | js/game.js:1036-1038 | reading the digits back gives the number (by induction) |
| Format.IntToString | js/game.js:1036-1038 | a numeral that starts with '-' exactly for negative numbers |
| Format.IntToStringRoundTrip | js/game.js:1036-1038 | reading the numeral back gives the integer |
| Format.NegativeRoundTrip | js/game.js:1036-1038 | the same round trip for negative integers |
| Format.FormatCapital | js/game.js:1035-1039 | the last character is 'M' exactly below 1000, 'B' exactly in [1000, 10^6), 'T' exactly from 10^6 on |
| Format.FormatCapitalReadBack | js/game.js:1035-1039 | the numeral before the letter, times its unit, is at most the value and less than one unit below it |
| Format.FormatSmallCapital | js/game.js:1036 | a value in [0, 1000) shows as its whole part followed by 'M' |
| Storm.EffectTable | js/twitter-storm.js:13-21 | seven entries with distinct names; duration 0 exactly for the three instant effects, and positive exactly for the four timed ones |
| Storm.LoyalBase | js/twitter-storm.js:81-91 | an empty body is unchanged; otherwise the body keeps its prefix and gains exactly three copies of its last segment |
| Storm.FlurryGain | js/twitter-storm.js:92-97 | `max(5, floor(length * 0.5))`: exactly 5 below length 10, floor(length / 2) from length 10 on, never below 5 |
| Storm.ApplyEffectMeaning | js/twitter-storm.js:69-112 | each effect changes only its own property, and the window is unchanged when that property is missing: FAKE NEWS sets invincibility; EXECUTIVE ORDER empties the regulations when they exist; LOYAL BASE extends the body when it exists; TWITTER FLURRY adds exactly `FlurryGain` of the body length (at least 5) to capital when both exist; the other effects change nothing |
| Storm.EffectsOnExposedHost | js/game.js:1270-1297 | on the window the game exposes, an effect changes only the otherwise unused invincibility property, and ending an effect changes nothing |
| Storm.FakeNewsRoundTrip | js/twitter-storm.js:127-133 | FAKE NEWS and its end turn invincibility back off below level 8, and leave it on at level 8 |
| Storm.Activate | js/twitter-storm.js:47-123 | end time is now + duration; the effect stays active exactly for a timed effect, and only then is its name kept; the storm cell is untouched |
| Storm.End | js/twitter-storm.js:126-139 | no active effect and an empty name afterwards; the end rule of the old effect is applied; the storm cell and end time are kept |
| Storm.EndIdempotent | js/twitter-storm.js:126-139 | ending twice is ending once |
| Storm.StormSystem.constructor | js/twitter-storm.js:7-10 | no storm, no active effect, an empty name and end time 0 |
| Storm.StormSystem.PlaceTweetStorm | js/twitter-storm.js:24-38 | gated off (roll > 0.2, an existing storm, or an active effect), nothing changes; otherwise every draw before the last one was occupied, and the storm is the last draw and free (the first free draw); no storm means 51 draws, the first 50 occupied and the 51st discarded untested |
| Storm.StormSystem.PlaceTweetStormAsWritten | js/twitter-storm.js:24-38 | as written, whenever the gate lets it through, the storm ends up cleared after exactly 51 draws |
| Storm.StormSystem.ExpireStorm | js/twitter-storm.js:41-43 | the storm cell is cleared, and nothing else changes |
| Storm.StormSystem.ActivateTwitterStorm | js/twitter-storm.js:47-123 | the new state is `Activate` of the old one; the three-push loop of LOYAL BASE is proved equal to `LoyalBase` |
| Storm.StormSystem.EndTwitterStorm | js/twitter-storm.js:126-139 | the new state is `End` of the old one |
| Storm.StormSystem.CheckTwitterStormCollision | js/twitter-storm.js:214-224 | a hit exactly when the head is on the storm cell; a hit activates the effect and removes the storm; otherwise nothing changes |
| Storm.StoredCandidateOccupied | js/game.js:1370-1374 | a cell stored as the storm is always reported occupied |
| Storm.FreeFirstDrawPlaces | js/twitter-storm.js:28-30 | a free first draw passes the corrected occupancy test, but fails the test as written |
| Rules.Resolve | js/game.js:416-437 | with invincibility, the head always advances to the wrapped cell; without it, the move is fatal exactly when the raw head is off the board, on a later segment or on a regulation, and otherwise the head is the raw cell |
| Rules.AdvancedShape | js/game.js:439-445 | the new head is at index 0; the length is unchanged on a plain move and one more on a meal; the old cells follow in order |
| Rules.InvincibleWrapsAround | js/game.js:419-424 | for a unit step, an invincible move always advances: -1 reappears at 27, 28 at 0, and an on-board head is unchanged |
| Rules.SafeOffset | js/game.js:1553-1567 | the shift brings the head coordinate into [2, 25], and is 0 when it is already there |
| Rules.Clamp | js/game.js:1576-1577 | the result is on the board, and an on-board value is unchanged |
| Rules.Nudge | js/game.js:1572-1577 | a shifted-and-clamped segment is on the board |
| Rules.AwayFromWalls | js/game.js:1542-1582 | same length; unchanged when the head needs no shift; otherwise every segment is shifted by the head's shift and clamped |
| Rules.AwayFromWallsSafe | js/game.js:1542-1582 | the body stays on the board, the head ends at least two cells from every wall, and a body already clear of the walls is unchanged |
| Rules.AwayFromWallsRigid | js/game.js:1571-1578 | segments that need no clamping keep their offsets from the head |
| Rules.PhaseChecked | js/game.js:1501-1518 | the record's phase becomes `NextPhase`, and an unchanged phase leaves the record untouched |
| Rules.PhaseCheckedValid | js/game.js:1501-1539 | the phase check keeps the record invariant (meters, level, multiplier, cells) |
| Rules.PhaseCheckedIdempotent | js/game.js:1501-1518 | a second phase check right after the first changes nothing |
| Rules.RefreshedMeaning | js/game.js:1481-1499 | the refresh keeps validity and always settles; it touches only phase, multiplier, workforce, layoffs and period; a settled record comes back unchanged, which is the save/restore round trip |
| Rules.PoolMeal | js/game.js:529-596 | the first matching asset, else labor, else community; the index is that of the first match; no meal exactly when no pool holds the head |
| Rules.MealAt | js/game.js:523-527 | the storm is eaten exactly when the head is on it, and takes priority over the pools |
| Rules.MealIgnoresBody | js/game.js:523-597 | what the head eats does not depend on the body |
| Rules.MealIffCollectible | js/game.js:1337-1377 | something is eaten exactly when `isPositionOccupied` reports the cell for a reason other than the body or a regulation |
| Rules.FillPool | js/game.js:605-619 | the pool keeps its prefix and never exceeds the target; every appended cell is on the board and was free when drawn; a pool left short means `GaveUp`: the last round's first draw and 99 redraws were all occupied, and its 100th redraw was discarded untested |
| Engine.NewGame | js/game.js:284-310 | the reset record is valid, its phase is settled, and its threshold is `levelFeatures[0].assetsRequired` |
| Engine.Find | js/game.js:561-562 | the scan loop returns `FirstIndex` |
| Engine.Game.constructor | js/game.js:49-115 | the declared initial values, then `setDifficulty(1)`; the invariant holds and there is no saved game |
| Engine.Game.SetGameSpeed | js/game.js:985-997 | a missing or non-positive speed is ignored; otherwise it is stored, and a live game re-arms at the boost-adjusted period |
| Engine.Game.UpdateGameSpeed | js/game.js:999-1003 | gameSpeed becomes `TickPeriod(base, crisis)`, within [20, base] |
| Engine.Game.SetBoostMode | js/game.js:1020-1032 | the same value changes nothing; a change on a live game re-arms at gameSpeed / 2 when boosting, else at gameSpeed |
| Engine.Game.SetVelocity | js/game.js:1281-1289 | the velocity becomes the given unit step |
| Engine.Game.UpdateMaxRegulations | js/game.js:1005-1008 | the cap becomes `MaxRegulationsFor(difficulty, level)` |
| Engine.Game.SetDifficulty | js/game.js:245-259 | new difficulty, base speed, cap and period |
| Engine.Game.PlaceAsset | js/game.js:600-622 | the pool is emptied on tick 0; it keeps its prefix, never exceeds the level, and gains only cells that were free; a short pool means its last round gave up (`GaveUp`: 100 occupied draws, then one discarded) |
| Engine.Game.PlaceLabor | js/game.js:624-644 | a full pool is untouched; otherwise as PlaceAsset, for labor |
| Engine.Game.PlaceCommunity | js/game.js:646-666 | a full pool is untouched; otherwise as PlaceAsset, for communities |
| Engine.Game.AddRegulation | js/game.js:668-678 | nothing at the cap; otherwise exactly one free cell is appended; this is one step of `AddRegulations` |
| Engine.Game.FillRegulations | js/game.js:1010-1017 | `RegulationsFilled`: the list ends at the cap, or below it only on a full board; a list over the cap is cut to its first `maxRegulations` entries; otherwise the old list stays in front and added cells were free |
| Engine.Game.LevelUp | js/game.js:701-712 | a level in 1..8 becomes current and stops the loop; any other leaves the level unchanged and the loop running |
| Engine.Game.CheckLevelProgression | js/game.js:691-699 | the level becomes `LevelAfter`, with the matching threshold; with no level-up nothing changes; a level-up stops the loop |
| Engine.Game.ApplyPhaseEffects | js/game.js:1520-1539 | the phase's multiplier, with `Kept` workers and `LaidOff` added to layoffs; nothing else changes |
| Engine.Game.CheckEconomicPhaseEffects | js/game.js:1501-1518 | the 25 fields become `PhaseChecked` of the old ones |
| Engine.Game.RefreshStats | js/game.js:1481-1499 | the fields become `Refreshed` of the old ones |
| Engine.Game.MoveSnakeAwayFromWalls | js/game.js:1542-1582 | the body becomes `AwayFromWalls` of the old body |
| Engine.Game.NudgeBody | js/game.js:1570-1578 | every segment is shifted and clamped (`Nudge`) in place, with length kept |
| Engine.Game.GameOver | js/game.js:449-451 | the loop stops |
| Engine.Game.TogglePause | js/game.js:478-496 | the pause flips; resuming nudges the body away from the walls; pausing leaves it alone |
| Engine.Game.SaveGameState | js/game.js:1585-1613 | the saved record equals the 25 current fields |
| Engine.Game.LoadScore | js/game.js:1664-1670 | the score fields take the record's values |
| Engine.Game.LoadProgress | js/game.js:1672-1688 | the phase, warnings, tick count, level, threshold and speed take the record's values |
| Engine.Game.LoadModes | js/game.js:1676-1687 | the modes, velocity, last direction and spray setting take the record's values |
| Engine.Game.LoadObjects | js/game.js:1671-1686 | the body, pools and regulations take the record's values |
| Engine.Game.Load | js/game.js:1664-1688 | the 25 fields equal the record |
| Engine.Game.RestoreGameState | js/game.js:1661-1703 | true exactly when a record exists; with none, nothing changes; otherwise the fields become `Refreshed` of the record |
| Engine.Game.ScoreAsset | js/game.js:532-535 | capital grows by 5 times the multiplier plus floor(workforce / 1000); inequality rises by 2, capped at 100 |
| Engine.Game.CountAsset | js/game.js:534-555 | one more asset consumed; the level rises exactly when the count hits the threshold below level 8, and a level-up stops the loop |
| Engine.Game.RefillAssets | js/game.js:544-545 | the eaten asset leaves the pool (all of it on tick 0); the rest stays in front of the refill cells, which were free; the pool never exceeds the level and falls short of it only when the last round gave up (100 occupied draws) |
| Engine.Game.ConsumeAsset | js/game.js:530-557 | the asset branch: capital, count, inequality and level as above; the eaten asset leaves the pool (all of it on tick 0), and the rest stays in front of the refill cells, which were free, up to the level before the check; a pool short of that level means the last round gave up (100 occupied draws) |
| Engine.Game.ConsumeLabor | js/game.js:561-573 | workforce grows by exactly 1000, one more labor is counted, and only the matched cell leaves |
| Engine.Game.ScoreCommunity | js/game.js:580-583 | capital grows by 15 times the multiplier; inequality rises by 10 and crisis by 15, both capped at 100 |
| Engine.Game.ConsumeCommunity | js/game.js:578-593 | the community score; only the matched cell leaves; above EASY a roll over 0.5 adds the first free cell as a regulation, below the cap |
| Engine.Game.ConsumeLaborOrCommunity | js/game.js:560-596 | consumed exactly when labor or a community is on the head; labor first; with no match nothing changes |
| Engine.Game.ConsumePools | js/game.js:529-596 | consumed exactly when `PoolMeal` finds something; only the matched pool changes: the first match leaves it, and for assets the pool is refilled with free cells up to the old level, short of it only when the last round gave up; with no match nothing changes |
| Engine.Game.HandleResourceConsumption | js/game.js:523-597 | consumed exactly when `MealAt` finds something; the storm goes first and, when hit, leaves every game field alone |
| Engine.Game.RecordDirection | js/game.js:411-414 | a moving body records its velocity as the last direction |
| Engine.Game.PushHead | js/game.js:439 | the head goes in front |
| Engine.Game.PopTail | js/game.js:444 | the last cell is dropped |
| Engine.Game.NextHead | js/game.js:416-437 | the step is `Resolve` of the body, regulations, velocity and invincibility |
| Engine.Game.AdvanceTo | js/game.js:439-445 | the body becomes `Advanced` by the head, growing exactly when `MealAt` finds a meal there |
| Engine.Game.MoveSnake | js/game.js:410-446 | a fatal step stops the game and leaves the body and score alone; otherwise the body advances and grows exactly on a meal |
| Engine.Game.TakeStep | js/game.js:410-446 | moveSnake once the step is known, with the same outcome |
| Engine.Game.CrisisDrift | js/game.js:1399-1406 | with inequality above 60 and a roll above 0.7, crisis rises by 5 (capped), and a warning is counted above 80, at most 3; otherwise nothing changes |
| Engine.Game.HandlePeriodicEffects | js/game.js:1397-1417 | the crisis drift, and above EASY with a roll under 0.03 one free regulation below the cap (`AddRegulations` with one call) |
| Engine.Game.BeginTick | js/game.js:381-392 | the tick count rises; the boost counter counts up in boost mode and resets to 0 otherwise |
| Engine.Game.RecheckLevel | js/game.js:398 | the progression check in the loop never changes the level, threshold or running flag |
| Engine.Game.SettleStats | js/game.js:399-400 | the fields are refreshed and left settled |
| Engine.Game.PeriodicStep | js/game.js:394-396 | on every 100th tick the crisis drift and the periodic regulation; on other ticks crisis, warnings and regulations are unchanged |
| Engine.Game.EndTick | js/game.js:394-400 | the periodic step as `PeriodicStep` states it (crisis, warnings and regulations on every 100th tick, unchanged on others), then a settled end at the same level and running flag |
| Engine.Game.AbortTick | js/game.js:381-416 | on an empty body, only the tick counters and the last direction change |
| Engine.Game.RunTick | js/game.js:387-400 | the move, then the rest of the tick, settled |
| Engine.Game.CountedTick | js/game.js:381-400 | a counted tick: the move and a settled end |
| Engine.Game.Tick | js/game.js:380-406 | the counters advance; an empty body changes nothing else; otherwise the move's outcome, then a settled end |
| Engine.Game.GameLoop | js/game.js:374-407 | nothing happens while stopped or paused; otherwise one tick |
| Engine.Game.ResetForNewGame | js/game.js:284-315 | the fields become `NewGame`, unpaused |
| Engine.Game.PlaceStartObjects | js/game.js:316-318 | one asset on a free cell, or none only when the round gave up (100 draws occupied on the start board); the level-1 cap; regulations filled to it with free cells |
| Engine.Game.SetUpBoard | js/game.js:284-318 | the reset record, with the start objects of `PlaceStartObjects` |
| Engine.Game.Launch | js/game.js:321-340 | the refresh, and the game runs with the interval at gameSpeed |
| Engine.Game.StartGame | js/game.js:278-351 | the reset record with one free asset (none only when 100 draws in a row hit the start board's occupied cells) and the level-1 regulations, then running unpaused; the labor and community counters are kept |
| Engine.Game.EnterLevel | js/game.js:744-756 | level 8 turns invincibility on; the regulations become `LevelRegulations`: five `addRegulation` calls on level 7, unchanged otherwise; the old ones stay in front, and nothing is added at the cap |
| Engine.Game.RestockPools | js/game.js:758-765 | `Restocked`: the pools are emptied, then assets, labor and communities in turn are filled with free cells, never above the level; each pool is short of the level only when its last round gave up (100 draws occupied on the board of that moment) |
| Engine.Game.PlaceLaborAndCommunity | js/game.js:764-765 | the labor pool, then the community pool, are filled with free cells, never above the level; each is short of it only when its last round gave up (100 occupied draws) |
| Engine.Game.AddFiveRegulations | js/game.js:745-747 | the loop of five `addRegulation` calls is `AddRegulations(board, cap, 5)` |
| Rules.AddRegulationsMeaning | js/game.js:668-678 | n `addRegulation` calls keep the old list in front, never pass the cap, add one free on-board cell per call until the cap or a full board stops them, and add nothing at the cap |
| Engine.Game.PrepareLevel | js/game.js:741-756 | the wall nudge, then the level's regulations (`LevelRegulations` on the nudged board) and invincibility |
| Engine.Game.CapRegulations | js/game.js:767-768 | the cap for the level, and the list `RegulationsFilled` to it: at the cap unless the board is full, the old prefix kept, added cells free |
| Engine.Game.Resume | js/game.js:770-776 | the period for the crisis level, and the game runs |
| Engine.Game.ReopenLevel | js/game.js:767-776 | the new cap with the regulations `RegulationsFilled` to it, the period, and the game runs |
| Engine.Game.StartNextLevel | js/game.js:738-777 | body nudged; the level-7 regulations on the nudged board; pools `Restocked` with free cells on that board (short only after a round gave up); regulations `RegulationsFilled` to the new cap on the restocked board; period updated, and running |
| Engine.Game.RunRestored | js/game.js:1625-1650 | the saved record is dropped, and the game runs unpaused |
| Engine.Game.ResumeSaved | js/game.js:1624-1650 | the fields become `Refreshed` of the record, which is then cleared |
| Engine.Game.StartGameFromSaved | js/game.js:1616-1658 | with a record, it is restored and cleared; with none, a new game starts with everything `StartGame` states (one free asset or a give-up, the level-1 cap, regulations filled with free cells, both counters kept); either way the game runs unpaused with no record |
| Engine.Game.StormTick | js/twitter-storm.js:233-237 | the interval callback with the corrected placement: nothing while stopped, paused or gated off; otherwise the storm is the first free draw, or none after 51 draws, the first 50 occupied and the 51st discarded untested |
| Engine.Game.StormTickAsWritten | js/twitter-storm.js:233-237 | the same callback with placeTweetStorm as written: past the gate the storm always ends up cleared, so the page never shows one |
| Controls.Delta | js/controls.js:251-279 | each direction's step is one of the four unit velocities |
| Controls.KeyDir | js/controls.js:251-280 | exactly the four arrow keys map to a direction, each to its own |
| Controls.ButtonDir | js/controls.js:291-298 | exactly "up", "down", "left" and "right" map to a direction, each to its own |
| Controls.HasDirectionKey | js/controls.js:238-240 | true exactly when some arrow key is held |
| Controls.Steer | js/controls.js:251-280 | the turn is taken exactly when the reversal guard allows it (or it changes nothing); otherwise the velocity is kept; unit velocities stay unit velocities |
| Controls.SteerNeverReverses | js/controls.js:251-280 | a moving body is never turned to its exact reverse |
| Controls.SteerIdempotent | js/controls.js:251-280 | the same turn twice is the turn once |
| Controls.SteerFromRest | js/controls.js:251-280 | a standing body turns any way |
| Controls.SwipeDir | js/controls.js:164-198 | horizontal exactly when abs(diffX) > abs(diffY); left exactly for a horizontal swipe with positive diffX; up exactly for a vertical swipe with positive diffY |
| Controls.SwipeReversed | js/controls.js:164-198 | the reverse swipe turns the opposite way |
| Controls.MinDistance | js/controls.js:153-158 | the distance floor is 5 or 10 |
| Controls.SignificantBounds | js/controls.js:154-161 | a swipe of length 10 or more always counts; one shorter than 5 never does |
| Controls.Input.constructor | js/controls.js:7-17 | no keys, no timers, no touch direction, tap and swipe times 0, and the load time as the last change |
| Controls.Input.HandleDirectionChange | js/controls.js:242-286 | the velocity becomes `Steer` for an arrow key and is kept otherwise; an accepted turn, and only that, records the time and the replaced velocity |
| Controls.Input.HandleTouchDirection | js/controls.js:288-304 | a known button turns the body only if the guard allows it and the game runs; the time is recorded exactly then |
| Controls.Input.ButtonClick | js/controls.js:85-95 | ignored within the change delay; otherwise the guarded turn |
| Controls.Input.StartContinuousMovement | js/controls.js:307-317 | boost is on and the watch interval is set |
| Controls.Input.StopContinuousMovement | js/controls.js:319-328 | boost is off and the interval is cleared; a second call re-arms nothing |
| Controls.Input.MovementTimerFires | js/controls.js:312-316 | it stops boost once the game ends or no arrow key is held, and changes nothing otherwise |
| Controls.Input.PressKey | js/controls.js:43-61 | the key is recorded and the guarded turn tried; a new arrow key starts boost; Space flips the pause, and the body is nudged from the walls exactly when that unpauses |
| Controls.Input.KeyEffects | js/controls.js:51-61 | boost starts for an arrow key with no interval set; Space flips the pause; the body changes only when Space unpauses, to `AwayFromWalls` |
| Controls.Input.KeyDown | js/controls.js:29-62 | Enter on a stopped game asks for a start; other keys on a stopped game change nothing (body, boost, timer and pause included); a running game does what `PressKey` states: the key, the turn, boost, the pause and the body |
| Controls.Input.KeyUp | js/controls.js:64-72 | the key is forgotten; with no arrow key left held, boost stops |
| Controls.Input.ButtonTouchStart | js/controls.js:210-220 | the button becomes the current touch, the guarded turn is tried, and the hold timeout is set |
| Controls.Input.HoldTimerFires | js/controls.js:217-219 | boost is on and the watch interval is set |
| Controls.Input.StopTouchContinuousMovement | js/controls.js:342-358 | no touch direction, boost off, both timers cleared |
| Controls.Input.TouchTimerFires | js/controls.js:335-339 | it stops everything once the game ends or another button is held, and changes nothing otherwise |
| Controls.Input.CanvasTouchStart | js/controls.js:109-121 | the start point and time are kept; two fingers on a running game flip the pause; the body changes only when that unpauses |
| Controls.Input.CanvasTouchEnd | js/controls.js:128-201 | a second tap within 300 ms flips the pause and resets the tap time, nudging the body only when it unpauses; otherwise a significant swipe outside the cooldown turns the body through the guard and stamps the swipe time |
| Controls.Input.Swipe | js/controls.js:142-200 | outside the cooldown, a significant swipe stamps the time and, on a running game, applies `Steer` in the swipe's direction |

## Left out

- Drawing, sound, DOM screens, messages, the news ticker and all visual
  effects: they hold no game state.
- **Timers.** The `setInterval` and `setTimeout` timers are not modelled as
  time. Each is a flag or a returned period, and its callback is a method.
  The delayed labor and community respawns (js/game.js:548, 552, 570) are
  not scheduled: `PlaceLabor` and `PlaceCommunity` are the callbacks.
  `togglePause`'s countdown re-arm is not modelled either.
- `updatePerformanceStats`: this FPS-based slowdown reads the wall clock, and
  is not part of this model.
- RALLY TIME's timed `setGameSpeed(originalSpeed * 1.5)` and its restore are
  not modelled. They run only when `window.gameSpeed` is defined. The page
  never defines it, so on the page RALLY TIME does nothing, as in the model.
- **Numbers.** Capital and the multipliers are exact reals, and every
  `Math.floor` is exact division. They differ from JavaScript floating point
  only where a product lands within rounding error of an integer.
  `Format.IntToString` is JavaScript's number-to-string for integers below
  1e21 only.
- `gameOver`'s high-score update in localStorage, and the `assets`, `labor`
  and `community` mirrors of the first pool entries, are not modelled. The
  mirror fallback's extra cell draw is kept (`Engine.Game.PlaceAsset`).
- Engine.Game.AddRegulation: the source redraws random cells until one is
  free, with no limit. The model takes the first free cell in row-major
  order, and adds nothing on a full board, where the source never returns.
- `Engine.RegulationChance` is 0.03 because `window.regulationFrequency` is
  never defined.
- Engine.Game.ConsumeAsset: the asset count is taken after the refill rather
  than before it. The refill never reads the count.
- Engine.Game.TakeStep: the last direction is recorded at the end of the move
  rather than at its start. Nothing in between reads it.
- Engine.Game.ConsumePools: states the counts and pools of each branch, but
  not the capital and meter updates. Its callees state those
  (`Engine.Game.ConsumeAsset`, `Engine.Game.ConsumeLabor`,
  `Engine.Game.ConsumeCommunity`).
- Engine.Game.ConsumeLaborOrCommunity: likewise, the counts and pools only.
- Engine.Game.HandleResourceConsumption: states what is consumed and the
  storm's effect. The per-branch field updates are stated by its callees.
- Engine.Game.StormTick: the game runs the corrected `placeTweetStorm`
  (see Findings). So the model's game can place a storm and the body can eat
  it, which never happens on the page. `Engine.Game.StormTickAsWritten` is the
  callback as the page runs it, and it never leaves a storm.
- Engine.Game.MoveSnake: states the body, the running flag and the last
  direction. The score changes of a meal are stated by its callees.
- Engine.Game.RunTick: states the move (body, last direction, game over)
  and the settled end. The score and pools after a meal are stated by the
  callees of `MoveSnake`. The periodic effects are stated by `EndTick` on
  the board the move leaves, a board this contract does not name.
- Engine.Game.CountedTick: the same as `RunTick`, plus the counters.
- Engine.Game.Tick: the same as `CountedTick` when there is a body to move.
- Engine.Game.GameLoop: the same as `Tick` on a running, unpaused game.
- Engine.Game.SetVelocity: requires a unit velocity. The accessors accept any
  value, but every caller writes a unit step.
- Controls.Input.KeyDown: reports a requested `startGame` instead of calling
  it. The page then runs `Engine.Game.StartGame`.
- Controls.Input.HoldTimerFires: `startTouchContinuousMovement` overwrites the
  interval handle without clearing the old interval. A flag cannot show that
  leak.
- The `window.velocityX`/`velocityY` accessors are merged into
  `Engine.Game.SetVelocity`. The sharing of segment objects between shallow
  copies (`[...corporation]`) is not modelled, because cells are values.
- `levelUp`'s screen text and sound are not modelled.
- `startNextLevel`'s colour changes, and `setDifficulty`'s button label, are
  not modelled.
- The canvas `touchmove` handler only calls `preventDefault`.

## Findings

| source | as written | input that shows it | evidently intended | confidence | as-written member | corrected member |
|---|---|---|---|---|---|---|
| js/twitter-storm.js:28-38 | the candidate is stored in `twitterStorm` before `isPositionOccupied(twitterStorm)` runs. That test includes the storm cell itself, so it is always true, and after 50 redraws the storm is cleared | any call that passes the gate (roll <= 0.2, no storm, no active effect), on any board | place the storm on the first free draw, so the power-up can appear | not executed | Storm.StormSystem.PlaceTweetStormAsWritten | Storm.StormSystem.PlaceTweetStorm |

=== FILE: controls.dfy ===
/**
 * The input handlers of js/controls.js: arrow keys, the on-screen buttons
 * and canvas swipes turn the body, holding an arrow key or a button turns
 * on boost mode, and Space, two fingers or a double tap toggle the pause.
 *
 * The handlers reach the game through the window accessors exposeGameAPI
 * defines (velocityX, velocityY, gameRunning) and window.setBoostMode /
 * window.togglePause, so here they act on an Engine.Game. Date.now() is a
 * parameter; setInterval and setTimeout handles are flags, and their
 * callbacks are methods the page calls when they fire.
 */
module Controls {
  import opened Grid
  import opened Rules
  import Engine

  /** The four directions of the arrow keys, the buttons and the swipes. */
  datatype Dir = Up | Down | Left | Right

  /** The step each direction sets: y grows downwards. */
  function Delta(d: Dir): (v: Pos)
    ensures IsVelocity(v.x, v.y) && v != Pos(0, 0)
  {
    match d
    case Up => Pos(0, -1)
    case Down => Pos(0, 1)
    case Left => Pos(-1, 0)
    case Right => Pos(1, 0)
  }

  function Opposite(d: Dir): Dir {
    match d
    case Up => Down
    case Down => Up
    case Left => Right
    case Right => Left
  }

  /** The arrow-key names isDirectionKey and hasDirectionKeyPressed test. */
  const DirectionKeys: set<string> := {"ArrowUp", "ArrowDown", "ArrowLeft", "ArrowRight"}

  predicate IsDirectionKey(key: string) {
    key in DirectionKeys
  }

  /** The cases of handleDirectionChange's switch. */
  function KeyDir(key: string): (d: Option<Dir>)
    ensures d.Some? <==> IsDirectionKey(key)
    ensures d == Some(Up) <==> key == "ArrowUp"
    ensures d == Some(Down) <==> key == "ArrowDown"
    ensures d == Some(Left) <==> key == "ArrowLeft"
    ensures d == Some(Right) <==> key == "ArrowRight"
  {
    if key == "ArrowUp" then Some(Up)
    else if key == "ArrowDown" then Some(Down)
    else if key == "ArrowLeft" then Some(Left)
    else if key == "ArrowRight" then Some(Right)
    else None
  }

  /** The keys of the touchButtons and directionMap tables; any other name finds no entry. */
  function ButtonDir(name: string): (d: Option<Dir>)
    ensures d.Some? <==> name in {"up", "down", "left", "right"}
    ensures d == Some(Up) <==> name == "up"
    ensures d == Some(Down) <==> name == "down"
    ensures d == Some(Left) <==> name == "left"
    ensures d == Some(Right) <==> name == "right"
  {
    if name == "up" then Some(Up)
    else if name == "down" then Some(Down)
    else if name == "left" then Some(Left)
    else if name == "right" then Some(Right)
    else None
  }

  /** hasDirectionKeyPressed: one of the four arrow keys is held. */
  function HasDirectionKey(keys: set<string>): (b: bool)
    ensures b <==> exists key :: key in keys && IsDirectionKey(key)
  {
    assert "ArrowUp" in DirectionKeys && "ArrowDown" in DirectionKeys;
    assert "ArrowLeft" in DirectionKeys && "ArrowRight" in DirectionKeys;
    "ArrowUp" in keys || "ArrowDown" in keys || "ArrowLeft" in keys || "ArrowRight" in keys
  }

  /**
   * The reversal guard every handler applies: up is refused while moving
   * down, down while moving up, left while moving right, right while moving
   * left. The length of the body plays no part.
   */
  predicate Allowed(d: Dir, v: Pos) {
    match d
    case Up => v.y != 1
    case Down => v.y != -1
    case Left => v.x != 1
    case Right => v.x != -1
  }

  /** The velocity after a guarded turn towards d. */
  function Steer(d: Dir, v: Pos): (r: Pos)
    ensures r == Delta(d) <==> Allowed(d, v) || v == Delta(d)
    ensures r == Delta(d) || r == v
    ensures IsVelocity(v.x, v.y) ==> IsVelocity(r.x, r.y)
  {
    if Allowed(d, v) then Delta(d) else v
  }

  /** A turn never sets the exact reverse of a moving body's step. */
  lemma SteerNeverReverses(d: Dir, v: Pos)
    requires IsVelocity(v.x, v.y) && v != Pos(0, 0)
    ensures Steer(d, v) != Pos(-v.x, -v.y)
  {
    if Allowed(d, v) {
      assert Delta(d) != Pos(-v.x, -v.y) by {
        match d
        case Up =>
        case Down =>
        case Left =>
        case Right =>
      }
    }
  }

  /** Turning twice towards the same direction is turning once. */
  lemma SteerIdempotent(d: Dir, v: Pos)
    ensures Steer(d, Steer(d, v)) == Steer(d, v)
  {
    if Allowed(d, v) {
      assert Allowed(d, Delta(d));
    }
  }

  /** A standing body can turn any way, and the turn is the direction's step. */
  lemma SteerFromRest(d: Dir)
    ensures Steer(d, Pos(0, 0)) == Delta(d)
  {
  }

  function Abs(r: real): real {
    if r < 0.0 then -r else r
  }

  /**
   * touchend's choice: horizontal when |diffX| > |diffY|, left for a
   * positive diffX (the finger moved left), up for a positive diffY.
   */
  function SwipeDir(diffX: real, diffY: real): (d: Dir)
    ensures d == Left || d == Right <==> Abs(diffX) > Abs(diffY)
    ensures d == Left <==> Abs(diffX) > Abs(diffY) && diffX > 0.0
    ensures d == Up <==> Abs(diffX) <= Abs(diffY) && diffY > 0.0
  {
    if Abs(diffX) > Abs(diffY) then
      if diffX > 0.0 then Left else Right
    else
      if diffY > 0.0 then Up else Down
  }

  /** The reverse swipe turns the other way. */
  lemma SwipeReversed(diffX: real, diffY: real)
    requires diffX != 0.0 || diffY != 0.0
    ensures SwipeDir(-diffX, -diffY) == Opposite(SwipeDir(diffX, diffY))
  {
    assert Abs(-diffX) == Abs(diffX) && Abs(-diffY) == Abs(diffY);
    if Abs(diffX) <= Abs(diffY) {
      assert diffY != 0.0;
    }
  }

  /**
   * Whether distance / elapsed > 1 for distance = sqrt(squared) in
   * floating point: a zero elapsed time gives Infinity, or NaN for a zero
   * distance, and a negative one a speed that is not above 1.
   */
  predicate Fast(squared: real, elapsed: int)
    requires squared >= 0.0
  {
    if elapsed > 0 then squared > (elapsed * elapsed) as real
    else elapsed == 0 && squared > 0.0
  }

  /** touchend's distance floor: 5 for a fast swipe, 10 otherwise. */
  function MinDistance(squared: real, elapsed: int): (m: real)
    requires squared >= 0.0
    ensures m == 5.0 || m == 10.0
  {
    if Fast(squared, elapsed) then 5.0 else 10.0
  }

  /** touchend goes on only when distance >= MIN_DISTANCE, compared here as squares. */
  predicate Significant(diffX: real, diffY: real, elapsed: int) {
    var squared := diffX * diffX + diffY * diffY;
    squared >= MinDistance(squared, elapsed) * MinDistance(squared, elapsed)
  }

  /** A swipe of 10 or more always counts, one shorter than 5 never does. */
  lemma SignificantBounds(diffX: real, diffY: real, elapsed: int)
    ensures diffX * diffX + diffY * diffY >= 100.0 ==> Significant(diffX, diffY, elapsed)
    ensures diffX * diffX + diffY * diffY < 25.0 ==> !Significant(diffX, diffY, elapsed)
  {
  }

  /** window.DIRECTION_CHANGE_DELAY: the delay between button turns, now 0. */
  const DirectionChangeDelay: int := 0

  /** SWIPE_COOLDOWN: swipes closer than this many milliseconds to the last one are ignored. */
  const SwipeCooldown: int := 50

  /** Two canvas touch ends closer than this many milliseconds make a double tap. */
  const DoubleTapWindow: int := 300

  /** The state of js/controls.js, and the game its handlers drive. */
  class Input {
    const game: Engine.Game
    var keysPressed: set<string>
    /** continuousMovementInterval is set. */
    var movementTimer: bool
    /** touchHoldTimeout is set. */
    var holdTimer: bool
    var currentTouchDirection: Option<string>
    var lastTapTime: int
    var lastSwipeTime: int
    var lastDirectionChange: int
    /** window.lastDirection: undefined until an arrow key is accepted, then the velocity it replaced. */
    var turnedFrom: Option<Pos>
    var touchStartX: real
    var touchStartY: real
    var touchStartTime: int

    /** The state when js/controls.js has loaded at time now. */
    constructor(game: Engine.Game, now: int)
      ensures this.game == game
      ensures keysPressed == {} && !movementTimer && !holdTimer && currentTouchDirection.None?
      ensures lastTapTime == 0 && lastSwipeTime == 0 && lastDirectionChange == now && turnedFrom.None?
      ensures touchStartX == 0.0 && touchStartY == 0.0 && touchStartTime == 0
    {
      this.game := game;
      keysPressed := {};
      movementTimer, holdTimer := false, false;
      currentTouchDirection := None;
      lastTapTime, lastSwipeTime, lastDirectionChange := 0, 0, now;
      turnedFrom := None;
      touchStartX, touchStartY, touchStartTime := 0.0, 0.0, 0;
    }

    /** The game's velocity as a step. */
    function Velocity(): Pos
      reads game`velocityX, game`velocityY
    {
      Pos(game.velocityX, game.velocityY)
    }

    /**
     * handleDirectionChange: an arrow key turns the body unless it would
     * reverse it; an accepted turn records the time and the velocity it
     * replaced. Other keys change nothing.
     */
    method HandleDirectionChange(key: string, now: int)
      requires game.Valid()
      modifies game`velocityX, game`velocityY, this`lastDirectionChange, this`turnedFrom
      ensures game.Valid()
      ensures var d := KeyDir(key);
        && Velocity() == (if d.Some? then Steer(d.value, old(Velocity())) else old(Velocity()))
        && if d.Some? && Allowed(d.value, old(Velocity()))
           then lastDirectionChange == now && turnedFrom == Some(old(Velocity()))
           else lastDirectionChange == old(lastDirectionChange) && turnedFrom == old(turnedFrom)
    {
      var prev := Pos(game.velocityX, game.velocityY);
      var d := KeyDir(key);
      if d.Some? && Allowed(d.value, prev) {
        game.SetVelocity(Delta(d.value));
        lastDirectionChange := now;
        turnedFrom := Some(prev);
      }
    }

    /**
     * handleTouchDirection: a known button name turns the body unless it
     * would reverse it or the game is not running; the time is recorded,
     * window.lastDirection is not.
     */
    method HandleTouchDirection(name: string, now: int)
      requires game.Valid()
      modifies game`velocityX, game`velocityY, this`lastDirectionChange
      ensures game.Valid()
      ensures var d := ButtonDir(name);
        if d.Some? && Allowed(d.value, old(Velocity())) && game.gameRunning
        then Velocity() == Delta(d.value) && lastDirectionChange == now
        else Velocity() == old(Velocity()) && lastDirectionChange == old(lastDirectionChange)
    {
      var d := ButtonDir(name);
      if d.Some? && Allowed(d.value, Velocity()) && game.gameRunning {
        game.SetVelocity(Delta(d.value));
        lastDirectionChange := now;
      }
    }

    /**
     * A click on an on-screen button: ignored within DIRECTION_CHANGE_DELAY
     * of the last turn, otherwise the same guarded turn as
     * handleTouchDirection.
     */
    method ButtonClick(name: string, now: int)
      requires game.Valid()
      modifies game`velocityX, game`velocityY, this`lastDirectionChange
      ensures game.Valid()
      ensures var d := ButtonDir(name);
        if now - old(lastDirectionChange) >= DirectionChangeDelay
           && d.Some? && Allowed(d.value, old(Velocity())) && game.gameRunning
        then Velocity() == Delta(d.value) && lastDirectionChange == now
        else Velocity() == old(Velocity()) && lastDirectionChange == old(lastDirectionChange)
    {
      if now - lastDirectionChange < DirectionChangeDelay {
        return;
      }
      HandleTouchDirection(name, now);
    }

    /** startContinuousMovement: boost on, and the watch interval armed. */
    method StartContinuousMovement() returns (rearm: Option<int>)
      requires game.Valid()
      modifies game`boostMode, this`movementTimer
      ensures game.Valid()
      ensures game.boostMode && movementTimer
      ensures old(game.boostMode) ==> rearm.None?
      ensures !old(game.boostMode) ==> rearm == game.Rearm(game.gameSpeed)
    {
      rearm := game.SetBoostMode(true);
      movementTimer := true;
    }

    /**
     * stopContinuousMovement: boost off and the interval cleared. A second
     * call finds both already off and changes nothing.
     */
    method StopContinuousMovement() returns (rearm: Option<int>)
      requires game.Valid()
      modifies game`boostMode, this`movementTimer
      ensures game.Valid()
      ensures !game.boostMode && !movementTimer
      ensures !old(game.boostMode) ==> rearm.None?
      ensures old(game.boostMode) ==> rearm == game.Rearm(game.gameSpeed)
    {
      rearm := game.SetBoostMode(false);
      movementTimer := false;
    }

    /** The 50 ms watch of startContinuousMovement: it stops once the game ends or no arrow key is held. */
    method MovementTimerFires() returns (rearm: Option<int>)
      requires game.Valid()
      modifies game`boostMode, this`movementTimer
      ensures game.Valid()
      ensures !game.gameRunning || !HasDirectionKey(keysPressed) ==> !game.boostMode && !movementTimer
      ensures game.gameRunning && HasDirectionKey(keysPressed) ==>
        game.boostMode == old(game.boostMode) && movementTimer == old(movementTimer) && rearm.None?
    {
      rearm := None;
      if !game.gameRunning || !HasDirectionKey(keysPressed) {
        rearm := StopContinuousMovement();
      }
    }

    /**
     * The part of keydown a running game sees: the key is recorded, the
     * turn is tried, an arrow key starts boost unless the interval is
     * already set, and Space toggles the pause.
     */
    method PressKey(key: string, now: int) returns (rearm: Option<int>)
      requires game.Valid()
      modifies this`keysPressed, game`velocityX, game`velocityY, this`lastDirectionChange, this`turnedFrom,
        game`boostMode, this`movementTimer, game`gamePaused, game`corporation
      ensures game.Valid()
      ensures keysPressed == old(keysPressed) + {key}
      ensures var d := KeyDir(key);
        Velocity() == (if d.Some? then Steer(d.value, old(Velocity())) else old(Velocity()))
      ensures !old(movementTimer) && IsDirectionKey(key) ==> game.boostMode && movementTimer
      ensures old(movementTimer) || !IsDirectionKey(key) ==>
        game.boostMode == old(game.boostMode) && movementTimer == old(movementTimer)
      ensures game.gamePaused == (old(game.gamePaused) != (key == " " || key == "Spacebar"))
      ensures game.corporation ==
        if (key == " " || key == "Spacebar") && old(game.gamePaused) then AwayFromWalls(old(game.corporation))
        else old(game.corporation)
    {
      keysPressed := keysPressed + {key};
      HandleDirectionChange(key, now);
      rearm := KeyEffects(key);
    }

    /** keydown after the turn: boost for a new arrow key, the pause for Space. */
    method KeyEffects(key: string) returns (rearm: Option<int>)
      requires game.Valid()
      modifies game`boostMode, this`movementTimer, game`gamePaused, game`corporation
      ensures game.Valid()
      ensures !old(movementTimer) && IsDirectionKey(key) ==> game.boostMode && movementTimer
      ensures old(movementTimer) || !IsDirectionKey(key) ==>
        game.boostMode == old(game.boostMode) && movementTimer == old(movementTimer) && rearm.None?
      ensures game.gamePaused == (old(game.gamePaused) != (key == " " || key == "Spacebar"))
      ensures game.corporation ==
        if (key == " " || key == "Spacebar") && old(game.gamePaused) then AwayFromWalls(old(game.corporation))
        else old(game.corporation)
    {
      rearm := None;
      if !movementTimer && IsDirectionKey(key) {
        rearm := StartContinuousMovement();
      }
      if key == " " || key == "Spacebar" {
        game.TogglePause();
      }
    }

    /**
     * keydown: Enter on a stopped game asks for startGame (reported in
     * start, which the page performs); any other key on a stopped game is
     * ignored; on a running game PressKey.
     */
    method KeyDown(key: string, now: int) returns (start: bool, rearm: Option<int>)
      requires game.Valid()
      modifies this`keysPressed, game`velocityX, game`velocityY, this`lastDirectionChange, this`turnedFrom,
        game`boostMode, this`movementTimer, game`gamePaused, game`corporation
      ensures game.Valid()
      ensures start <==> key == "Enter" && !old(game.gameRunning)
      ensures !old(game.gameRunning) ==>
        && keysPressed == old(keysPressed) && Velocity() == old(Velocity())
        && game.boostMode == old(game.boostMode) && movementTimer == old(movementTimer)
        && game.gamePaused == old(game.gamePaused) && game.corporation == old(game.corporation) && rearm.None?
      ensures old(game.gameRunning) ==>
        && keysPressed == old(keysPressed) + {key}
        && var d := KeyDir(key);
        && Velocity() == (if d.Some? then Steer(d.value, old(Velocity())) else old(Velocity()))
      ensures old(game.gameRunning) && !old(movementTimer) && IsDirectionKey(key) ==> game.boostMode && movementTimer
      ensures old(game.gameRunning) && (old(movementTimer) || !IsDirectionKey(key)) ==>
        game.boostMode == old(game.boostMode) && movementTimer == old(movementTimer)
      ensures old(game.gameRunning) ==>
        && game.gamePaused == (old(game.gamePaused) != (key == " " || key == "Spacebar"))
        && game.corporation ==
             if (key == " " || key == "Spacebar") && old(game.gamePaused) then AwayFromWalls(old(game.corporation))
             else old(game.corporation)
    {
      start, rearm := false, None;
      if key == "Enter" && !game.gameRunning {
        start := true;
      } else if game.gameRunning {
        rearm := PressKey(key, now);
      }
    }

    /** keyup: the key is forgotten, and with no arrow key left held boost stops. */
    method KeyUp(key: string) returns (rearm: Option<int>)
      requires game.Valid()
      modifies this`keysPressed, game`boostMode, this`movementTimer
      ensures game.Valid()
      ensures keysPressed == old(keysPressed) - {key}
      ensures !HasDirectionKey(keysPressed) ==> !game.boostMode && !movementTimer
      ensures HasDirectionKey(keysPressed) ==>
        game.boostMode == old(game.boostMode) && movementTimer == old(movementTimer) && rearm.None?
    {
      keysPressed := keysPressed - {key};
      rearm := None;
      if !HasDirectionKey(keysPressed) {
        rearm := StopContinuousMovement();
      }
    }

    /**
     * touchstart on a button: the button becomes the current touch
     * direction, the turn is tried, and the 200 ms hold timeout is set.
     */
    method ButtonTouchStart(name: string, now: int)
      requires game.Valid()
      modifies this`currentTouchDirection, game`velocityX, game`velocityY, this`lastDirectionChange, this`holdTimer
      ensures game.Valid()
      ensures currentTouchDirection == Some(name) && holdTimer
      ensures var d := ButtonDir(name);
        if d.Some? && Allowed(d.value, old(Velocity())) && game.gameRunning
        then Velocity() == Delta(d.value)
        else Velocity() == old(Velocity())
    {
      currentTouchDirection := Some(name);
      HandleTouchDirection(name, now);
      holdTimer := true;
    }

    /**
     * The hold timeout fires: startTouchContinuousMovement, boost on and the
     * watch interval armed. The timeout handle itself is not cleared.
     */
    method HoldTimerFires() returns (rearm: Option<int>)
      requires game.Valid()
      modifies game`boostMode, this`movementTimer
      ensures game.Valid()
      ensures game.boostMode && movementTimer
    {
      rearm := StartContinuousMovement();
    }

    /** stopTouchContinuousMovement: no current touch direction, boost off, both timers cleared. */
    method StopTouchContinuousMovement() returns (rearm: Option<int>)
      requires game.Valid()
      modifies this`currentTouchDirection, game`boostMode, this`movementTimer, this`holdTimer
      ensures game.Valid()
      ensures currentTouchDirection.None? && !game.boostMode && !holdTimer && !movementTimer
    {
      currentTouchDirection := None;
      rearm := StopContinuousMovement();
      holdTimer := false;
    }

    /** The 50 ms watch of startTouchContinuousMovement(name): it stops once the game ends or another button is held. */
    method TouchTimerFires(name: string) returns (rearm: Option<int>)
      requires game.Valid()
      modifies this`currentTouchDirection, game`boostMode, this`movementTimer, this`holdTimer
      ensures game.Valid()
      ensures !game.gameRunning || old(currentTouchDirection) != Some(name) ==>
        currentTouchDirection.None? && !game.boostMode && !holdTimer && !movementTimer
      ensures game.gameRunning && old(currentTouchDirection) == Some(name) ==>
        && currentTouchDirection == old(currentTouchDirection) && game.boostMode == old(game.boostMode)
        && holdTimer == old(holdTimer) && movementTimer == old(movementTimer) && rearm.None?
    {
      rearm := None;
      if !game.gameRunning || currentTouchDirection != Some(name) {
        rearm := StopTouchContinuousMovement();
      }
    }

    /** touchstart on the canvas: the start point and time are kept, and two fingers on a running game toggle the pause. */
    method CanvasTouchStart(x: real, y: real, now: int, touches: nat)
      requires game.Valid()
      modifies this`touchStartX, this`touchStartY, this`touchStartTime, game`gamePaused, game`corporation
      ensures game.Valid()
      ensures touchStartX == x && touchStartY == y && touchStartTime == now
      ensures game.gamePaused == (old(game.gamePaused) != (game.gameRunning && touches == 2))
      ensures game.corporation ==
        if game.gameRunning && touches == 2 && old(game.gamePaused) then AwayFromWalls(old(game.corporation))
        else old(game.corporation)
    {
      touchStartX, touchStartY, touchStartTime := x, y, now;
      if game.gameRunning && touches == 2 {
        game.TogglePause();
      }
    }

    /**
     * touchend on the canvas: a second tap within 300 ms toggles the pause
     * and resets the tap time; otherwise the tap time is kept and, outside
     * the swipe cooldown, a significant swipe turns the body through the
     * reversal guard if the game is running, and stamps the swipe time.
     */
    method CanvasTouchEnd(x: real, y: real, now: int)
      requires game.Valid()
      modifies this`lastTapTime, this`lastSwipeTime, game`gamePaused, game`corporation,
        game`velocityX, game`velocityY
      ensures game.Valid()
      ensures now - old(lastTapTime) < DoubleTapWindow ==>
        && lastTapTime == 0 && game.gamePaused == !old(game.gamePaused)
        && Velocity() == old(Velocity()) && lastSwipeTime == old(lastSwipeTime)
        && game.corporation == if old(game.gamePaused) then AwayFromWalls(old(game.corporation)) else old(game.corporation)
      ensures now - old(lastTapTime) >= DoubleTapWindow ==>
        && lastTapTime == now && game.gamePaused == old(game.gamePaused) && game.corporation == old(game.corporation)
      ensures var diffX, diffY := touchStartX - x, touchStartY - y;
        var swiped := now - old(lastTapTime) >= DoubleTapWindow && now - old(lastSwipeTime) >= SwipeCooldown
          && Significant(diffX, diffY, now - touchStartTime);
        && lastSwipeTime == (if swiped then now else old(lastSwipeTime))
        && Velocity() == (if swiped && game.gameRunning then Steer(SwipeDir(diffX, diffY), old(Velocity()))
                          else old(Velocity()))
    {
      if now - lastTapTime < DoubleTapWindow {
        game.TogglePause();
        lastTapTime := 0;
      } else {
        lastTapTime := now;
        Swipe(x, y, now);
      }
    }

    /** The swipe part of touchend, past the double-tap test. */
    method Swipe(x: real, y: real, now: int)
      requires game.Valid()
      modifies this`lastSwipeTime, game`velocityX, game`velocityY
      ensures game.Valid()
      ensures var diffX, diffY := touchStartX - x, touchStartY - y;
        var swiped := now - old(lastSwipeTime) >= SwipeCooldown && Significant(diffX, diffY, now - touchStartTime);
        && lastSwipeTime == (if swiped then now else old(lastSwipeTime))
        && Velocity() == (if swiped && game.gameRunning then Steer(SwipeDir(diffX, diffY), old(Velocity()))
                          else old(Velocity()))
    {
      if now - lastSwipeTime < SwipeCooldown {
        return;
      }
      var diffX, diffY := touchStartX - x, touchStartY - y;
      if !Significant(diffX, diffY, now - touchStartTime) {
        return;
      }
      var d := SwipeDir(diffX, diffY);
      if Allowed(d, Velocity()) && game.gameRunning {
        game.SetVelocity(Delta(d));
      }
      lastSwipeTime := now;
    }
  }
}

=== FILE: economy.dfy ===
/**
 * The fixed tables and the arithmetic of js/game.js: difficulty settings, the
 * level table, the economic phase rule with its multipliers and attrition,
 * and the tick period derived from the crisis level.
 *
 * Multipliers are exact reals and every Math.floor is exact integer
 * division, so results can differ from JavaScript's floating point only where
 * a product lands within rounding error of an integer.
 */
module Economy {

  // ---------------------------------------------------------------------
  // Difficulty settings (difficultySettings)
  // ---------------------------------------------------------------------

  datatype DifficultySetting = DifficultySetting(
    name: string, baseSpeed: int, baseRegulations: int, increment: int)

  const DifficultySettings: seq<DifficultySetting> := [
    DifficultySetting("FAKE NEWS (EASY)", 120, 1, 0),
    DifficultySetting("TREMENDOUS (NORMAL)", 90, 1, 1),
    DifficultySetting("BIGLY (HARD)", 60, 3, 1)
  ]

  /** The difficulty the game starts with (currentDifficulty = 1). */
  const DefaultDifficulty: nat := 1

  predicate IsDifficulty(d: int) {
    0 <= d < |DifficultySettings|
  }

  /** updateMaxRegulations: baseRegulations + increment * (currentLevel - 1). */
  function MaxRegulationsFor(difficulty: nat, level: int): (r: int)
    requires IsDifficulty(difficulty)
    requires level >= 1
    ensures r >= DifficultySettings[difficulty].baseRegulations >= 1
    ensures DifficultySettings[difficulty].increment == 0 ==> r == DifficultySettings[difficulty].baseRegulations
  {
    var s := DifficultySettings[difficulty];
    s.baseRegulations + s.increment * (level - 1)
  }

  lemma MaxRegulationsMonotone(difficulty: nat, level: int, level': int)
    requires IsDifficulty(difficulty)
    requires 1 <= level <= level'
    ensures MaxRegulationsFor(difficulty, level) <= MaxRegulationsFor(difficulty, level')
    ensures difficulty > 0 ==> MaxRegulationsFor(difficulty, level') - MaxRegulationsFor(difficulty, level) == level' - level
  {
  }

  // ---------------------------------------------------------------------
  // Levels (levelFeatures, maxLevel)
  // ---------------------------------------------------------------------

  const MaxLevel: int := 8

  datatype LevelFeature = LevelFeature(level: int, assetsRequired: int, name: string)

  const LevelFeatures: seq<LevelFeature> := [
    LevelFeature(1, 5, "Taj Mahal"),
    LevelFeature(2, 8, "Casino"),
    LevelFeature(3, 12, "Plaza"),
    LevelFeature(4, 16, "Hotel"),
    LevelFeature(5, 20, "Resorts"),
    LevelFeature(6, 25, "Entertainment"),
    LevelFeature(7, 35, "Presidency 1"),
    LevelFeature(8, 50, "Presidency 2")
  ]

  predicate IsLevel(level: int) {
    1 <= level <= MaxLevel
  }

  /**
   * The cumulative asset count that ends `level`: assetsForNextCycle while
   * the game is at that level. ThresholdIsTable ties it to the table.
   */
  function Threshold(level: int): (r: int)
    requires IsLevel(level)
    ensures 5 <= r <= 50
  {
    if level == 1 then 5 else if level == 2 then 8 else if level == 3 then 12 else if level == 4 then 16
    else if level == 5 then 20 else if level == 6 then 25 else if level == 7 then 35 else 50
  }

  /** Threshold(level) is levelFeatures[level - 1].assetsRequired. */
  lemma ThresholdIsTable(level: int)
    requires IsLevel(level)
    ensures Threshold(level) == LevelFeatures[level - 1].assetsRequired
  {
    assert level in {1, 2, 3, 4, 5, 6, 7, 8};
  }

  /** The table lists levels 1..8 in order with strictly rising thresholds. */
  lemma LevelTableOrdered()
    ensures |LevelFeatures| == MaxLevel
    ensures forall i :: 0 <= i < |LevelFeatures| ==> LevelFeatures[i].level == i + 1
    ensures forall l, l' :: IsLevel(l) && IsLevel(l') && l < l' ==> Threshold(l) < Threshold(l')
  {
    forall l, l' | IsLevel(l) && IsLevel(l') && l < l'
      ensures Threshold(l) < Threshold(l')
    {
      ThresholdStep(l, l');
    }
  }

  lemma {:induction false} ThresholdStep(l: int, l': int)
    requires IsLevel(l) && IsLevel(l') && l < l'
    ensures Threshold(l) < Threshold(l')
    decreases l' - l
  {
    assert Threshold(l) < Threshold(l + 1) by {
      assert l in {1, 2, 3, 4, 5, 6, 7};
    }
    if l + 1 < l' {
      ThresholdStep(l + 1, l');
    }
  }

  /**
   * checkLevelProgression's effect on the level: one step up once the
   * consumed count reaches the level's threshold, never past the last level.
   */
  function LevelAfter(level: int, consumed: int): (r: int)
    requires IsLevel(level)
    ensures IsLevel(r) && (r == level || r == level + 1)
  {
    if consumed >= Threshold(level) && level < MaxLevel then level + 1 else level
  }

  /**
   * Between ticks the consumed count lies at or above the previous level's
   * threshold and, below the last level, under the current one.
   */
  predicate LevelInvariant(level: int, consumed: int) {
    && IsLevel(level)
    && consumed >= 0
    && (level < MaxLevel ==> consumed < Threshold(level))
    && (level > 1 ==> consumed >= Threshold(level - 1))
  }

  /** One more asset followed by the progression check keeps the level invariant. */
  lemma LevelInvariantKept(level: int, consumed: int)
    requires LevelInvariant(level, consumed)
    ensures LevelInvariant(LevelAfter(level, consumed + 1), consumed + 1)
    ensures LevelAfter(level, consumed + 1) == level + 1 <==> level < MaxLevel && consumed + 1 == Threshold(level)
  {
    if level < MaxLevel && consumed + 1 >= Threshold(level) {
      ThresholdStep(level, level + 1);
    }
  }

  /** Math.min(meter + amount, 100): the inequality and crisis meters saturate at 100. */
  function Raise(meter: int, amount: int): (r: int)
    requires 0 <= meter <= 100 && amount >= 0
    ensures meter <= r <= 100
    ensures r == meter + amount || (r == 100 && meter + amount >= 100)
  {
    if meter + amount < 100 then meter + amount else 100
  }

  // ---------------------------------------------------------------------
  // Economic phases (PHASE, checkEconomicPhaseEffects, applyPhaseEffects)
  // ---------------------------------------------------------------------

  /** GROWTH 'campaign', RECESSION 'scandal', DEPRESSION 'bankruptcy', RECOVERY 'comeback'. */
  datatype Phase = Growth | Recession | Depression | Recovery

  /**
   * The phase checkEconomicPhaseEffects settles on: the first of its four
   * tests that holds, otherwise the current phase.
   */
  function NextPhase(current: Phase, crisis: int): (r: Phase)
    ensures r == Depression <==> crisis > 80 || (current == Depression && 30 <= crisis <= 40)
                                            || (current == Depression && 40 < crisis <= 60)
    ensures r == Recession <==> (60 < crisis <= 80) || (current == Recession && 30 <= crisis <= 40)
    ensures r == Recovery <==> (current == Recession && 40 < crisis <= 60) || (current == Recovery && 30 <= crisis <= 60)
    ensures r == Growth <==> crisis < 30 || (current == Growth && 30 <= crisis <= 60)
  {
    if crisis > 80 then Depression
    else if crisis > 60 then Recession
    else if crisis > 40 && current == Recession then Recovery
    else if crisis < 30 then Growth
    else current
  }

  /** Choosing the phase twice for the same crisis level changes nothing more. */
  lemma NextPhaseIdempotent(current: Phase, crisis: int)
    ensures NextPhase(NextPhase(current, crisis), crisis) == NextPhase(current, crisis)
  {
  }

  /** economicCycle of each phase: 1, 0.7, 0.4 and 0.8. */
  function Multiplier(p: Phase): (r: real)
    ensures 0.0 < r <= 1.0
    ensures r == 1.0 <==> p == Growth
  {
    match p
    case Growth => 1.0
    case Recession => 0.7
    case Depression => 0.4
    case Recovery => 0.8
  }

  /** Tenths of the workforce laid off when entering the phase. */
  function AttritionTenths(p: Phase): (r: int)
    ensures 0 <= r <= 2
    ensures r > 0 <==> p == Recession || p == Depression
  {
    match p
    case Recession => 1
    case Depression => 2
    case _ => 0
  }

  /** Math.floor(workforce * 0.1) or * 0.2: the workers laid off. */
  function LaidOff(p: Phase, workforce: int): int {
    (workforce * AttritionTenths(p)) / 10
  }

  /** Math.floor(workforce * 0.9) or * 0.8: the workers kept. */
  function Kept(p: Phase, workforce: int): int {
    (workforce * (10 - AttritionTenths(p))) / 10
  }

  /**
   * Attrition never makes the workforce negative, and the two floors lose at
   * most one worker: kept + laid off is the old workforce exactly when the
   * laid-off share is a whole number, and one less otherwise.
   */
  lemma AttritionAccounting(p: Phase, workforce: int)
    requires workforce >= 0
    ensures 0 <= Kept(p, workforce) <= workforce
    ensures LaidOff(p, workforce) >= 0
    ensures (workforce * AttritionTenths(p)) % 10 == 0 ==> Kept(p, workforce) + LaidOff(p, workforce) == workforce
    ensures (workforce * AttritionTenths(p)) % 10 != 0 ==> Kept(p, workforce) + LaidOff(p, workforce) == workforce - 1
  {
    var t := AttritionTenths(p);
    var q, r := (workforce * t) / 10, (workforce * t) % 10;
    assert workforce * t == 10 * q + r;
    assert workforce * (10 - t) == 10 * (workforce - q) - r;
    if r == 0 {
      assert Kept(p, workforce) == workforce - q;
    } else {
      assert workforce * (10 - t) == 10 * (workforce - q - 1) + (10 - r);
      assert Kept(p, workforce) == workforce - q - 1;
    }
    assert 0 <= workforce * (10 - t) <= 10 * workforce;
  }

  /** A phase without attrition leaves the workforce and layoffs alone. */
  lemma NoAttritionOutsideDownturns(p: Phase, workforce: int)
    requires p == Growth || p == Recovery
    ensures Kept(p, workforce) == workforce && LaidOff(p, workforce) == 0
  {
  }

  // ---------------------------------------------------------------------
  // Tick period (updateGameSpeed, setBoostMode)
  // ---------------------------------------------------------------------

  /** The hard floor of the tick period, in milliseconds. */
  const MinPeriod: int := 20

  function Max(a: int, b: int): int {
    if a >= b then a else b
  }

  /**
   * updateGameSpeed: max(20, floor(base * (1 - crisis / 1000))), or
   * max(20, floor(base * 0.5)) from crisis 100 on.
   */
  function TickPeriod(base: int, crisis: int): (r: int)
    ensures r >= MinPeriod
    ensures base >= MinPeriod && crisis >= 0 ==> r <= base
    ensures crisis == 0 && base >= MinPeriod ==> r == base
  {
    if crisis >= 100 then Max(MinPeriod, base / 2)
    else Max(MinPeriod, (base * (1000 - crisis)) / 1000)
  }

  /** base * (1000 - crisis) shrinks as crisis grows. */
  lemma ScaledBaseMonotone(base: int, crisis: int, crisis': int)
    requires base >= 0 && crisis <= crisis'
    ensures base * (1000 - crisis') <= base * (1000 - crisis)
  {
    var gap := crisis' - crisis;
    assert base * (1000 - crisis) == base * (1000 - crisis') + base * gap;
    assert base * gap >= 0;
  }

  /** Truncating division by 1000 keeps the order of non-negative numbers. */
  lemma ThousandthsMonotone(a: int, b: int)
    requires 0 <= a <= b
    ensures a / 1000 <= b / 1000
  {
  }

  /** More crisis never lengthens the tick period. */
  lemma TickPeriodMonotone(base: int, crisis: int, crisis': int)
    requires base >= 0
    requires 0 <= crisis <= crisis'
    ensures TickPeriod(base, crisis') <= TickPeriod(base, crisis)
  {
    if crisis' < 100 {
      TickPeriodMonotoneBelowCap(base, crisis, crisis');
    } else if crisis < 100 {
      TickPeriodAtCap(base, crisis, crisis');
    }
  }

  /** Below crisis 100 the period follows base * (1000 - crisis) / 1000. */
  lemma TickPeriodMonotoneBelowCap(base: int, crisis: int, crisis': int)
    requires base >= 0
    requires 0 <= crisis <= crisis' < 100
    ensures TickPeriod(base, crisis') <= TickPeriod(base, crisis)
  {
    ScaledBaseMonotone(base, crisis, crisis');
    ThousandthsMonotone(base * (1000 - crisis'), base * (1000 - crisis));
  }

  /** From crisis 100 on the period is base / 2, never more than the formula gives below 100. */
  lemma TickPeriodAtCap(base: int, crisis: int, crisis': int)
    requires base >= 0
    requires 0 <= crisis < 100 <= crisis'
    ensures TickPeriod(base, crisis') <= TickPeriod(base, crisis)
  {
    ScaledBaseMonotone(base, crisis, 500);
    ThousandthsMonotone(base * 500, base * (1000 - crisis));
    assert base / 2 == (base * 500) / 1000;
  }

  /** The period setBoostMode re-arms the loop with: half the speed while boosting. */
  function BoostPeriod(gameSpeed: int, boosting: bool): (r: int)
    requires gameSpeed > 0
    ensures boosting ==> 2 * r <= gameSpeed < 2 * r + 2
    ensures !boosting ==> r == gameSpeed
  {
    if boosting then gameSpeed / 2 else gameSpeed
  }
}

=== FILE: format.dfy ===
/**
 * formatCapital of js/game.js: capital shown in millions ('M'), billions
 * ('B') or trillions ('T'), with the amount truncated to whole units. The
 * decimal rendering of an integer (JavaScript's number-to-string) is given
 * here with its inverse, so the display can be read back.
 */
module Format {

  predicate IsDigit(c: char) {
    '0' <= c <= '9'
  }

  predicate AllDigits(s: string) {
    forall i :: 0 <= i < |s| ==> IsDigit(s[i])
  }

  function DigitChar(d: int): (c: char)
    requires 0 <= d < 10
    ensures IsDigit(c)
  {
    "0123456789"[d]
  }

  function DigitValue(c: char): (d: int)
    requires IsDigit(c)
    ensures 0 <= d < 10
    ensures DigitChar(d) == c
  {
    c as int - '0' as int
  }

  /** The decimal numeral of n: no sign and no leading zero. */
  function NatToString(n: nat): (s: string)
    ensures |s| >= 1
    ensures AllDigits(s)
    ensures |s| > 1 ==> s[0] != '0'
  {
    if n < 10 then [DigitChar(n)] else NatToString(n / 10) + [DigitChar(n % 10)]
  }

  /** The value of a string of decimal digits. */
  function ParseNat(s: string): (n: nat)
    requires AllDigits(s)
  {
    if |s| == 0 then 0 else 10 * ParseNat(s[..|s| - 1]) + DigitValue(s[|s| - 1])
  }

  lemma {:induction false} ParseNatToString(n: nat)
    ensures ParseNat(NatToString(n)) == n
  {
    var s := NatToString(n);
    if n >= 10 {
      assert s[..|s| - 1] == NatToString(n / 10);
      ParseNatToString(n / 10);
    }
  }

  /** An optional minus sign followed by decimal digits. */
  predicate IsNumeral(s: string) {
    |s| >= 1 && if s[0] == '-' then AllDigits(s[1..]) else AllDigits(s)
  }

  /** JavaScript's String(i) for an integer i below 1e21 in magnitude. */
  function IntToString(i: int): (s: string)
    ensures IsNumeral(s)
    ensures i >= 0 <==> s[0] != '-'
  {
    if i < 0 then "-" + NatToString(-i) else NatToString(i)
  }

  function ParseInt(s: string): int
    requires IsNumeral(s)
  {
    if s[0] == '-' then -(ParseNat(s[1..]) as int) else ParseNat(s)
  }

  lemma IntToStringRoundTrip(i: int)
    ensures ParseInt(IntToString(i)) == i
  {
    if i < 0 {
      NegativeRoundTrip(i);
    } else {
      ParseNatToString(i);
    }
  }

  /** The numeral of a negative i is a minus sign followed by the numeral of -i. */
  lemma NegativeRoundTrip(i: int)
    requires i < 0
    ensures ParseInt(IntToString(i)) == i
  {
    var t := NatToString(-i);
    var s := "-" + t;
    assert IntToString(i) == s;
    assert s[0] == '-' && s[1..] == t;
    ParseNatToString(-i);
  }

  /** The unit a capital value is shown in, and its size in millions. */
  function Scale(value: real): (r: real)
    ensures r == 1.0 || r == 1000.0 || r == 1000000.0
  {
    if value < 1000.0 then 1.0 else if value < 1000000.0 then 1000.0 else 1000000.0
  }

  function Suffix(value: real): char {
    if value < 1000.0 then 'M' else if value < 1000000.0 then 'B' else 'T'
  }

  /** formatCapital: floor(value / unit) followed by the unit's letter. */
  function FormatCapital(value: real): (s: string)
    ensures |s| >= 2
    ensures s[|s| - 1] == 'M' <==> value < 1000.0
    ensures s[|s| - 1] == 'B' <==> 1000.0 <= value < 1000000.0
    ensures s[|s| - 1] == 'T' <==> 1000000.0 <= value
  {
    IntToString((value / Scale(value)).Floor) + [Suffix(value)]
  }

  /**
   * Reading the display back: the numeral before the letter, times the unit,
   * is the value truncated to whole units, so it is at most the value and
   * less than one unit below it.
   */
  lemma FormatCapitalReadBack(value: real)
    ensures var s := FormatCapital(value);
      && IsNumeral(s[..|s| - 1])
      && var shown := ParseInt(s[..|s| - 1]) as real * Scale(value);
      shown <= value < shown + Scale(value)
  {
    var u := Scale(value);
    var f := (value / u).Floor;
    var s := FormatCapital(value);
    assert s[..|s| - 1] == IntToString(f);
    IntToStringRoundTrip(f);
    assert f as real <= value / u < f as real + 1.0;
    assert f as real * u <= value < f as real * u + u by {
      assert (value / u) * u == value;
    }
  }

  /** Small amounts are shown in whole millions: 0 <= value < 1000 shows as floor(value) 'M'. */
  lemma FormatSmallCapital(value: real)
    requires 0.0 <= value < 1000.0
    ensures FormatCapital(value) == NatToString(value.Floor) + "M"
  {
  }
}

=== FILE: game.dfy ===
/**
 * The game state of js/game.js: its top-level `let` bindings as the fields
 * of one Game object, and the functions that update them as its methods.
 *
 * Math.random enters in two forms: `rng` with a cursor for the cells that
 * createRandomPosition draws, and a Rolls record for the other draws of a
 * tick. Timers become explicit method calls.
 */
module Engine {
  import opened Grid
  import opened Economy
  import opened Rules
  import Storm

  /**
   * The Math.random draws of one tick other than cells: the storm effect
   * index, Date.now(), the community-regulation roll of
   * handleResourceConsumption and the two rolls of handlePeriodicEffects.
   */
  datatype Rolls = Rolls(effectIndex: nat, now: int, communityRoll: real, crisisRoll: real, regulationRoll: real)

  predicate ValidRolls(r: Rolls) {
    r.effectIndex < |Storm.TwitterEffects|
  }

  /** handlePeriodicEffects' regulation chance: (regulationFrequency || 0.3) / 10, the setting never being defined. */
  const RegulationChance: real := 0.03

  /** The score counters handleResourceConsumption updates. */
  datatype Tally = Tally(
    capital: real, workforce: int, assetsConsumed: int, laborConsumed: int,
    communitiesConsumed: int, inequalityLevel: int, crisisLevel: int)

  /** The start position of the body: Math.floor(tileCount / 2) on both axes. */
  const StartCell: Pos := Pos(TileCount / 2, TileCount / 2)

  /**
   * The record startGame's reset leaves before the first asset and the
   * regulations are placed: capital 1, every meter and counter 0, level 1
   * in Growth, the body a single cell in the middle, standing still.
   */
  function NewGame(spray: string, speed: int): (s: Snapshot)
    requires speed > 0
    ensures SnapshotValid(s)
    ensures s.currentPhase == NextPhase(s.currentPhase, s.crisisLevel)
    ensures s.assetsForNextCycle == LevelFeatures[0].assetsRequired
  {
    Snapshot(1.0, 0, 0, 1.0, 0, 0, 0, [], Growth, 0, 0, 1, false, false, 0, Threshold(1),
             [StartCell], 0, 0, Pos(0, 0), [], [], [], spray, speed)
  }

  class Game {
    // difficulty and timing
    var currentDifficulty: int
    var gameBaseSpeed: int
    var maxRegulations: int
    var gameSpeed: int

    // game state
    var gameRunning: bool
    var gamePaused: bool
    var gameTickCount: int
    var invincibilityMode: bool
    var currentPhase: Phase
    var boostMode: bool
    var boostTickCounter: int

    // score and resources
    var capital: real
    var workforce: int
    var layoffs: int
    var economicCycle: real
    var assetsConsumed: int
    var laborConsumed: int
    var communitiesConsumed: int
    var assetsForNextCycle: int
    var inequalityLevel: int
    var crisisLevel: int
    var crisisWarnings: int

    // game objects
    var corporation: seq<Pos>
    var regulations: seq<Pos>
    var velocityX: int
    var velocityY: int
    var lastDirection: Pos
    var currentLevel: int
    var allAssets: seq<Pos>
    var allLabor: seq<Pos>
    var allCommunities: seq<Pos>
    var sprayTanIntensity: string

    var savedGameState: Option<Snapshot>

    /** The storm power-up of js/twitter-storm.js, which shares the page with the game. */
    const storm: Storm.StormSystem

    /** The 25 fields saveGameState records, as they are now. */
    function Current(): Snapshot
      reads this`capital, this`workforce, this`layoffs, this`economicCycle, this`assetsConsumed,
        this`inequalityLevel, this`crisisLevel, this`regulations, this`currentPhase, this`crisisWarnings,
        this`gameTickCount, this`currentLevel, this`invincibilityMode, this`boostMode, this`boostTickCounter,
        this`assetsForNextCycle, this`corporation, this`velocityX, this`velocityY, this`lastDirection,
        this`allAssets, this`allLabor, this`allCommunities, this`sprayTanIntensity, this`gameSpeed
    {
      Snapshot(capital, workforce, layoffs, economicCycle, assetsConsumed, inequalityLevel, crisisLevel,
               regulations, currentPhase, crisisWarnings, gameTickCount, currentLevel, invincibilityMode,
               boostMode, boostTickCounter, assetsForNextCycle, corporation, velocityX, velocityY,
               lastDirection, allAssets, allLabor, allCommunities, sprayTanIntensity, gameSpeed)
    }

    /** Everything isPositionOccupied looks at. */
    function Occupancy(): Board
      reads this`corporation, this`allAssets, this`allLabor, this`allCommunities, this`regulations, storm
    {
      Board(corporation, allAssets, allLabor, allCommunities, regulations, storm.twitterStorm)
    }

    ghost function Tallies(): Tally
      reads this`capital, this`workforce, this`assetsConsumed, this`laborConsumed, this`communitiesConsumed,
        this`inequalityLevel, this`crisisLevel
    {
      Tally(capital, workforce, assetsConsumed, laborConsumed, communitiesConsumed, inequalityLevel, crisisLevel)
    }

    /**
     * The invariant between operations: the storm's own invariant, the
     * difficulty settings in force, and the saved-game invariant (SnapshotValid)
     * of the live fields and of any saved record.
     */
    ghost predicate Valid()
      reads this`currentDifficulty, this`gameBaseSpeed, this`maxRegulations, this`capital, this`workforce,
        this`layoffs, this`inequalityLevel, this`crisisLevel, this`crisisWarnings, this`currentLevel,
        this`assetsConsumed, this`assetsForNextCycle, this`currentPhase, this`economicCycle,
        this`gameTickCount, this`boostTickCounter, this`gameSpeed, this`velocityX, this`velocityY,
        this`corporation, this`regulations, this`allAssets, this`allLabor, this`allCommunities,
        this`laborConsumed, this`communitiesConsumed, this`savedGameState, storm
    {
      var ok :=
      && storm.Valid()
      && SettingsValid()
      && laborConsumed >= 0 && communitiesConsumed >= 0
      && MetersValid()
      && ProgressValid()
      && BoardValid()
      && (savedGameState.Some? ==> SnapshotValid(savedGameState.value));
      ok
    }

    ghost predicate SettingsValid()
      reads this`currentDifficulty, this`gameBaseSpeed, this`maxRegulations
    {
      && IsDifficulty(currentDifficulty)
      && gameBaseSpeed == DifficultySettings[currentDifficulty].baseSpeed
      && maxRegulations >= 1
    }

    ghost predicate MetersValid()
      reads this`capital, this`workforce, this`layoffs, this`inequalityLevel, this`crisisLevel,
        this`crisisWarnings
    {
      && capital >= 0.0 && workforce >= 0 && layoffs >= 0
      && 0 <= inequalityLevel <= 100 && 0 <= crisisLevel <= 100
      && 0 <= crisisWarnings <= 3
    }

    ghost predicate ProgressValid()
      reads this`currentLevel, this`assetsConsumed, this`assetsForNextCycle, this`currentPhase,
        this`economicCycle, this`gameTickCount, this`boostTickCounter, this`gameSpeed
    {
      && gameTickCount >= 0 && boostTickCounter >= 0
      && LevelInvariant(currentLevel, assetsConsumed)
      && assetsForNextCycle == Threshold(currentLevel)
      && economicCycle == Multiplier(currentPhase)
      && gameSpeed > 0
    }

    ghost predicate BoardValid()
      reads this`velocityX, this`velocityY, this`corporation, this`regulations,
        this`allAssets, this`allLabor, this`allCommunities
    {
      && IsVelocity(velocityX, velocityY)
      && AllInGrid(corporation) && AllInGrid(regulations)
      && AllInGrid(allAssets) && AllInGrid(allLabor) && AllInGrid(allCommunities)
    }

    /** The grouped conditions are SnapshotValid of the live fields. */
    lemma CurrentValid()
      ensures SnapshotValid(Current()) <==> MetersValid() && ProgressValid() && BoardValid()
    {
    }

    /** The period the interval is re-armed with when the game is live, if it is. */
    function Rearm(period: int): Option<int>
      reads this
      requires period > 0
    {
      if gameRunning && !gamePaused then Some(BoostPeriod(period, boostMode)) else None
    }

    /**
     * The declarations of js/game.js and js/twitter-storm.js, then init():
     * setDifficulty(currentDifficulty) and exposeGameAPI.
     */
    constructor ()
      ensures Valid()
      ensures Current() == Snapshot(0.0, 0, 0, 1.0, 0, 0, 0, [], Growth, 0, 0, 1, false, false, 0, 5,
                                    [], 0, 0, Pos(0, 0), [], [], [], "NORMAL", 90)
      ensures currentDifficulty == DefaultDifficulty && gameBaseSpeed == 90 && maxRegulations == 1
      ensures !gameRunning && !gamePaused && laborConsumed == 0 && communitiesConsumed == 0
      ensures savedGameState.None?
      ensures fresh(storm) && storm.State() == Storm.StormState(None, false, "", 0, Storm.ExposedHost)
    {
      currentDifficulty := DefaultDifficulty;
      gameBaseSpeed := DifficultySettings[DefaultDifficulty].baseSpeed;
      maxRegulations := DifficultySettings[DefaultDifficulty].baseRegulations;
      gameSpeed := gameBaseSpeed;
      gameRunning := false;
      gamePaused := false;
      gameTickCount := 0;
      invincibilityMode := false;
      currentPhase := Growth;
      boostMode := false;
      boostTickCounter := 0;
      capital := 0.0;
      workforce := 0;
      layoffs := 0;
      economicCycle := 1.0;
      assetsConsumed := 0;
      laborConsumed := 0;
      communitiesConsumed := 0;
      assetsForNextCycle := 5;
      inequalityLevel := 0;
      crisisLevel := 0;
      crisisWarnings := 0;
      corporation := [];
      regulations := [];
      velocityX := 0;
      velocityY := 0;
      lastDirection := Pos(0, 0);
      currentLevel := 1;
      allAssets := [];
      allLabor := [];
      allCommunities := [];
      sprayTanIntensity := "NORMAL";
      savedGameState := None;
      storm := new Storm.StormSystem(Storm.ExposedHost);
    }

    // -------------------------------------------------------------------
    // Speed (setGameSpeed, updateGameSpeed, setBoostMode, setDifficulty)
    // -------------------------------------------------------------------

    /**
     * setGameSpeed: `speed` is None when the argument is not a number.
     * Returns the period the interval is re-armed with, if it is.
     */
    method SetGameSpeed(speed: Option<int>) returns (rearm: Option<int>)
      requires Valid()
      modifies this`gameSpeed
      ensures Valid()
      ensures speed.None? || speed.value <= 0 ==> gameSpeed == old(gameSpeed) && rearm.None?
      ensures speed.Some? && speed.value > 0 ==> gameSpeed == speed.value && rearm == Rearm(speed.value)
    {
      if speed.None? || speed.value <= 0 {
        return None;
      }
      gameSpeed := speed.value;
      rearm := None;
      if gameRunning && !gamePaused {
        rearm := Some(if boostMode then gameSpeed / 2 else gameSpeed);
      }
    }

    /** updateGameSpeed: the base speed shortened by the crisis level, never under 20 ms. */
    method UpdateGameSpeed() returns (rearm: Option<int>)
      requires Valid()
      modifies this`gameSpeed
      ensures Valid()
      ensures gameSpeed == TickPeriod(gameBaseSpeed, crisisLevel)
      ensures MinPeriod <= gameSpeed <= gameBaseSpeed
      ensures rearm == Rearm(gameSpeed)
    {
      var newSpeed := if crisisLevel >= 100 then Max(MinPeriod, gameBaseSpeed / 2)
                      else Max(MinPeriod, (gameBaseSpeed * (1000 - crisisLevel)) / 1000);
      rearm := SetGameSpeed(Some(newSpeed));
    }

    /** window.setBoostMode: nothing happens when the flag already has the requested value. */
    method SetBoostMode(enabled: bool) returns (rearm: Option<int>)
      requires Valid()
      modifies this`boostMode
      ensures Valid()
      ensures boostMode == enabled
      ensures old(boostMode) == enabled ==> rearm.None?
      ensures old(boostMode) != enabled ==> rearm == Rearm(gameSpeed)
      ensures old(boostMode) != enabled && enabled && gameRunning && !gamePaused ==> rearm == Some(gameSpeed / 2)
    {
      if boostMode == enabled {
        return None;
      }
      boostMode := enabled;
      rearm := None;
      if gameRunning && !gamePaused {
        rearm := Some(if enabled then gameSpeed / 2 else gameSpeed);
      }
    }

    /**
     * The window.velocityX and window.velocityY setters of exposeGameAPI,
     * written together; the input handlers only ever write a unit step.
     */
    method SetVelocity(v: Pos)
      requires Valid() && IsVelocity(v.x, v.y)
      modifies this`velocityX, this`velocityY
      ensures Valid()
      ensures velocityX == v.x && velocityY == v.y
    {
      velocityX := v.x;
      velocityY := v.y;
    }

    /** updateMaxRegulations. */
    method UpdateMaxRegulations()
      requires Valid()
      modifies this`maxRegulations
      ensures Valid()
      ensures maxRegulations == MaxRegulationsFor(currentDifficulty, currentLevel)
    {
      var setting := DifficultySettings[currentDifficulty];
      maxRegulations := setting.baseRegulations + setting.increment * (currentLevel - 1);
    }

    /** setDifficulty: a new base speed, regulation cap and period. */
    method SetDifficulty(level: int) returns (rearm: Option<int>)
      requires Valid()
      requires IsDifficulty(level)
      modifies this`currentDifficulty, this`gameBaseSpeed, this`maxRegulations, this`gameSpeed
      ensures Valid()
      ensures currentDifficulty == level && gameBaseSpeed == DifficultySettings[level].baseSpeed
      ensures maxRegulations == MaxRegulationsFor(level, currentLevel)
      ensures gameSpeed == TickPeriod(gameBaseSpeed, crisisLevel) && rearm == Rearm(gameSpeed)
    {
      currentDifficulty := level;
      gameBaseSpeed := DifficultySettings[currentDifficulty].baseSpeed;
      UpdateMaxRegulations();
      rearm := UpdateGameSpeed();
    }

    // -------------------------------------------------------------------
    // Pools and regulations (placeAsset, placeLabor, placeCommunity,
    // addRegulation, fillRegulations)
    // -------------------------------------------------------------------

    /**
     * placeAsset: the pool is emptied on tick 0, then filled up to the level
     * with free cells. The `assets` mirror is not kept, but its fallback
     * `createRandomPosition()` on an empty pool uses up one cell draw.
     */
    method PlaceAsset(rng: Rng, k: nat) returns (next: nat)
      requires Valid()
      modifies this`allAssets
      ensures Valid()
      ensures k <= next
      ensures var start := if gameTickCount == 0 then [] else old(allAssets);
        && |start| <= |allAssets| && allAssets[..|start|] == start
        && (|allAssets| <= currentLevel || allAssets == start)
        && forall i :: |start| <= i < |allAssets| ==>
             InGrid(allAssets[i]) && !IsPositionOccupied(old(Occupancy()).(assets := allAssets[..i]), allAssets[i])
      ensures |allAssets| < currentLevel ==>
        var last := if |allAssets| == 0 then next - 1 else next;
        last >= k + 101 && GaveUp(old(Occupancy()).(assets := allAssets), rng, last)
    {
      var start := if gameTickCount == 0 then [] else allAssets;
      allAssets, next := FillPool(Occupancy(), AssetPool, start, currentLevel, rng, k);
      if |allAssets| == 0 {
        next := next + 1;
      }
    }

    /** placeLabor: nothing when the pool is full, otherwise filled up to the level with free cells. */
    method PlaceLabor(rng: Rng, k: nat) returns (next: nat)
      requires Valid()
      modifies this`allLabor
      ensures Valid()
      ensures old(|allLabor|) >= currentLevel ==> allLabor == old(allLabor) && next == k
      ensures k <= next
      ensures old(|allLabor|) <= |allLabor| && allLabor[..old(|allLabor|)] == old(allLabor)
      ensures |allLabor| <= currentLevel || allLabor == old(allLabor)
      ensures forall i :: old(|allLabor|) <= i < |allLabor| ==>
        !IsPositionOccupied(old(Occupancy()).(labor := allLabor[..i]), allLabor[i])
      ensures |allLabor| < currentLevel ==>
        next >= k + 101 && GaveUp(old(Occupancy()).(labor := allLabor), rng, next)
    {
      if |allLabor| >= currentLevel {
        return k;
      }
      allLabor, next := FillPool(Occupancy(), LaborPool, allLabor, currentLevel, rng, k);
    }

    /** placeCommunity: as placeLabor, for the community pool. */
    method PlaceCommunity(rng: Rng, k: nat) returns (next: nat)
      requires Valid()
      modifies this`allCommunities
      ensures Valid()
      ensures old(|allCommunities|) >= currentLevel ==> allCommunities == old(allCommunities) && next == k
      ensures k <= next
      ensures old(|allCommunities|) <= |allCommunities| && allCommunities[..old(|allCommunities|)] == old(allCommunities)
      ensures |allCommunities| <= currentLevel || allCommunities == old(allCommunities)
      ensures forall i :: old(|allCommunities|) <= i < |allCommunities| ==>
        !IsPositionOccupied(old(Occupancy()).(communities := allCommunities[..i]), allCommunities[i])
      ensures |allCommunities| < currentLevel ==>
        next >= k + 101 && GaveUp(old(Occupancy()).(communities := allCommunities), rng, next)
    {
      if |allCommunities| >= currentLevel {
        return k;
      }
      allCommunities, next := FillPool(Occupancy(), CommunityPool, allCommunities, currentLevel, rng, k);
    }

    /**
     * addRegulation: below the cap, one more regulation on a free cell. The
     * source redraws random cells until one is free; here the cell is the
     * first free one, and a full board, where the source never returns,
     * adds nothing.
     */
    method AddRegulation()
      requires Valid()
      modifies this`regulations
      ensures Valid()
      ensures old(|regulations|) >= maxRegulations || FirstFreeCell(old(Occupancy())).None? ==>
        regulations == old(regulations)
      ensures old(|regulations|) < maxRegulations && FirstFreeCell(old(Occupancy())).Some? ==>
        regulations == old(regulations) + [FirstFreeCell(old(Occupancy())).value]
      ensures |regulations| > old(|regulations|) ==>
        !IsPositionOccupied(old(Occupancy()), regulations[|regulations| - 1])
      ensures regulations == AddRegulations(old(Occupancy()), maxRegulations, 1)
    {
      assert AddRegulations(Occupancy(), maxRegulations, 0) == regulations;
      if |regulations| >= maxRegulations {
        return;
      }
      var cell := FirstFreeCell(Occupancy());
      if cell.Some? {
        regulations := regulations + [cell.value];
      }
    }

    /**
     * fillRegulations: regulations are added until the cap is reached, and a
     * list over the cap is cut down to its first maxRegulations entries.
     */
    method FillRegulations()
      requires Valid()
      modifies this`regulations
      ensures Valid()
      ensures RegulationsFilled(old(Occupancy()), maxRegulations, regulations)
    {
      while |regulations| < maxRegulations
        invariant Valid()
        invariant old(|regulations|) <= maxRegulations ==>
          && old(|regulations|) <= |regulations| <= maxRegulations
          && regulations[..old(|regulations|)] == old(regulations)
          && forall i :: old(|regulations|) <= i < |regulations| ==>
               !IsPositionOccupied(old(Occupancy()).(regulations := regulations[..i]), regulations[i])
        invariant old(|regulations|) > maxRegulations ==> regulations == old(regulations)
        decreases maxRegulations - |regulations|
      {
        var before := regulations;
        AddRegulation();
        if |regulations| == |before| {
          break;
        }
        assert regulations[..|before|] == before;
        assert forall i :: 0 <= i <= |before| ==> regulations[..i] == before[..i];
      }
      if |regulations| > maxRegulations {
        regulations := regulations[..maxRegulations];
      }
    }

    // -------------------------------------------------------------------
    // Levels (checkLevelProgression, levelUp, startNextLevel)
    // -------------------------------------------------------------------

    /**
     * levelUp, state part: the loop stops; a level outside 1..8 is refused
     * and the loop restarts, any other becomes the current level.
     */
    method LevelUp(newLevel: int)
      modifies this`gameRunning, this`currentLevel
      ensures IsLevel(newLevel) ==> currentLevel == newLevel && !gameRunning
      ensures !IsLevel(newLevel) ==> currentLevel == old(currentLevel) && gameRunning
    {
      gameRunning := false;
      if newLevel < 1 || newLevel > MaxLevel {
        gameRunning := true;
        return;
      }
      currentLevel := newLevel;
    }

    /**
     * checkLevelProgression: once the consumed count reaches the threshold
     * below the last level, the next threshold is taken from the table and
     * the level goes up by one.
     */
    method CheckLevelProgression()
      requires IsLevel(currentLevel) && assetsForNextCycle == Threshold(currentLevel)
      modifies this`assetsForNextCycle, this`currentLevel, this`gameRunning
      ensures IsLevel(currentLevel) && assetsForNextCycle == Threshold(currentLevel)
      ensures currentLevel == LevelAfter(old(currentLevel), assetsConsumed)
      ensures currentLevel == old(currentLevel) ==>
        assetsForNextCycle == old(assetsForNextCycle) && gameRunning == old(gameRunning)
      ensures currentLevel != old(currentLevel) ==> !gameRunning
    {
      if assetsConsumed >= assetsForNextCycle && currentLevel < MaxLevel {
        var nextLevelIndex := currentLevel;
        if nextLevelIndex < |LevelFeatures| {
          ThresholdIsTable(currentLevel + 1);
          assetsForNextCycle := LevelFeatures[nextLevelIndex].assetsRequired;
        }
        LevelUp(currentLevel + 1);
      }
    }

    // -------------------------------------------------------------------
    // Economic phases (checkEconomicPhaseEffects, applyPhaseEffects)
    // -------------------------------------------------------------------

    /** applyPhaseEffects: the multiplier of the current phase, and its attrition. */
    method ApplyPhaseEffects()
      requires workforce >= 0
      modifies this`economicCycle, this`workforce, this`layoffs
      ensures Current() == old(Current()).(economicCycle := Multiplier(currentPhase),
        workforce := Kept(currentPhase, old(workforce)),
        layoffs := old(layoffs) + LaidOff(currentPhase, old(workforce)))
    {
      match currentPhase {
        case Growth =>
          economicCycle := 1.0;
          assert workforce * 10 / 10 == workforce;
        case Recession =>
          economicCycle := 0.7;
          layoffs := layoffs + (workforce * 1) / 10;
          workforce := (workforce * 9) / 10;
        case Depression =>
          economicCycle := 0.4;
          layoffs := layoffs + (workforce * 2) / 10;
          workforce := (workforce * 8) / 10;
        case Recovery =>
          economicCycle := 0.8;
          assert workforce * 10 / 10 == workforce;
      }
    }

    /** checkEconomicPhaseEffects: a change of phase, and only a change, applies its effects. */
    method CheckEconomicPhaseEffects()
      requires Valid()
      modifies this`currentPhase, this`economicCycle, this`workforce, this`layoffs
      ensures Valid()
      ensures Current() == PhaseChecked(old(Current()))
    {
      var newPhase := currentPhase;
      if crisisLevel > 80 {
        newPhase := Depression;
      } else if crisisLevel > 60 {
        newPhase := Recession;
      } else if crisisLevel > 40 && currentPhase == Recession {
        newPhase := Recovery;
      } else if crisisLevel < 30 {
        newPhase := Growth;
      }
      assert newPhase == NextPhase(currentPhase, crisisLevel);
      if newPhase != currentPhase {
        ghost var s := Current();
        PhaseCheckedValid(s);
        currentPhase := newPhase;
        ApplyPhaseEffects();
        assert Current() == PhaseChecked(s);
      }
    }

    /** The state part of updateStatDisplay: the phase check, then updateGameSpeed. */
    method RefreshStats() returns (rearm: Option<int>)
      requires Valid()
      modifies this`currentPhase, this`economicCycle, this`workforce, this`layoffs, this`gameSpeed
      ensures Valid()
      ensures Current() == Refreshed(old(Current()), gameBaseSpeed)
      ensures rearm == Rearm(gameSpeed)
    {
      CheckEconomicPhaseEffects();
      rearm := UpdateGameSpeed();
    }

    // -------------------------------------------------------------------
    // Walls and pause (moveSnakeAwayFromWalls, togglePause, gameOver)
    // -------------------------------------------------------------------

    /** moveSnakeAwayFromWalls: every segment shifted by the head's shift, then clamped. */
    method MoveSnakeAwayFromWalls()
      requires Valid()
      modifies this`corporation
      ensures Valid()
      ensures corporation == AwayFromWalls(old(corporation))
    {
      if |corporation| > 0 {
        var head := corporation[0];
        var needsMove := false;
        var moveX, moveY := 0, 0;
        if head.x < SafeDistance {
          moveX := SafeDistance - head.x;
          needsMove := true;
        } else if head.x >= TileCount - SafeDistance {
          moveX := (TileCount - SafeDistance - 1) - head.x;
          needsMove := true;
        }
        if head.y < SafeDistance {
          moveY := SafeDistance - head.y;
          needsMove := true;
        } else if head.y >= TileCount - SafeDistance {
          moveY := (TileCount - SafeDistance - 1) - head.y;
          needsMove := true;
        }
        assert (moveX, moveY) == WallShift(head);
        if needsMove {
          NudgeBody(moveX, moveY);
        }
      }
    }

    /** The loop of moveSnakeAwayFromWalls: each segment shifted by (moveX, moveY) and clamped to the board. */
    method NudgeBody(moveX: int, moveY: int)
      requires Valid()
      modifies this`corporation
      ensures Valid()
      ensures |corporation| == |old(corporation)|
      ensures forall j :: 0 <= j < |corporation| ==> corporation[j] == Nudge(old(corporation)[j], moveX, moveY)
    {
      var i := 0;
      while i < |corporation|
        invariant 0 <= i <= |corporation| == |old(corporation)|
        invariant forall j :: 0 <= j < i ==> corporation[j] == Nudge(old(corporation)[j], moveX, moveY)
        invariant forall j :: i <= j < |corporation| ==> corporation[j] == old(corporation)[j]
      {
        var x := corporation[i].x + moveX;
        var y := corporation[i].y + moveY;
        x := Clamp(x);
        y := Clamp(y);
        corporation := corporation[i := Pos(x, y)];
        i := i + 1;
      }
    }

    /** gameOver, state part: the loop stops. */
    method GameOver()
      requires Valid()
      modifies this`gameRunning
      ensures Valid() && !gameRunning
    {
      gameRunning := false;
    }

    /** togglePause: pausing stops the loop; resuming first moves the body away from the walls. */
    method TogglePause()
      requires Valid()
      modifies this`gamePaused, this`corporation
      ensures Valid()
      ensures gamePaused == !old(gamePaused)
      ensures old(gamePaused) ==> corporation == AwayFromWalls(old(corporation))
      ensures !old(gamePaused) ==> corporation == old(corporation)
    {
      if gamePaused {
        gamePaused := false;
        MoveSnakeAwayFromWalls();
      } else {
        gamePaused := true;
      }
    }

    // -------------------------------------------------------------------
    // Saved game (saveGameState, restoreGameState, startGameFromSaved)
    // -------------------------------------------------------------------

    /** saveGameState: a copy of the 25 fields. */
    method SaveGameState()
      requires Valid()
      modifies this`savedGameState
      ensures Valid()
      ensures savedGameState == Some(Current())
    {
      savedGameState := Some(Current());
    }

    /** Part of Load: the score fields. */
    method LoadScore(s: Snapshot)
      modifies this`capital, this`workforce, this`layoffs, this`economicCycle, this`assetsConsumed,
        this`inequalityLevel, this`crisisLevel
      ensures capital == s.capital && workforce == s.workforce && layoffs == s.layoffs &&
        economicCycle == s.economicCycle && assetsConsumed == s.assetsConsumed &&
        inequalityLevel == s.inequalityLevel && crisisLevel == s.crisisLevel
    {
      capital, workforce, layoffs, economicCycle, assetsConsumed, inequalityLevel, crisisLevel
        := s.capital, s.workforce, s.layoffs, s.economicCycle, s.assetsConsumed, s.inequalityLevel, s.crisisLevel;
    }

    /** Part of Load: the progress fields. */
    method LoadProgress(s: Snapshot)
      modifies this`currentPhase, this`crisisWarnings, this`gameTickCount, this`currentLevel,
        this`assetsForNextCycle, this`gameSpeed
      ensures currentPhase == s.currentPhase && crisisWarnings == s.crisisWarnings &&
        gameTickCount == s.gameTickCount && currentLevel == s.currentLevel &&
        assetsForNextCycle == s.assetsForNextCycle && gameSpeed == s.gameSpeed
    {
      currentPhase, crisisWarnings, gameTickCount, currentLevel, assetsForNextCycle, gameSpeed
        := s.currentPhase, s.crisisWarnings, s.gameTickCount, s.currentLevel, s.assetsForNextCycle, s.gameSpeed;
    }

    /** Part of Load: the modes fields. */
    method LoadModes(s: Snapshot)
      modifies this`invincibilityMode, this`boostMode, this`boostTickCounter, this`sprayTanIntensity,
        this`velocityX, this`velocityY, this`lastDirection
      ensures invincibilityMode == s.invincibilityMode && boostMode == s.boostMode &&
        boostTickCounter == s.boostTickCounter && sprayTanIntensity == s.sprayTanIntensity &&
        velocityX == s.velocityX && velocityY == s.velocityY && lastDirection == s.lastDirection
    {
      invincibilityMode, boostMode, boostTickCounter, sprayTanIntensity, velocityX, velocityY, lastDirection
        := s.invincibilityMode, s.boostMode, s.boostTickCounter, s.sprayTanIntensity, s.velocityX, s.velocityY,
           s.lastDirection;
    }

    /** Part of Load: the objects fields. */
    method LoadObjects(s: Snapshot)
      modifies this`regulations, this`corporation, this`allAssets, this`allLabor, this`allCommunities
      ensures regulations == s.regulations && corporation == s.corporation && allAssets == s.allAssets &&
        allLabor == s.allLabor && allCommunities == s.allCommunities
    {
      regulations, corporation, allAssets, allLabor, allCommunities
        := s.regulations, s.corporation, s.allAssets, s.allLabor, s.allCommunities;
    }

    /** The 25 fields of a record copied into the game, as restoreGameState does before its refresh. */
    method Load(s: Snapshot)
      modifies this`capital, this`workforce, this`layoffs, this`economicCycle, this`assetsConsumed,
        this`inequalityLevel, this`crisisLevel, this`currentPhase, this`crisisWarnings, this`gameTickCount,
        this`currentLevel, this`assetsForNextCycle, this`gameSpeed, this`invincibilityMode, this`boostMode,
        this`boostTickCounter, this`sprayTanIntensity, this`velocityX, this`velocityY, this`lastDirection,
        this`regulations, this`corporation, this`allAssets, this`allLabor, this`allCommunities
      ensures Current() == s
    {
      LoadScore(s);
      LoadProgress(s);
      LoadModes(s);
      LoadObjects(s);
      assert Current() == s;
    }

    /**
     * restoreGameState: without a snapshot nothing happens; otherwise the 25
     * fields are copied back and updateStatDisplay runs, which re-checks the
     * phase and recomputes the period from the current base speed.
     */
    method RestoreGameState() returns (ok: bool)
      requires Valid()
      modifies this`capital, this`workforce, this`layoffs, this`economicCycle, this`assetsConsumed,
        this`inequalityLevel, this`crisisLevel, this`currentPhase, this`crisisWarnings, this`gameTickCount,
        this`currentLevel, this`assetsForNextCycle, this`gameSpeed, this`invincibilityMode, this`boostMode,
        this`boostTickCounter, this`sprayTanIntensity, this`velocityX, this`velocityY, this`lastDirection,
        this`regulations, this`corporation, this`allAssets, this`allLabor, this`allCommunities
      ensures Valid()
      ensures ok <==> old(savedGameState).Some?
      ensures !ok ==> Current() == old(Current())
      ensures ok ==> Current() == Refreshed(old(savedGameState).value, gameBaseSpeed)
    {
      if savedGameState.None? {
        return false;
      }
      var s := savedGameState.value;
      Load(s);
      var _ := RefreshStats();
      return true;
    }

    // -------------------------------------------------------------------
    // Consumption (handleResourceConsumption)
    // -------------------------------------------------------------------

    /** The score part of the asset branch: the worker bonus and the phase multiplier go to capital, inequality rises by 2 up to 100. */
    method ScoreAsset()
      requires Valid()
      modifies this`capital, this`inequalityLevel
      ensures Valid()
      ensures capital == old(capital) + 5.0 * economicCycle + (workforce / 1000) as real
      ensures inequalityLevel == Raise(old(inequalityLevel), 2)
    {
      var workerBonus := workforce / 1000;
      capital := capital + 5.0 * economicCycle + workerBonus as real;
      inequalityLevel := Raise(inequalityLevel, 2);
    }

    /** One more asset consumed, then checkLevelProgression. */
    method CountAsset()
      requires Valid()
      modifies this`assetsConsumed, this`assetsForNextCycle, this`currentLevel, this`gameRunning
      ensures Valid()
      ensures assetsConsumed == old(assetsConsumed) + 1
      ensures currentLevel == LevelAfter(old(currentLevel), assetsConsumed)
      ensures currentLevel == old(currentLevel) + 1 <==>
        old(currentLevel) < MaxLevel && assetsConsumed == Threshold(old(currentLevel))
      ensures gameRunning == (old(gameRunning) && currentLevel == old(currentLevel))
    {
      LevelInvariantKept(currentLevel, assetsConsumed);
      assetsConsumed := assetsConsumed + 1;
      CheckLevelProgression();
    }

    /** The cell at index i leaves the asset pool, which placeAsset then refills. */
    method RefillAssets(i: nat, rng: Rng, k: nat) returns (next: nat)
      requires Valid() && i < |allAssets|
      modifies this`allAssets
      ensures Valid()
      ensures k <= next
      ensures var start := if gameTickCount == 0 then [] else RemoveAt(old(allAssets), i);
        && |start| <= |allAssets| && allAssets[..|start|] == start
        && (|allAssets| <= currentLevel || allAssets == start)
        && forall j :: |start| <= j < |allAssets| ==>
             !IsPositionOccupied(old(Occupancy()).(assets := allAssets[..j]), allAssets[j])
      ensures |allAssets| < currentLevel ==>
        var last := if |allAssets| == 0 then next - 1 else next;
        last >= k + 101 && GaveUp(old(Occupancy()).(assets := allAssets), rng, last)
    {
      allAssets := RemoveAt(allAssets, i);
      next := PlaceAsset(rng, k);
    }

    /**
     * The asset branch: capital and inequality, the asset leaves the pool
     * and the pool is refilled, then the count and the level check. The
     * count is taken after the refill here; the refill does not read it.
     */
    method ConsumeAsset(i: nat, rng: Rng, k: nat) returns (next: nat)
      requires Valid() && i < |allAssets|
      modifies this`capital, this`assetsConsumed, this`inequalityLevel, this`allAssets,
        this`assetsForNextCycle, this`currentLevel, this`gameRunning
      ensures Valid()
      ensures capital == old(capital) + 5.0 * economicCycle + (workforce / 1000) as real
      ensures assetsConsumed == old(assetsConsumed) + 1
      ensures inequalityLevel == Raise(old(inequalityLevel), 2)
      ensures currentLevel == LevelAfter(old(currentLevel), assetsConsumed)
      ensures gameRunning == (old(gameRunning) && currentLevel == old(currentLevel))
      ensures k <= next
      ensures var start := if gameTickCount == 0 then [] else RemoveAt(old(allAssets), i);
        && |start| <= |allAssets| && allAssets[..|start|] == start
        && (|allAssets| <= old(currentLevel) || allAssets == start)
        && forall j :: |start| <= j < |allAssets| ==>
             !IsPositionOccupied(old(Occupancy()).(assets := allAssets[..j]), allAssets[j])
      ensures |allAssets| < old(currentLevel) ==>
        var last := if |allAssets| == 0 then next - 1 else next;
        last >= k + 101 && GaveUp(old(Occupancy()).(assets := allAssets), rng, last)
    {
      ScoreAsset();
      next := RefillAssets(i, rng, k);
      CountAsset();
    }

    /** The labor branch: a thousand workers more, and the cell leaves the pool. */
    method ConsumeLabor(i: nat)
      requires Valid() && i < |allLabor|
      modifies this`workforce, this`laborConsumed, this`allLabor
      ensures Valid()
      ensures workforce == old(workforce) + 1000 && laborConsumed == old(laborConsumed) + 1
      ensures allLabor == RemoveAt(old(allLabor), i)
    {
      workforce := workforce + 1000;
      laborConsumed := laborConsumed + 1;
      allLabor := RemoveAt(allLabor, i);
    }

    /** The score part of the community branch: capital, inequality +10 and crisis +15, both capped at 100. */
    method ScoreCommunity()
      requires Valid()
      modifies this`capital, this`communitiesConsumed, this`inequalityLevel, this`crisisLevel
      ensures Valid()
      ensures capital == old(capital) + 15.0 * economicCycle
      ensures communitiesConsumed == old(communitiesConsumed) + 1
      ensures inequalityLevel == Raise(old(inequalityLevel), 10) && crisisLevel == Raise(old(crisisLevel), 15)
    {
      assert economicCycle > 0.0;
      capital := capital + 15.0 * economicCycle;
      communitiesConsumed := communitiesConsumed + 1;
      inequalityLevel := Raise(inequalityLevel, 10);
      crisisLevel := Raise(crisisLevel, 15);
    }

    /** The community branch: the score, the cell leaves the pool, and above EASY a roll over 0.5 adds a regulation. */
    method ConsumeCommunity(i: nat, roll: real)
      requires Valid() && i < |allCommunities|
      modifies this`capital, this`communitiesConsumed, this`inequalityLevel, this`crisisLevel,
        this`allCommunities, this`regulations
      ensures Valid()
      ensures capital == old(capital) + 15.0 * economicCycle
      ensures communitiesConsumed == old(communitiesConsumed) + 1
      ensures inequalityLevel == Raise(old(inequalityLevel), 10) && crisisLevel == Raise(old(crisisLevel), 15)
      ensures allCommunities == RemoveAt(old(allCommunities), i)
      ensures var b := old(Occupancy()).(communities := allCommunities);
        if currentDifficulty > 0 && roll > 0.5 && old(|regulations|) < maxRegulations && FirstFreeCell(b).Some?
        then regulations == old(regulations) + [FirstFreeCell(b).value]
        else regulations == old(regulations)
    {
      ScoreCommunity();
      allCommunities := RemoveAt(allCommunities, i);
      if currentDifficulty > 0 && roll > 0.5 {
        AddRegulation();
      }
    }

    /** The labor and community scans, reached when the head is on no asset. */
    method ConsumeLaborOrCommunity(head: Pos, communityRoll: real) returns (consumed: bool)
      requires Valid()
      modifies this`capital, this`workforce, this`laborConsumed, this`communitiesConsumed,
        this`inequalityLevel, this`crisisLevel, this`allLabor, this`allCommunities, this`regulations
      ensures Valid()
      ensures consumed <==> head in old(allLabor) || head in old(allCommunities)
      ensures !consumed ==>
        && Tallies() == old(Tallies()) && allLabor == old(allLabor)
        && allCommunities == old(allCommunities) && regulations == old(regulations)
      ensures head in old(allLabor) ==>
        && laborConsumed == old(laborConsumed) + 1
        && allLabor == RemoveAt(old(allLabor), FirstIndex(old(allLabor), head))
        && allCommunities == old(allCommunities)
      ensures head !in old(allLabor) && head in old(allCommunities) ==>
        && communitiesConsumed == old(communitiesConsumed) + 1
        && allCommunities == RemoveAt(old(allCommunities), FirstIndex(old(allCommunities), head))
        && allLabor == old(allLabor)
    {
      consumed := true;
      var j := Find(allLabor, head);
      if j >= 0 {
        ConsumeLabor(j);
      } else {
        var l := Find(allCommunities, head);
        if l >= 0 {
          ConsumeCommunity(l, communityRoll);
        } else {
          consumed := false;
        }
      }
    }

    /**
     * The pool scans of handleResourceConsumption: the first matching
     * asset, else labor, else community cell is consumed; with no match
     * nothing changes.
     */
    method ConsumePools(head: Pos, rng: Rng, k: nat, communityRoll: real) returns (consumed: bool, next: nat)
      requires Valid()
      modifies this`capital, this`workforce, this`assetsConsumed, this`laborConsumed, this`communitiesConsumed,
        this`inequalityLevel, this`crisisLevel, this`allAssets, this`allLabor, this`allCommunities,
        this`regulations, this`assetsForNextCycle, this`currentLevel, this`gameRunning
      ensures Valid()
      ensures k <= next
      ensures consumed <==> PoolMeal(old(Occupancy()), head) != NoMeal
      ensures PoolMeal(old(Occupancy()), head) == NoMeal ==>
        && Tallies() == old(Tallies())
        && allAssets == old(allAssets) && allLabor == old(allLabor) && allCommunities == old(allCommunities)
        && regulations == old(regulations) && currentLevel == old(currentLevel)
        && assetsForNextCycle == old(assetsForNextCycle) && gameRunning == old(gameRunning) && next == k
      ensures PoolMeal(old(Occupancy()), head).AssetMeal? ==>
        && assetsConsumed == old(assetsConsumed) + 1
        && allLabor == old(allLabor) && allCommunities == old(allCommunities) && regulations == old(regulations)
        && var start := if gameTickCount == 0 then [] else RemoveAt(old(allAssets), PoolMeal(old(Occupancy()), head).index);
        && |start| <= |allAssets| && allAssets[..|start|] == start
        && (|allAssets| <= old(currentLevel) || allAssets == start)
        && forall j :: |start| <= j < |allAssets| ==>
             !IsPositionOccupied(old(Occupancy()).(assets := allAssets[..j]), allAssets[j])
      ensures PoolMeal(old(Occupancy()), head).AssetMeal? && |allAssets| < old(currentLevel) ==>
        var last := if |allAssets| == 0 then next - 1 else next;
        last >= k + 101 && GaveUp(old(Occupancy()).(assets := allAssets), rng, last)
      ensures PoolMeal(old(Occupancy()), head).LaborMeal? ==>
        && laborConsumed == old(laborConsumed) + 1
        && allLabor == RemoveAt(old(allLabor), PoolMeal(old(Occupancy()), head).index)
        && allAssets == old(allAssets) && allCommunities == old(allCommunities) && next == k
      ensures PoolMeal(old(Occupancy()), head).CommunityMeal? ==>
        && communitiesConsumed == old(communitiesConsumed) + 1
        && allCommunities == RemoveAt(old(allCommunities), PoolMeal(old(Occupancy()), head).index)
        && allAssets == old(allAssets) && allLabor == old(allLabor) && next == k
    {
      var i := Find(allAssets, head);
      if i >= 0 {
        consumed := true;
        next := ConsumeAsset(i, rng, k);
      } else {
        next := k;
        consumed := ConsumeLaborOrCommunity(head, communityRoll);
      }
    }

    /**
     * handleResourceConsumption: the storm is tried first and, when hit,
     * nothing else is consumed; otherwise the pools are scanned.
     */
    method HandleResourceConsumption(head: Pos, rng: Rng, k: nat, rolls: Rolls) returns (consumed: bool, next: nat)
      requires Valid() && ValidRolls(rolls)
      modifies this`capital, this`workforce, this`assetsConsumed, this`laborConsumed, this`communitiesConsumed,
        this`inequalityLevel, this`crisisLevel, this`allAssets, this`allLabor, this`allCommunities,
        this`regulations, this`assetsForNextCycle, this`currentLevel, this`gameRunning, storm
      ensures Valid()
      ensures k <= next
      ensures consumed <==> MealAt(old(Occupancy()), head) != NoMeal
      ensures MealAt(old(Occupancy()), head) == StormMeal ==>
        && storm.State() == Storm.Activate(old(storm.State()), rolls.effectIndex, rolls.now).(twitterStorm := None)
        && Tallies() == old(Tallies()) && Current() == old(Current()) && gameRunning == old(gameRunning) && next == k
      ensures MealAt(old(Occupancy()), head) != StormMeal ==> storm.State() == old(storm.State())
    {
      var hit := storm.CheckTwitterStormCollision(head, rolls.effectIndex, rolls.now);
      if hit {
        consumed, next := true, k;
      } else {
        consumed, next := ConsumePools(head, rng, k, rolls.communityRoll);
      }
    }

    // moveSnake, gameLoop and startGame are each split into consecutive
    // pieces, every one a method with its own contract, so that no single
    // proof has to carry the whole of a long body; together, the pieces
    // perform the source function's statements.

    /** moveSnake's first step: a moving body records its velocity as the last direction. */
    method RecordDirection()
      requires Valid()
      modifies this`lastDirection
      ensures Valid()
      ensures lastDirection == if velocityX != 0 || velocityY != 0 then Pos(velocityX, velocityY) else old(lastDirection)
    {
      if velocityX != 0 || velocityY != 0 {
        lastDirection := Pos(velocityX, velocityY);
      }
    }

    /** corporation.unshift(head). */
    method PushHead(head: Pos)
      requires Valid() && InGrid(head)
      modifies this`corporation
      ensures Valid() && corporation == [head] + old(corporation)
    {
      corporation := [head] + corporation;
    }

    /** corporation.pop(). */
    method PopTail()
      requires Valid() && |corporation| >= 1
      modifies this`corporation
      ensures Valid() && corporation == old(corporation)[..|old(corporation)| - 1]
    {
      corporation := corporation[..|corporation| - 1];
    }

    /**
     * The cell moveSnake heads for: off the grid it wraps when invincible and
     * is fatal otherwise; on a segment after the first or on a regulation it
     * is fatal unless invincible.
     */
    method NextHead() returns (step: Step)
      requires Valid() && |corporation| >= 1
      ensures step == Resolve(corporation, regulations, velocityX, velocityY, invincibilityMode)
    {
      var x := corporation[0].x + velocityX;
      var y := corporation[0].y + velocityY;
      if x < 0 || x >= TileCount || y < 0 || y >= TileCount {
        if invincibilityMode {
          if x < 0 { x := TileCount - 1; }
          if y < 0 { y := TileCount - 1; }
          if x >= TileCount { x := 0; }
          if y >= TileCount { y := 0; }
        } else {
          return Fatal;
        }
      }
      var head := Pos(x, y);
      if (CheckCollision(corporation, head) || CheckRegulationCollision(regulations, head)) && !invincibilityMode {
        return Fatal;
      }
      return Advance(head);
    }

    /** The non-fatal part of moveSnake: unshift, consume, and pop unless something was consumed. */
    method AdvanceTo(head: Pos, rng: Rng, k: nat, rolls: Rolls) returns (consumed: bool, next: nat)
      requires Valid() && ValidRolls(rolls) && InGrid(head) && |corporation| >= 1
      modifies this`corporation, this`capital, this`workforce, this`assetsConsumed,
        this`laborConsumed, this`communitiesConsumed, this`inequalityLevel, this`crisisLevel, this`allAssets,
        this`allLabor, this`allCommunities, this`regulations, this`assetsForNextCycle, this`currentLevel,
        this`gameRunning, storm
      ensures Valid()
      ensures k <= next
      ensures consumed == (MealAt(old(Occupancy()), head) != NoMeal)
      ensures corporation == Advanced(old(corporation), head, consumed)
    {
      ghost var b := Occupancy();
      PushHead(head);
      MealIgnoresBody(b, corporation, head);
      consumed, next := HandleResourceConsumption(head, rng, k, rolls);
      if !consumed {
        PopTail();
      }
    }

    /**
     * moveSnake: a fatal step ends the game and leaves the body as it was;
     * otherwise the new head goes in front and the tail is dropped unless
     * something was consumed at the head.
     */
    method MoveSnake(rng: Rng, k: nat, rolls: Rolls) returns (consumed: bool, next: nat)
      requires Valid() && ValidRolls(rolls) && |corporation| >= 1
      modifies this`lastDirection, this`corporation, this`capital, this`workforce, this`assetsConsumed,
        this`laborConsumed, this`communitiesConsumed, this`inequalityLevel, this`crisisLevel, this`allAssets,
        this`allLabor, this`allCommunities, this`regulations, this`assetsForNextCycle, this`currentLevel,
        this`gameRunning, storm
      ensures Valid()
      ensures k <= next
      ensures lastDirection == if velocityX != 0 || velocityY != 0 then Pos(velocityX, velocityY) else old(lastDirection)
      ensures var step := Resolve(old(corporation), old(regulations), velocityX, velocityY, invincibilityMode);
        && (step.Fatal? ==>
              && !gameRunning && !consumed && next == k
              && corporation == old(corporation) && Tallies() == old(Tallies()))
        && (step.Advance? ==>
              && consumed == (MealAt(old(Occupancy()), step.head) != NoMeal)
              && corporation == Advanced(old(corporation), step.head, consumed))
    {
      var step := NextHead();
      consumed, next := TakeStep(step, rng, k, rolls);
    }

    /**
     * moveSnake once its step is known. The last direction is recorded at the
     * end rather than first: nothing in between reads it.
     */
    method TakeStep(step: Step, rng: Rng, k: nat, rolls: Rolls) returns (consumed: bool, next: nat)
      requires Valid() && ValidRolls(rolls) && |corporation| >= 1
      requires step.Advance? ==> InGrid(step.head)
      modifies this`lastDirection, this`corporation, this`capital, this`workforce, this`assetsConsumed,
        this`laborConsumed, this`communitiesConsumed, this`inequalityLevel, this`crisisLevel, this`allAssets,
        this`allLabor, this`allCommunities, this`regulations, this`assetsForNextCycle, this`currentLevel,
        this`gameRunning, storm
      ensures Valid()
      ensures k <= next
      ensures lastDirection == if velocityX != 0 || velocityY != 0 then Pos(velocityX, velocityY) else old(lastDirection)
      ensures step.Fatal? ==>
        && !gameRunning && !consumed && next == k
        && corporation == old(corporation) && Tallies() == old(Tallies())
      ensures step.Advance? ==>
        && consumed == (MealAt(old(Occupancy()), step.head) != NoMeal)
        && corporation == Advanced(old(corporation), step.head, consumed)
    {
      if step.Fatal? {
        GameOver();
        consumed, next := false, k;
      } else {
        consumed, next := AdvanceTo(step.head, rng, k, rolls);
      }
      RecordDirection();
    }

    /** The crisis part of handlePeriodicEffects: with inequality above 60 a roll above 0.7 adds 5 to the crisis level, and above 80 a warning is counted, at most 3. */
    method CrisisDrift(roll: real)
      requires Valid()
      modifies this`crisisLevel, this`crisisWarnings
      ensures Valid()
      ensures inequalityLevel > 60 && roll > 0.7 ==>
        && crisisLevel == Raise(old(crisisLevel), 5)
        && crisisWarnings == if crisisLevel > 80 && old(crisisWarnings) < 3 then old(crisisWarnings) + 1 else old(crisisWarnings)
      ensures !(inequalityLevel > 60 && roll > 0.7) ==>
        crisisLevel == old(crisisLevel) && crisisWarnings == old(crisisWarnings)
    {
      if inequalityLevel > 60 && roll > 0.7 {
        crisisLevel := Raise(crisisLevel, 5);
        if crisisLevel > 80 && crisisWarnings < 3 {
          crisisWarnings := crisisWarnings + 1;
        }
      }
    }

    /**
     * handlePeriodicEffects, every 100th tick: the crisis drift, then above
     * EASY a regulation with chance 0.03. The headline roll is not part of
     * the state.
     */
    method HandlePeriodicEffects(rolls: Rolls)
      requires Valid()
      modifies this`crisisLevel, this`crisisWarnings, this`regulations
      ensures Valid()
      ensures inequalityLevel > 60 && rolls.crisisRoll > 0.7 ==>
        && crisisLevel == Raise(old(crisisLevel), 5)
        && crisisWarnings == if crisisLevel > 80 && old(crisisWarnings) < 3 then old(crisisWarnings) + 1 else old(crisisWarnings)
      ensures !(inequalityLevel > 60 && rolls.crisisRoll > 0.7) ==>
        crisisLevel == old(crisisLevel) && crisisWarnings == old(crisisWarnings)
      ensures currentDifficulty > 0 && rolls.regulationRoll < RegulationChance &&
              old(|regulations|) < maxRegulations && FirstFreeCell(old(Occupancy())).Some?
        ==> regulations == old(regulations) + [FirstFreeCell(old(Occupancy())).value]
      ensures !(currentDifficulty > 0 && rolls.regulationRoll < RegulationChance &&
                old(|regulations|) < maxRegulations && FirstFreeCell(old(Occupancy())).Some?)
        ==> regulations == old(regulations)
      ensures regulations == AddRegulations(old(Occupancy()), maxRegulations, PeriodicCalls(rolls))
    {
      CrisisDrift(rolls.crisisRoll);
      if currentDifficulty > 0 && rolls.regulationRoll < RegulationChance {
        AddRegulation();
        assert AddRegulations(old(Occupancy()), maxRegulations, 0) == old(regulations);
      }
    }

    /** The number of addRegulation calls a periodic step makes: one above EASY when the roll is under 0.03. */
    function PeriodicCalls(rolls: Rolls): nat
      reads this`currentDifficulty
    {
      if currentDifficulty > 0 && rolls.regulationRoll < RegulationChance then 1 else 0
    }

    /** handlePeriodicEffects on every 100th tick, and nothing on the others. */
    method PeriodicStep(rolls: Rolls)
      requires Valid()
      modifies this`crisisLevel, this`crisisWarnings, this`regulations
      ensures Valid()
      ensures gameTickCount % 100 == 0 ==>
        && (inequalityLevel > 60 && rolls.crisisRoll > 0.7 ==>
              && crisisLevel == Raise(old(crisisLevel), 5)
              && crisisWarnings == if crisisLevel > 80 && old(crisisWarnings) < 3 then old(crisisWarnings) + 1 else old(crisisWarnings))
        && (!(inequalityLevel > 60 && rolls.crisisRoll > 0.7) ==>
              crisisLevel == old(crisisLevel) && crisisWarnings == old(crisisWarnings))
        && regulations == AddRegulations(old(Occupancy()), maxRegulations, PeriodicCalls(rolls))
      ensures gameTickCount % 100 != 0 ==>
        crisisLevel == old(crisisLevel) && crisisWarnings == old(crisisWarnings) && regulations == old(regulations)
    {
      if gameTickCount % 100 == 0 {
        HandlePeriodicEffects(rolls);
      }
    }

    /**
     * gameLoop, in pieces: BeginTick, then moveSnake, then EndTick
     * (RecheckLevel and SettleStats); RunTick, CountedTick and Tick put them
     * together. The tick count, and the boost counter: counted up in boost
     * mode, reset to 0 otherwise.
     */
    method BeginTick()
      requires Valid()
      modifies this`gameTickCount, this`boostTickCounter
      ensures Valid()
      ensures gameTickCount == old(gameTickCount) + 1
      ensures boostTickCounter == if boostMode then old(boostTickCounter) + 1 else 0
    {
      gameTickCount := gameTickCount + 1;
      if boostMode {
        boostTickCounter := boostTickCounter + 1;
      } else {
        boostTickCounter := 0;
      }
    }

    /** checkLevelProgression between consumptions: the level invariant leaves it nothing to do. */
    method RecheckLevel()
      requires Valid()
      modifies this`assetsForNextCycle, this`currentLevel, this`gameRunning
      ensures Valid()
      ensures currentLevel == old(currentLevel) && gameRunning == old(gameRunning)
      ensures assetsForNextCycle == old(assetsForNextCycle)
    {
      CheckLevelProgression();
    }

    /** updateStatDisplay followed by checkEconomicPhaseEffects, which then finds the phase settled. */
    method SettleStats() returns (rearm: Option<int>)
      requires Valid()
      modifies this`currentPhase, this`economicCycle, this`workforce, this`layoffs, this`gameSpeed
      ensures Valid()
      ensures Current() == Refreshed(old(Current()), gameBaseSpeed)
      ensures Settled(Current(), gameBaseSpeed)
      ensures rearm == Rearm(gameSpeed)
    {
      CurrentValid();
      RefreshedMeaning(Current(), gameBaseSpeed);
      rearm := RefreshStats();
      CheckEconomicPhaseEffects();
    }

    /**
     * The rest of a tick after the move: the periodic effects on every
     * 100th tick, checkLevelProgression, updateStatDisplay and one more
     * checkEconomicPhaseEffects.
     */
    method EndTick(rolls: Rolls) returns (rearm: Option<int>)
      requires Valid()
      modifies this`crisisLevel, this`crisisWarnings, this`regulations, this`assetsForNextCycle,
        this`currentLevel, this`gameRunning, this`currentPhase, this`economicCycle, this`workforce,
        this`layoffs, this`gameSpeed
      ensures Valid()
      ensures Settled(Current(), gameBaseSpeed)
      ensures rearm == Rearm(gameSpeed)
      ensures currentLevel == old(currentLevel) && gameRunning == old(gameRunning)
      ensures gameTickCount % 100 == 0 ==>
        && (inequalityLevel > 60 && rolls.crisisRoll > 0.7 ==>
              && crisisLevel == Raise(old(crisisLevel), 5)
              && crisisWarnings == if crisisLevel > 80 && old(crisisWarnings) < 3 then old(crisisWarnings) + 1 else old(crisisWarnings))
        && (!(inequalityLevel > 60 && rolls.crisisRoll > 0.7) ==>
              crisisLevel == old(crisisLevel) && crisisWarnings == old(crisisWarnings))
        && regulations == AddRegulations(old(Occupancy()), maxRegulations, PeriodicCalls(rolls))
      ensures gameTickCount % 100 != 0 ==>
        crisisLevel == old(crisisLevel) && crisisWarnings == old(crisisWarnings) && regulations == old(regulations)
    {
      PeriodicStep(rolls);
      ghost var crisis, warnings, regs := crisisLevel, crisisWarnings, regulations;
      RecheckLevel();
      rearm := SettleStats();
      assert crisisLevel == crisis && crisisWarnings == warnings && regulations == regs;
    }

    /** A tick on an empty body: counted, the direction recorded, then moveSnake throws. */
    method AbortTick()
      requires Valid()
      modifies this`gameTickCount, this`boostTickCounter, this`lastDirection
      ensures Valid()
      ensures Current() == old(Current()).(
        gameTickCount := old(gameTickCount) + 1,
        boostTickCounter := if boostMode then old(boostTickCounter) + 1 else 0,
        lastDirection := if velocityX != 0 || velocityY != 0 then Pos(velocityX, velocityY) else old(lastDirection))
    {
      BeginTick();
      RecordDirection();
    }

    /** A running tick with a body to move. */
    method RunTick(rng: Rng, k: nat, rolls: Rolls) returns (next: nat, rearm: Option<int>)
      requires Valid() && ValidRolls(rolls) && |corporation| >= 1
      modifies this`lastDirection, this`corporation, this`capital,
        this`workforce, this`assetsConsumed, this`laborConsumed, this`communitiesConsumed,
        this`inequalityLevel, this`crisisLevel, this`crisisWarnings, this`allAssets, this`allLabor,
        this`allCommunities, this`regulations, this`assetsForNextCycle, this`currentLevel, this`gameRunning,
        this`currentPhase, this`economicCycle, this`layoffs, this`gameSpeed, storm
      ensures Valid()
      ensures k <= next
      ensures lastDirection == if velocityX != 0 || velocityY != 0 then Pos(velocityX, velocityY) else old(lastDirection)
      ensures Settled(Current(), gameBaseSpeed) && rearm == Rearm(gameSpeed)
      ensures var step := Resolve(old(corporation), old(regulations), velocityX, velocityY, invincibilityMode);
        && (step.Fatal? ==> !gameRunning && corporation == old(corporation))
        && (step.Advance? ==>
              corporation == Advanced(old(corporation), step.head, MealAt(old(Occupancy()), step.head) != NoMeal))
    {
      var _, n := MoveSnake(rng, k, rolls);
      next := n;
      rearm := EndTick(rolls);
    }

    /** A counted tick on a body with a head: BeginTick, then RunTick. */
    method CountedTick(rng: Rng, k: nat, rolls: Rolls) returns (next: nat, rearm: Option<int>)
      requires Valid() && ValidRolls(rolls) && |corporation| >= 1
      modifies this`gameTickCount, this`boostTickCounter, this`lastDirection, this`corporation, this`capital,
        this`workforce, this`assetsConsumed, this`laborConsumed, this`communitiesConsumed,
        this`inequalityLevel, this`crisisLevel, this`crisisWarnings, this`allAssets, this`allLabor,
        this`allCommunities, this`regulations, this`assetsForNextCycle, this`currentLevel, this`gameRunning,
        this`currentPhase, this`economicCycle, this`layoffs, this`gameSpeed, storm
      ensures Valid()
      ensures k <= next
      ensures
        && gameTickCount == old(gameTickCount) + 1
        && boostTickCounter == (if boostMode then old(boostTickCounter) + 1 else 0)
        && lastDirection == if velocityX != 0 || velocityY != 0 then Pos(velocityX, velocityY) else old(lastDirection)
      ensures Settled(Current(), gameBaseSpeed) && rearm == Rearm(gameSpeed)
      ensures
        && var step := Resolve(old(corporation), old(regulations), velocityX, velocityY, invincibilityMode);
        && (step.Fatal? ==> !gameRunning && corporation == old(corporation))
        && (step.Advance? ==>
              corporation == Advanced(old(corporation), step.head, MealAt(old(Occupancy()), step.head) != NoMeal))
    {
      BeginTick();
      next, rearm := RunTick(rng, k, rolls);
    }

    /**
     * One tick of a running, unpaused game: counted, and the body moves
     * (in boost mode too, boostTickCounter % 1 being always 0). An empty
     * body makes moveSnake throw after recording the direction, which ends
     * the tick; otherwise the tick goes on with EndTick.
     */
    method Tick(rng: Rng, k: nat, rolls: Rolls) returns (next: nat, rearm: Option<int>)
      requires Valid() && ValidRolls(rolls)
      modifies this`gameTickCount, this`boostTickCounter, this`lastDirection, this`corporation, this`capital,
        this`workforce, this`assetsConsumed, this`laborConsumed, this`communitiesConsumed,
        this`inequalityLevel, this`crisisLevel, this`crisisWarnings, this`allAssets, this`allLabor,
        this`allCommunities, this`regulations, this`assetsForNextCycle, this`currentLevel, this`gameRunning,
        this`currentPhase, this`economicCycle, this`layoffs, this`gameSpeed, storm
      ensures Valid()
      ensures k <= next
      ensures
        && gameTickCount == old(gameTickCount) + 1
        && boostTickCounter == (if boostMode then old(boostTickCounter) + 1 else 0)
        && lastDirection == if velocityX != 0 || velocityY != 0 then Pos(velocityX, velocityY) else old(lastDirection)
      ensures old(|corporation|) == 0 ==>
        && Current() == old(Current()).(gameTickCount := gameTickCount, boostTickCounter := boostTickCounter,
                                        lastDirection := lastDirection)
        && gameRunning == old(gameRunning) && rearm.None?
      ensures old(|corporation|) >= 1 ==>
        && Settled(Current(), gameBaseSpeed) && rearm == Rearm(gameSpeed)
        && var step := Resolve(old(corporation), old(regulations), velocityX, velocityY, invincibilityMode);
        && (step.Fatal? ==> !gameRunning && corporation == old(corporation))
        && (step.Advance? ==>
              corporation == Advanced(old(corporation), step.head, MealAt(old(Occupancy()), step.head) != NoMeal))
    {
      if |corporation| == 0 {
        AbortTick();
        next, rearm := k, None;
      } else {
        next, rearm := CountedTick(rng, k, rolls);
      }
    }

    /** gameLoop: nothing while stopped or paused, otherwise one Tick. */
    method GameLoop(rng: Rng, k: nat, rolls: Rolls) returns (next: nat, rearm: Option<int>)
      requires Valid() && ValidRolls(rolls)
      modifies this`gameTickCount, this`boostTickCounter, this`lastDirection, this`corporation, this`capital,
        this`workforce, this`assetsConsumed, this`laborConsumed, this`communitiesConsumed,
        this`inequalityLevel, this`crisisLevel, this`crisisWarnings, this`allAssets, this`allLabor,
        this`allCommunities, this`regulations, this`assetsForNextCycle, this`currentLevel, this`gameRunning,
        this`currentPhase, this`economicCycle, this`layoffs, this`gameSpeed, storm
      ensures Valid()
      ensures k <= next
      ensures !old(gameRunning) || old(gamePaused) ==>
        && Current() == old(Current()) && Tallies() == old(Tallies()) && gameRunning == old(gameRunning)
        && storm.State() == old(storm.State()) && next == k && rearm.None?
      ensures old(gameRunning) && !old(gamePaused) ==>
        && gameTickCount == old(gameTickCount) + 1
        && boostTickCounter == (if boostMode then old(boostTickCounter) + 1 else 0)
        && lastDirection == if velocityX != 0 || velocityY != 0 then Pos(velocityX, velocityY) else old(lastDirection)
      ensures old(gameRunning) && !old(gamePaused) && old(|corporation|) == 0 ==>
        && Current() == old(Current()).(gameTickCount := gameTickCount, boostTickCounter := boostTickCounter,
                                        lastDirection := lastDirection)
        && gameRunning && rearm.None?
      ensures old(gameRunning) && !old(gamePaused) && old(|corporation|) >= 1 ==>
        && Settled(Current(), gameBaseSpeed) && rearm == Rearm(gameSpeed)
        && var step := Resolve(old(corporation), old(regulations), velocityX, velocityY, invincibilityMode);
        && (step.Fatal? ==> !gameRunning && corporation == old(corporation))
        && (step.Advance? ==>
              corporation == Advanced(old(corporation), step.head, MealAt(old(Occupancy()), step.head) != NoMeal))
    {
      if gameRunning && !gamePaused {
        next, rearm := Tick(rng, k, rolls);
      } else {
        next, rearm := k, None;
      }
    }

    /**
     * startGame, in pieces: ResetForNewGame and PlaceStartObjects (together
     * SetUpBoard), then Launch. The assignments at the head of startGame: they write the fields of
     * NewGame, and unpause. laborConsumed and communitiesConsumed are not
     * among them.
     */
    method ResetForNewGame()
      requires Valid()
      modifies this`capital, this`workforce, this`layoffs, this`economicCycle, this`assetsConsumed,
        this`inequalityLevel, this`crisisLevel, this`currentPhase, this`crisisWarnings, this`gameTickCount,
        this`currentLevel, this`assetsForNextCycle, this`gameSpeed, this`invincibilityMode, this`boostMode,
        this`boostTickCounter, this`sprayTanIntensity, this`velocityX, this`velocityY, this`lastDirection,
        this`regulations, this`corporation, this`allAssets, this`allLabor, this`allCommunities, this`gamePaused
      ensures Valid()
      ensures Current() == NewGame(old(sprayTanIntensity), old(gameSpeed)) && !gamePaused
    {
      var s := NewGame(sprayTanIntensity, gameSpeed);
      Load(s);
      gamePaused := false;
      CurrentValid();
    }

    /** startGame's objects: placeAsset, updateMaxRegulations and fillRegulations on the reset board. */
    method PlaceStartObjects(rng: Rng, k: nat) returns (next: nat)
      requires Valid() && gameTickCount == 0 && currentLevel == 1
      requires corporation == [StartCell] && allAssets == [] && allLabor == [] && allCommunities == [] && regulations == []
      modifies this`allAssets, this`maxRegulations, this`regulations
      ensures Valid()
      ensures k <= next
      ensures |allAssets| <= 1
      ensures forall i :: 0 <= i < |allAssets| ==>
        !IsPositionOccupied(Board([StartCell], allAssets[..i], [], [], [], storm.twitterStorm), allAssets[i])
      ensures allAssets == [] ==>
        next >= k + 102 && GaveUp(Board([StartCell], [], [], [], [], storm.twitterStorm), rng, next - 1)
      ensures maxRegulations == MaxRegulationsFor(currentDifficulty, 1)
      ensures |regulations| == maxRegulations || BoardFull(Occupancy())
      ensures forall i :: 0 <= i < |regulations| ==>
        !IsPositionOccupied(Occupancy().(regulations := regulations[..i]), regulations[i])
    {
      next := PlaceAsset(rng, k);
      UpdateMaxRegulations();
      FillRegulations();
    }

    /** startGame up to its objects: the reset, then PlaceStartObjects. */
    method SetUpBoard(rng: Rng, k: nat) returns (next: nat)
      requires Valid()
      modifies this`capital, this`workforce, this`layoffs, this`economicCycle, this`assetsConsumed,
        this`inequalityLevel, this`crisisLevel, this`currentPhase, this`crisisWarnings, this`gameTickCount,
        this`currentLevel, this`assetsForNextCycle, this`gameSpeed, this`invincibilityMode, this`boostMode,
        this`boostTickCounter, this`sprayTanIntensity, this`velocityX, this`velocityY, this`lastDirection,
        this`regulations, this`corporation, this`allAssets, this`allLabor, this`allCommunities, this`gamePaused,
        this`maxRegulations
      ensures Valid()
      ensures k <= next
      ensures Current() == NewGame(old(sprayTanIntensity), old(gameSpeed)).(allAssets := allAssets, regulations := regulations)
      ensures !gamePaused
      ensures |allAssets| <= 1
      ensures forall i :: 0 <= i < |allAssets| ==>
        !IsPositionOccupied(Board([StartCell], allAssets[..i], [], [], [], storm.twitterStorm), allAssets[i])
      ensures allAssets == [] ==>
        next >= k + 102 && GaveUp(Board([StartCell], [], [], [], [], storm.twitterStorm), rng, next - 1)
      ensures maxRegulations == MaxRegulationsFor(currentDifficulty, 1)
      ensures |regulations| == maxRegulations || BoardFull(Occupancy())
      ensures forall i :: 0 <= i < |regulations| ==>
        !IsPositionOccupied(Occupancy().(regulations := regulations[..i]), regulations[i])
    {
      ResetForNewGame();
      next := PlaceStartObjects(rng, k);
    }

    /** The end of startGame: updateStatDisplay, updateGameSpeed, and the game runs with the interval armed at gameSpeed. */
    method Launch() returns (period: int)
      requires Valid()
      modifies this`currentPhase, this`economicCycle, this`workforce, this`layoffs, this`gameSpeed, this`gameRunning
      ensures Valid()
      ensures Current() == Refreshed(old(Current()), gameBaseSpeed)
      ensures gameRunning && period == gameSpeed
    {
      var _ := RefreshStats();
      ghost var r := Current();
      var _ := UpdateGameSpeed();
      assert Current() == r;
      gameRunning := true;
      period := gameSpeed;
    }

    /**
     * startGame: the reset, one asset, the regulations up to the level-1
     * cap, the stats refreshed and the base period; then the game runs and
     * the interval is armed with the period returned.
     */
    method StartGame(rng: Rng, k: nat) returns (next: nat, period: int)
      requires Valid()
      modifies this`capital, this`workforce, this`layoffs, this`economicCycle, this`assetsConsumed,
        this`inequalityLevel, this`crisisLevel, this`currentPhase, this`crisisWarnings, this`gameTickCount,
        this`currentLevel, this`assetsForNextCycle, this`gameSpeed, this`invincibilityMode, this`boostMode,
        this`boostTickCounter, this`sprayTanIntensity, this`velocityX, this`velocityY, this`lastDirection,
        this`regulations, this`corporation, this`allAssets, this`allLabor, this`allCommunities, this`gamePaused,
        this`maxRegulations, this`gameRunning
      ensures Valid()
      ensures k <= next
      ensures Current() == NewGame(old(sprayTanIntensity), gameBaseSpeed).(allAssets := allAssets, regulations := regulations)
      ensures gameRunning && !gamePaused && period == gameSpeed
      ensures laborConsumed == old(laborConsumed) && communitiesConsumed == old(communitiesConsumed)
      ensures |allAssets| <= 1
      ensures forall i :: 0 <= i < |allAssets| ==>
        !IsPositionOccupied(Board([StartCell], allAssets[..i], [], [], [], storm.twitterStorm), allAssets[i])
      ensures allAssets == [] ==>
        next >= k + 102 && GaveUp(Board([StartCell], [], [], [], [], storm.twitterStorm), rng, next - 1)
      ensures maxRegulations == MaxRegulationsFor(currentDifficulty, 1)
      ensures |regulations| == maxRegulations || BoardFull(Occupancy())
      ensures forall i :: 0 <= i < |regulations| ==>
        !IsPositionOccupied(Occupancy().(regulations := regulations[..i]), regulations[i])
    {
      next := SetUpBoard(rng, k);
      ghost var s := Current();
      period := Launch();
      assert Current() == Refreshed(s, gameBaseSpeed);
    }

    /**
     * The level-specific part of startNextLevel: on level 7 addRegulation
     * five times, on level 8 invincibility.
     */
    method EnterLevel()
      requires Valid()
      modifies this`regulations, this`invincibilityMode
      ensures Valid()
      ensures invincibilityMode == (old(invincibilityMode) || currentLevel == MaxLevel)
      ensures currentLevel != 7 ==> regulations == old(regulations)
      ensures old(|regulations|) <= |regulations| && regulations[..old(|regulations|)] == old(regulations)
      ensures old(|regulations|) >= maxRegulations ==> regulations == old(regulations)
      ensures regulations == LevelRegulations(old(Occupancy()), currentLevel, maxRegulations)
    {
      if currentLevel == 7 {
        AddFiveRegulations();
        AddRegulationsMeaning(old(Occupancy()), maxRegulations, 5);
      } else if currentLevel == MaxLevel {
        invincibilityMode := true;
      }
    }

    /** Level 7's batch: addRegulation five times. */
    method AddFiveRegulations()
      requires Valid()
      modifies this`regulations
      ensures Valid()
      ensures regulations == AddRegulations(old(Occupancy()), maxRegulations, 5)
    {
      ghost var b := Occupancy();
      for i := 0 to 5
        invariant Valid()
        invariant regulations == AddRegulations(b, maxRegulations, i)
        invariant Occupancy() == b.(regulations := regulations)
      {
        AddRegulationsSucc(b, maxRegulations, i);
        AddRegulation();
      }
    }

    /** startNextLevel's pools: emptied, then placeAsset, placeLabor and placeCommunity. */
    method RestockPools(rng: Rng, k: nat) returns (next: nat)
      requires Valid()
      modifies this`allAssets, this`allLabor, this`allCommunities
      ensures Valid()
      ensures Restocked(old(Occupancy()), currentLevel, rng, k, next, allAssets, allLabor, allCommunities)
    {
      allAssets, allLabor, allCommunities := [], [], [];
      ghost var emptied := Occupancy();
      next := PlaceAsset(rng, k);
      ghost var assetsEnd := if |allAssets| == 0 then next - 1 else next;
      assert |allAssets| < currentLevel ==> GaveUp(emptied.(assets := allAssets), rng, assetsEnd);
      next := PlaceLaborAndCommunity(rng, next);
      assert emptied.(assets := allAssets) == old(Occupancy()).(assets := allAssets, labor := [], communities := []);
      assert |allAssets| < currentLevel ==> k + 101 <= assetsEnd <= next;
      assert Occupancy() == old(Occupancy()).(assets := allAssets, labor := allLabor, communities := allCommunities);
    }

    /** The second half of RestockPools: placeLabor, then placeCommunity, on empty pools. */
    method PlaceLaborAndCommunity(rng: Rng, k: nat) returns (next: nat)
      requires Valid() && allLabor == [] && allCommunities == []
      modifies this`allLabor, this`allCommunities
      ensures Valid()
      ensures k <= next
      ensures |allLabor| <= currentLevel && |allCommunities| <= currentLevel
      ensures forall i :: 0 <= i < |allLabor| ==>
        !IsPositionOccupied(old(Occupancy()).(labor := allLabor[..i]), allLabor[i])
      ensures forall i :: 0 <= i < |allCommunities| ==>
        !IsPositionOccupied(Occupancy().(communities := allCommunities[..i]), allCommunities[i])
      ensures |allLabor| < currentLevel ==> exists last ::
        k + 101 <= last <= next && GaveUp(old(Occupancy()).(labor := allLabor), rng, last)
      ensures |allCommunities| < currentLevel ==> next >= k + 101 && GaveUp(Occupancy(), rng, next)
    {
      next := PlaceLabor(rng, k);
      ghost var laborEnd := next;
      next := PlaceCommunity(rng, next);
      assert |allLabor| < currentLevel ==> k + 101 <= laborEnd <= next;
    }

    /** The start of startNextLevel: moveSnakeAwayFromWalls, then the level's own effects. */
    method PrepareLevel()
      requires Valid()
      modifies this`corporation, this`regulations, this`invincibilityMode
      ensures Valid()
      ensures corporation == AwayFromWalls(old(corporation))
      ensures invincibilityMode == (old(invincibilityMode) || currentLevel == MaxLevel)
      ensures regulations == LevelRegulations(old(Occupancy()).(corporation := corporation), currentLevel, maxRegulations)
    {
      MoveSnakeAwayFromWalls();
      EnterLevel();
    }

    /** The regulation cap for the level, and the regulations brought to it. */
    method CapRegulations()
      requires Valid()
      modifies this`maxRegulations, this`regulations
      ensures Valid()
      ensures maxRegulations == MaxRegulationsFor(currentDifficulty, currentLevel)
      ensures |regulations| == maxRegulations || BoardFull(Occupancy())
      ensures RegulationsFilled(old(Occupancy()), maxRegulations, regulations)
    {
      UpdateMaxRegulations();
      FillRegulations();
    }

    /** The countdown's callback: the period for the level, and the game runs again. */
    method Resume() returns (period: int)
      requires Valid()
      modifies this`gameSpeed, this`gameRunning
      ensures Valid()
      ensures gameSpeed == TickPeriod(gameBaseSpeed, crisisLevel)
      ensures gameRunning && period == gameSpeed
    {
      var _ := UpdateGameSpeed();
      gameRunning := true;
      period := gameSpeed;
    }

    /** The end of startNextLevel: the regulations for the level, the period, and after the countdown the game runs. */
    method ReopenLevel() returns (period: int)
      requires Valid()
      modifies this`maxRegulations, this`regulations, this`gameSpeed, this`gameRunning
      ensures Valid()
      ensures maxRegulations == MaxRegulationsFor(currentDifficulty, currentLevel)
      ensures |regulations| == maxRegulations || BoardFull(Occupancy())
      ensures RegulationsFilled(old(Occupancy()), maxRegulations, regulations)
      ensures gameSpeed == TickPeriod(gameBaseSpeed, crisisLevel)
      ensures gameRunning && period == gameSpeed
    {
      CapRegulations();
      period := Resume();
    }

    /**
     * startNextLevel, called when the level-up screen is dismissed: the body
     * is moved away from the walls, the level's own effects apply, the pools
     * are restocked, the regulations brought to the new cap and the period
     * updated; after the countdown the game runs again.
     */
    method StartNextLevel(rng: Rng, k: nat) returns (next: nat, period: int)
      requires Valid()
      modifies this`corporation, this`regulations, this`invincibilityMode, this`allAssets, this`allLabor,
        this`allCommunities, this`maxRegulations, this`gameSpeed, this`gameRunning
      ensures Valid()
      ensures k <= next
      ensures corporation == AwayFromWalls(old(corporation))
      ensures invincibilityMode == (old(invincibilityMode) || currentLevel == MaxLevel)
      ensures |allAssets| <= currentLevel && |allLabor| <= currentLevel && |allCommunities| <= currentLevel
      ensures maxRegulations == MaxRegulationsFor(currentDifficulty, currentLevel)
      ensures |regulations| == maxRegulations || BoardFull(Occupancy())
      ensures gameSpeed == TickPeriod(gameBaseSpeed, crisisLevel)
      ensures gameRunning && period == gameSpeed
      ensures var nudged := old(Occupancy()).(corporation := corporation);
        var entered := LevelRegulations(nudged, currentLevel, old(maxRegulations));
        && Restocked(nudged.(regulations := entered), currentLevel, rng, k, next, allAssets, allLabor, allCommunities)
        && RegulationsFilled(Occupancy().(regulations := entered), maxRegulations, regulations)
    {
      PrepareLevel();
      ghost var prepared := Occupancy();
      next := RestockPools(rng, k);
      ghost var restocked := Occupancy();
      period := ReopenLevel();
      assert restocked == Occupancy().(regulations := prepared.regulations);
    }

    /** After the restore: savedGameState = null, and the game runs unpaused at gameSpeed. */
    method RunRestored() returns (period: int)
      requires Valid()
      modifies this`savedGameState, this`gamePaused, this`gameRunning
      ensures Valid()
      ensures savedGameState.None? && gameRunning && !gamePaused && period == gameSpeed
    {
      savedGameState := None;
      gamePaused, gameRunning := false, true;
      period := gameSpeed;
    }

    /** The part of startGameFromSaved after a snapshot is found: restore it, drop it, and run unpaused. */
    method ResumeSaved() returns (period: int)
      requires Valid() && savedGameState.Some?
      modifies this`capital, this`workforce, this`layoffs, this`economicCycle, this`assetsConsumed,
        this`inequalityLevel, this`crisisLevel, this`currentPhase, this`crisisWarnings, this`gameTickCount,
        this`currentLevel, this`assetsForNextCycle, this`gameSpeed, this`invincibilityMode, this`boostMode,
        this`boostTickCounter, this`sprayTanIntensity, this`velocityX, this`velocityY, this`lastDirection,
        this`regulations, this`corporation, this`allAssets, this`allLabor, this`allCommunities,
        this`savedGameState, this`gamePaused, this`gameRunning
      ensures Valid()
      ensures Current() == Refreshed(old(savedGameState).value, gameBaseSpeed)
      ensures savedGameState.None? && gameRunning && !gamePaused && period == gameSpeed
    {
      ghost var restored := Refreshed(savedGameState.value, gameBaseSpeed);
      var _ := RestoreGameState();
      assert Current() == restored;
      period := RunRestored();
    }

    /** startGameFromSaved: resume the snapshot if there is one, else start a new game. */
    method StartGameFromSaved(rng: Rng, k: nat) returns (next: nat, period: int)
      requires Valid()
      modifies this`capital, this`workforce, this`layoffs, this`economicCycle, this`assetsConsumed,
        this`inequalityLevel, this`crisisLevel, this`currentPhase, this`crisisWarnings, this`gameTickCount,
        this`currentLevel, this`assetsForNextCycle, this`gameSpeed, this`invincibilityMode, this`boostMode,
        this`boostTickCounter, this`sprayTanIntensity, this`velocityX, this`velocityY, this`lastDirection,
        this`regulations, this`corporation, this`allAssets, this`allLabor, this`allCommunities,
        this`savedGameState, this`gamePaused, this`gameRunning, this`maxRegulations
      ensures Valid()
      ensures gameRunning && !gamePaused && period == gameSpeed
      ensures savedGameState.None?
      ensures old(savedGameState).Some? ==> Current() == Refreshed(old(savedGameState).value, gameBaseSpeed) && next == k
      ensures old(savedGameState).None? ==>
        && Current() == NewGame(old(sprayTanIntensity), gameBaseSpeed).(allAssets := allAssets, regulations := regulations)
        && k <= next
        && laborConsumed == old(laborConsumed) && communitiesConsumed == old(communitiesConsumed)
        && |allAssets| <= 1
        && (forall i :: 0 <= i < |allAssets| ==>
              !IsPositionOccupied(Board([StartCell], allAssets[..i], [], [], [], storm.twitterStorm), allAssets[i]))
        && (allAssets == [] ==>
              next >= k + 102 && GaveUp(Board([StartCell], [], [], [], [], storm.twitterStorm), rng, next - 1))
        && maxRegulations == MaxRegulationsFor(currentDifficulty, 1)
        && (|regulations| == maxRegulations || BoardFull(Occupancy()))
        && (forall i :: 0 <= i < |regulations| ==>
              !IsPositionOccupied(Occupancy().(regulations := regulations[..i]), regulations[i]))
    {
      if savedGameState.None? {
        next, period := StartGame(rng, k);
      } else {
        next := k;
        period := ResumeSaved();
      }
    }

    /**
     * The storm spawner's interval callback: while the game runs unpaused,
     * placeTweetStorm on the game's board. The game runs the corrected
     * placement, so a storm lands on the first free draw.
     */
    method StormTick(roll: real, rng: Rng, k: nat) returns (next: nat)
      requires Valid()
      modifies storm`twitterStorm
      ensures Valid()
      ensures !gameRunning || gamePaused || roll > 0.2 || old(storm.twitterStorm).Some? || storm.twitterStormActive ==>
        storm.twitterStorm == old(storm.twitterStorm) && next == k
      ensures !(!gameRunning || gamePaused || roll > 0.2 || old(storm.twitterStorm).Some? || storm.twitterStormActive) ==>
        && k < next <= k + 51
        && (storm.twitterStorm.Some? ==>
              storm.twitterStorm.value == rng(next - 1) && !IsPositionOccupied(old(Occupancy()), storm.twitterStorm.value))
        && (forall j :: k <= j < next - 1 ==> IsPositionOccupied(old(Occupancy()), rng(j)))
        && (storm.twitterStorm.None? ==> next == k + 51)
    {
      next := k;
      if gameRunning && !gamePaused {
        next := storm.PlaceTweetStorm(Occupancy(), roll, rng, k);
      }
    }

    /**
     * The same callback with placeTweetStorm as written: it never leaves a
     * storm on the board, so the page never shows one.
     */
    method StormTickAsWritten(roll: real, rng: Rng, k: nat) returns (next: nat)
      requires Valid()
      modifies storm`twitterStorm
      ensures Valid()
      ensures !gameRunning || gamePaused || roll > 0.2 || old(storm.twitterStorm).Some? || storm.twitterStormActive ==>
        storm.twitterStorm == old(storm.twitterStorm) && next == k
      ensures !(!gameRunning || gamePaused || roll > 0.2 || old(storm.twitterStorm).Some? || storm.twitterStormActive) ==>
        storm.twitterStorm.None? && next == k + 51
    {
      next := k;
      if gameRunning && !gamePaused {
        next := storm.PlaceTweetStormAsWritten(Occupancy(), roll, rng, k);
      }
    }
  }

  /** The search loops of handleResourceConsumption: the index of the first entry equal to p, or -1. */
  method Find(s: seq<Pos>, p: Pos) returns (i: int)
    ensures i == FirstIndex(s, p)
  {
    i := 0;
    while i < |s|
      invariant 0 <= i <= |s|
      invariant p !in s[..i]
    {
      if s[i] == p {
        return;
      }
      assert s[..i + 1] == s[..i] + [s[i]];
      i := i + 1;
    }
    assert s[..i] == s;
    i := -1;
  }
}

=== FILE: grid.dfy ===
/**
 * The 28 x 28 board of js/game.js: grid cells, the random-cell oracle that
 * stands for createRandomPosition, and the read-only scans isPositionOccupied,
 * checkCollision and checkRegulationCollision.
 */
module Grid {

  /** Side of the square board (tileCount). */
  const TileCount: int := 28

  /** Number of cells on the board. */
  const CellCount: int := TileCount * TileCount

  datatype Option<T> = None | Some(value: T)

  /** A grid position {x, y}; cells off the board arise only as a raw new head. */
  datatype Pos = Pos(x: int, y: int)

  predicate InGrid(p: Pos) {
    0 <= p.x < TileCount && 0 <= p.y < TileCount
  }

  predicate AllInGrid(s: seq<Pos>) {
    forall i :: 0 <= i < |s| ==> InGrid(s[i])
  }

  /** What createRandomPosition can return: floor(random * tileCount) on each axis. */
  type GridPos = p: Pos | InGrid(p) witness Pos(0, 0)

  /**
   * Math.random, as an oracle: the i-th call of createRandomPosition returns
   * rng(i). Operations that draw take a cursor and return the next one.
   */
  type Rng = nat -> GridPos

  /**
   * Every collection isPositionOccupied scans: the body (corporation), the
   * three resource pools, the regulations and the storm power-up, if any.
   */
  datatype Board = Board(
    corporation: seq<Pos>,
    assets: seq<Pos>,
    labor: seq<Pos>,
    communities: seq<Pos>,
    regulations: seq<Pos>,
    storm: Option<Pos>)

  /** isPositionOccupied: p equals a cell of any collection on the board. */
  predicate IsPositionOccupied(b: Board, p: Pos) {
    || p in b.corporation
    || p in b.assets
    || p in b.labor
    || p in b.communities
    || p in b.regulations
    || b.storm == Some(p)
  }

  /** Every cell of the board is taken. */
  ghost predicate BoardFull(b: Board) {
    forall p :: InGrid(p) ==> IsPositionOccupied(b, p)
  }

  /** checkCollision: the loop from index 1 looks at every segment but the head. */
  function CheckCollision(body: seq<Pos>, p: Pos): (r: bool)
    ensures r <==> exists i :: 1 <= i < |body| && body[i] == p
  {
    if |body| <= 1 then false
    else
      assert forall i :: 1 <= i < |body| ==> body[i] == body[1..][i - 1];
      p in body[1..]
  }

  /** checkRegulationCollision. */
  function CheckRegulationCollision(regulations: seq<Pos>, p: Pos): (r: bool)
    ensures r <==> exists i :: 0 <= i < |regulations| && regulations[i] == p
  {
    p in regulations
  }

  /**
   * Index of the first entry equal to p, or -1: the `for (i = 0; ...)` scans
   * of handleResourceConsumption stop at the first match.
   */
  function FirstIndex(s: seq<Pos>, p: Pos): (r: int)
    ensures -1 <= r < |s|
    ensures r == -1 <==> p !in s
    ensures r >= 0 ==> s[r] == p && p !in s[..r]
  {
    if |s| == 0 then -1
    else if s[0] == p then 0
    else
      var r := FirstIndex(s[1..], p);
      assert s[1..][..if r < 0 then 0 else r] == s[1..1 + if r < 0 then 0 else r];
      if r < 0 then -1 else 1 + r
  }

  /** splice(i, 1): the sequence without its entry at index i. */
  function RemoveAt(s: seq<Pos>, i: nat): (r: seq<Pos>)
    requires i < |s|
    ensures |r| == |s| - 1
    ensures forall j :: 0 <= j < i ==> r[j] == s[j]
    ensures forall j :: i <= j < |r| ==> r[j] == s[j + 1]
  {
    s[..i] + s[i + 1..]
  }

  /**
   * The invincible wrap of moveSnake on one axis: below 0 becomes
   * tileCount - 1, tileCount or more becomes 0.
   */
  function WrapCoord(c: int): (r: int)
    ensures 0 <= r < TileCount
    ensures 0 <= c < TileCount ==> r == c
    ensures -1 <= c <= TileCount ==> r == c % TileCount
  {
    if c < 0 then TileCount - 1
    else if c >= TileCount then 0
    else c
  }

  function Wrap(p: Pos): (r: Pos)
    ensures InGrid(r)
    ensures InGrid(p) ==> r == p
  {
    Pos(WrapCoord(p.x), WrapCoord(p.y))
  }

  /** The cell with row-major index i. */
  function CellAt(i: nat): (p: Pos)
    requires i < CellCount
    ensures InGrid(p)
  {
    Pos(i % TileCount, i / TileCount)
  }

  lemma CellAtIndex(p: Pos)
    requires InGrid(p)
    ensures p.y * TileCount + p.x < CellCount
    ensures CellAt(p.y * TileCount + p.x) == p
  {
  }

  /** Row-major search for a free cell, starting at index i. */
  function ScanFree(b: Board, i: nat): (r: Option<Pos>)
    requires i <= CellCount
    ensures r.Some? ==> InGrid(r.value) && !IsPositionOccupied(b, r.value)
    ensures r.None? ==> forall j :: i <= j < CellCount ==> IsPositionOccupied(b, CellAt(j))
    decreases CellCount - i
  {
    if i == CellCount then None
    else if !IsPositionOccupied(b, CellAt(i)) then Some(CellAt(i))
    else ScanFree(b, i + 1)
  }

  /**
   * A free cell of the board, if there is one. addRegulation redraws random
   * cells until one is free; the model settles on the first free cell in
   * row-major order, and reports None exactly on a full board, where the
   * source's loop would never end.
   */
  function FirstFreeCell(b: Board): (r: Option<Pos>)
    ensures r.Some? ==> InGrid(r.value) && !IsPositionOccupied(b, r.value)
    ensures r.None? <==> BoardFull(b)
  {
    var r := ScanFree(b, 0);
    if r.None? then
      assert BoardFull(b) by {
        forall p | InGrid(p) ensures IsPositionOccupied(b, p) {
          CellAtIndex(p);
        }
      }
      r
    else
      r
  }
}

=== FILE: rules.dfy ===
/**
 * The value-level rules of js/game.js that its state-changing functions are
 * proved against: the move rule of moveSnake, the wall nudge of
 * moveSnakeAwayFromWalls, the saved-game record of saveGameState with the
 * refresh restoreGameState applies, and the bounded retry loop shared by
 * placeAsset, placeLabor and placeCommunity.
 */
module Rules {
  import opened Grid
  import opened Economy

  // ---------------------------------------------------------------------
  // Movement (moveSnake)
  // ---------------------------------------------------------------------

  /** The velocities the game and its input handlers ever hold: at rest or one unit step. */
  predicate IsVelocity(vx: int, vy: int) {
    (vx, vy) in {(0, 0), (0, -1), (0, 1), (-1, 0), (1, 0)}
  }

  /** The outcome of a move: game over, or the cell the new head takes. */
  datatype Step = Fatal | Advance(head: Pos)

  /**
   * moveSnake's decision for a body with a head: off the board is fatal
   * unless invincible, in which case the head wraps; a wrapped or on-board
   * head on a later segment (tail included) or on a regulation is fatal
   * unless invincible.
   */
  function Resolve(body: seq<Pos>, regulations: seq<Pos>, vx: int, vy: int, invincible: bool): (s: Step)
    requires |body| >= 1
    ensures s.Advance? ==> InGrid(s.head)
    ensures invincible ==> s == Advance(Wrap(Pos(body[0].x + vx, body[0].y + vy)))
    ensures !invincible ==>
      (s.Fatal? <==> var raw := Pos(body[0].x + vx, body[0].y + vy);
        !InGrid(raw) || (exists i :: 1 <= i < |body| && body[i] == raw) || raw in regulations)
    ensures !invincible && s.Advance? ==> s.head == Pos(body[0].x + vx, body[0].y + vy)
  {
    var raw := Pos(body[0].x + vx, body[0].y + vy);
    if !InGrid(raw) && !invincible then Fatal
    else
      var head := if InGrid(raw) then raw else Wrap(raw);
      if (CheckCollision(body, head) || CheckRegulationCollision(regulations, head)) && !invincible then Fatal
      else Advance(head)
  }

  /** The body after a non-fatal move: the head prepended, the tail dropped unless something was consumed. */
  function Advanced(body: seq<Pos>, head: Pos, consumed: bool): (r: seq<Pos>)
    requires |body| >= 1
  {
    if consumed then [head] + body else [head] + body[..|body| - 1]
  }

  /** The body keeps its length on a plain move, grows by one on a meal, and trails its old cells. */
  lemma AdvancedShape(body: seq<Pos>, head: Pos, consumed: bool)
    requires |body| >= 1
    ensures var r := Advanced(body, head, consumed);
      && r[0] == head
      && |r| == (if consumed then |body| + 1 else |body|)
      && forall i :: 1 <= i < |r| ==> r[i] == body[i - 1]
  {
  }

  /** In invincibility a step off one edge reappears at the opposite edge. */
  lemma InvincibleWrapsAround(body: seq<Pos>, regulations: seq<Pos>, vx: int, vy: int)
    requires |body| >= 1 && AllInGrid(body) && IsVelocity(vx, vy)
    ensures var s := Resolve(body, regulations, vx, vy, true);
      && s.Advance?
      && (body[0].x + vx == -1 ==> s.head.x == TileCount - 1)
      && (body[0].x + vx == TileCount ==> s.head.x == 0)
      && (body[0].y + vy == -1 ==> s.head.y == TileCount - 1)
      && (body[0].y + vy == TileCount ==> s.head.y == 0)
      && (InGrid(Pos(body[0].x + vx, body[0].y + vy)) ==> s.head == Pos(body[0].x + vx, body[0].y + vy))
  {
    assert InGrid(body[0]);
  }

  // ---------------------------------------------------------------------
  // Walls (moveSnakeAwayFromWalls)
  // ---------------------------------------------------------------------

  /** SAFE_DISTANCE: how close to a wall the head may be when play resumes. */
  const SafeDistance: int := 2

  /** The shift on one axis that brings the head coordinate c into [2, 25]. */
  function SafeOffset(c: int): (m: int)
    ensures SafeDistance <= c + m <= TileCount - SafeDistance - 1 || (m == 0 && SafeDistance <= c < TileCount - SafeDistance)
    ensures SafeDistance <= c < TileCount - SafeDistance ==> m == 0
  {
    if c < SafeDistance then SafeDistance - c
    else if c >= TileCount - SafeDistance then (TileCount - SafeDistance - 1) - c
    else 0
  }

  /** max(0, min(tileCount - 1, c)). */
  function Clamp(c: int): (r: int)
    ensures 0 <= r < TileCount
    ensures 0 <= c < TileCount ==> r == c
  {
    if c < 0 then 0 else if c > TileCount - 1 then TileCount - 1 else c
  }

  /** One segment shifted by (mx, my), then clamped onto the board. */
  function Nudge(p: Pos, mx: int, my: int): (r: Pos)
    ensures InGrid(r)
  {
    Pos(Clamp(p.x + mx), Clamp(p.y + my))
  }

  /** The shift the head calls for: (moveX, moveY). */
  function WallShift(head: Pos): (int, int) {
    (SafeOffset(head.x), SafeOffset(head.y))
  }

  /** The body after moveSnakeAwayFromWalls. */
  function AwayFromWalls(body: seq<Pos>): (r: seq<Pos>)
    ensures |r| == |body|
    ensures |body| > 0 && WallShift(body[0]) == (0, 0) ==> r == body
    ensures |body| > 0 && WallShift(body[0]) != (0, 0) ==>
      forall i :: 0 <= i < |r| ==> r[i] == Nudge(body[i], WallShift(body[0]).0, WallShift(body[0]).1)
  {
    if |body| == 0 then body
    else
      var (mx, my) := WallShift(body[0]);
      if mx == 0 && my == 0 then body
      else seq(|body|, i requires 0 <= i < |body| => Nudge(body[i], mx, my))
  }

  /**
   * For a body on the board, the nudge keeps it on the board, puts the head
   * at least two cells from every wall, and a body whose head
   * was already clear of the walls is left exactly as it was.
   */
  lemma AwayFromWallsSafe(body: seq<Pos>)
    requires |body| > 0 && AllInGrid(body)
    ensures AllInGrid(AwayFromWalls(body))
    ensures var h := AwayFromWalls(body)[0];
      SafeDistance <= h.x < TileCount - SafeDistance && SafeDistance <= h.y < TileCount - SafeDistance
    ensures SafeDistance <= body[0].x < TileCount - SafeDistance && SafeDistance <= body[0].y < TileCount - SafeDistance
      ==> AwayFromWalls(body) == body
  {
    var r := AwayFromWalls(body);
    if WallShift(body[0]) != (0, 0) {
      assert r[0] == Nudge(body[0], WallShift(body[0]).0, WallShift(body[0]).1);
    } else {
      assert r == body;
    }
  }

  /** Segments that need no clamping keep their offsets from the head: the body moves rigidly. */
  lemma AwayFromWallsRigid(body: seq<Pos>, i: int)
    requires |body| > 0 && 0 <= i < |body|
    requires var (mx, my) := WallShift(body[0]);
      InGrid(Pos(body[i].x + mx, body[i].y + my)) && InGrid(Pos(body[0].x + mx, body[0].y + my))
    ensures var r := AwayFromWalls(body);
      r[i].x - r[0].x == body[i].x - body[0].x && r[i].y - r[0].y == body[i].y - body[0].y
  {
  }

  // ---------------------------------------------------------------------
  // The saved game (saveGameState, restoreGameState)
  // ---------------------------------------------------------------------

  /** The 25 fields saveGameState records, in its order. */
  datatype Snapshot = Snapshot(
    capital: real,
    workforce: int,
    layoffs: int,
    economicCycle: real,
    assetsConsumed: int,
    inequalityLevel: int,
    crisisLevel: int,
    regulations: seq<Pos>,
    currentPhase: Phase,
    crisisWarnings: int,
    gameTickCount: int,
    currentLevel: int,
    invincibilityMode: bool,
    boostMode: bool,
    boostTickCounter: int,
    assetsForNextCycle: int,
    corporation: seq<Pos>,
    velocityX: int,
    velocityY: int,
    lastDirection: Pos,
    allAssets: seq<Pos>,
    allLabor: seq<Pos>,
    allCommunities: seq<Pos>,
    sprayTanIntensity: string,
    gameSpeed: int)

  /**
   * What holds of the game's fields between ticks: meters in [0, 100],
   * counters non-negative, the level in 1..8 with its own threshold, the
   * consumed count between the previous level's threshold and this one's,
   * the multiplier of the current phase, a positive period, a unit velocity
   * and every cell on the board.
   */
  predicate SnapshotValid(s: Snapshot) {
    && s.capital >= 0.0 && s.workforce >= 0 && s.layoffs >= 0
    && 0 <= s.inequalityLevel <= 100 && 0 <= s.crisisLevel <= 100
    && 0 <= s.crisisWarnings <= 3
    && s.gameTickCount >= 0 && s.boostTickCounter >= 0
    && LevelInvariant(s.currentLevel, s.assetsConsumed)
    && s.assetsForNextCycle == Threshold(s.currentLevel)
    && s.economicCycle == Multiplier(s.currentPhase)
    && s.gameSpeed > 0
    && IsVelocity(s.velocityX, s.velocityY)
    && AllInGrid(s.corporation) && AllInGrid(s.regulations)
    && AllInGrid(s.allAssets) && AllInGrid(s.allLabor) && AllInGrid(s.allCommunities)
  }

  /** checkEconomicPhaseEffects on a record: a new phase brings its multiplier and attrition. */
  function PhaseChecked(s: Snapshot): (r: Snapshot)
    ensures r.currentPhase == NextPhase(s.currentPhase, s.crisisLevel)
    ensures r.currentPhase == s.currentPhase ==> r == s
  {
    var p := NextPhase(s.currentPhase, s.crisisLevel);
    if p == s.currentPhase then s
    else s.(currentPhase := p, economicCycle := Multiplier(p),
            layoffs := s.layoffs + LaidOff(p, s.workforce), workforce := Kept(p, s.workforce))
  }

  /** The phase check keeps a valid record valid. */
  lemma PhaseCheckedValid(s: Snapshot)
    requires SnapshotValid(s)
    ensures SnapshotValid(PhaseChecked(s))
  {
    AttritionAccounting(NextPhase(s.currentPhase, s.crisisLevel), s.workforce);
  }

  /** updateStatDisplay on a record: the phase check, then updateGameSpeed's period. */
  function Refreshed(s: Snapshot, base: int): Snapshot {
    PhaseChecked(s).(gameSpeed := TickPeriod(base, s.crisisLevel))
  }

  /** A record the refresh leaves alone: its phase fits its crisis level and its period its base speed. */
  predicate Settled(s: Snapshot, base: int) {
    s.currentPhase == NextPhase(s.currentPhase, s.crisisLevel) && s.gameSpeed == TickPeriod(base, s.crisisLevel)
  }

  /** A second phase check right after the first changes nothing. */
  lemma PhaseCheckedIdempotent(s: Snapshot)
    ensures PhaseChecked(PhaseChecked(s)) == PhaseChecked(s)
  {
    NextPhaseIdempotent(s.currentPhase, s.crisisLevel);
  }

  /**
   * The refresh keeps validity, always settles, and touches only the phase,
   * its multiplier, the workforce, the layoffs and the period.
   */
  lemma RefreshedMeaning(s: Snapshot, base: int)
    requires SnapshotValid(s)
    ensures SnapshotValid(Refreshed(s, base))
    ensures Settled(Refreshed(s, base), base)
    ensures var r := Refreshed(s, base);
      r.(currentPhase := s.currentPhase, economicCycle := s.economicCycle, workforce := s.workforce,
         layoffs := s.layoffs, gameSpeed := s.gameSpeed) == s
    ensures Settled(s, base) ==> Refreshed(s, base) == s
  {
    PhaseCheckedValid(s);
    NextPhaseIdempotent(s.currentPhase, s.crisisLevel);
  }

  // ---------------------------------------------------------------------
  // What the head eats (handleResourceConsumption)
  // ---------------------------------------------------------------------

  /** What a head consumes: the storm, or the first matching asset, labor or community, in that order. */
  datatype Meal = StormMeal | AssetMeal(index: nat) | LaborMeal(index: nat) | CommunityMeal(index: nat) | NoMeal

  /** What a head consumes from the pools: the first matching asset, labor or community, in that order. */
  function PoolMeal(b: Board, head: Pos): (m: Meal)
    ensures m != StormMeal
    ensures m.AssetMeal? <==> head in b.assets
    ensures m.AssetMeal? ==> m.index < |b.assets| && b.assets[m.index] == head && head !in b.assets[..m.index]
    ensures m.LaborMeal? ==>
      head !in b.assets && m.index < |b.labor| && b.labor[m.index] == head && head !in b.labor[..m.index]
    ensures m.CommunityMeal? ==>
      && head !in b.assets && head !in b.labor
      && m.index < |b.communities| && b.communities[m.index] == head && head !in b.communities[..m.index]
    ensures m == NoMeal <==> head !in b.assets && head !in b.labor && head !in b.communities
  {
    if head in b.assets then AssetMeal(FirstIndex(b.assets, head))
    else if head in b.labor then LaborMeal(FirstIndex(b.labor, head))
    else if head in b.communities then CommunityMeal(FirstIndex(b.communities, head))
    else NoMeal
  }

  /** The storm is checked before the pools. */
  function MealAt(b: Board, head: Pos): (m: Meal)
    ensures m == StormMeal <==> b.storm == Some(head)
    ensures m != StormMeal ==> m == PoolMeal(b, head)
  {
    if b.storm == Some(head) then StormMeal else PoolMeal(b, head)
  }

  /** The meal at a cell does not depend on where the body is. */
  lemma MealIgnoresBody(b: Board, body: seq<Pos>, head: Pos)
    ensures MealAt(b.(corporation := body), head) == MealAt(b, head)
  {
  }

  /**
   * The head consumes something exactly when it lands on a collectible: a
   * cell isPositionOccupied reports for reasons other than the body and the
   * regulations.
   */
  lemma MealIffCollectible(b: Board, head: Pos)
    ensures MealAt(b, head) != NoMeal <==> IsPositionOccupied(b.(corporation := [], regulations := []), head)
  {
  }

  // ---------------------------------------------------------------------
  // Placement with bounded retries (placeAsset, placeLabor, placeCommunity)
  // ---------------------------------------------------------------------

  datatype PoolKind = AssetPool | LaborPool | CommunityPool

  /** The board with the pool of `kind` replaced by `pool`. */
  function WithPool(b: Board, kind: PoolKind, pool: seq<Pos>): Board {
    match kind
    case AssetPool => b.(assets := pool)
    case LaborPool => b.(labor := pool)
    case CommunityPool => b.(communities := pool)
  }

  /**
   * A round of placement that gave up and ended with draw `last - 1`: its
   * first draw and its 99 redraws, rng(last - 101) .. rng(last - 2), were all
   * occupied on `b`; the 100th redraw is taken but never tested.
   */
  predicate GaveUp(b: Board, rng: Rng, last: nat) {
    last >= 101 && forall j :: last - 101 <= j < last - 1 ==> IsPositionOccupied(b, rng(j))
  }

  /**
   * The loop of placeAsset, placeLabor and placeCommunity: while the pool is
   * below `target`, draw a cell and redraw while it is occupied, at most 100
   * times; a round that spends all 100 retries ends the loop. The draws are
   * rng(k), rng(k + 1), ...; `next` is the first unused one.
   */
  method FillPool(b: Board, kind: PoolKind, start: seq<Pos>, target: int, rng: Rng, k: nat)
    returns (pool: seq<Pos>, next: nat)
    ensures k <= next
    ensures |start| >= target ==> pool == start && next == k
    ensures |start| <= |pool| && pool[..|start|] == start
    ensures |pool| <= target || pool == start
    ensures forall i :: |start| <= i < |pool| ==>
      InGrid(pool[i]) && !IsPositionOccupied(WithPool(b, kind, pool[..i]), pool[i])
    ensures |pool| < target ==> next >= k + 101 && GaveUp(WithPool(b, kind, pool), rng, next)
  {
    pool := start;
    next := k;
    while |pool| < target
      invariant k <= next
      invariant |start| <= |pool| && pool[..|start|] == start
      invariant |pool| <= target || pool == start
      invariant |start| >= target ==> pool == start && next == k
      invariant forall i :: |start| <= i < |pool| ==>
        InGrid(pool[i]) && !IsPositionOccupied(WithPool(b, kind, pool[..i]), pool[i])
      decreases target - |pool|
    {
      var roundStart := next;
      var candidate: Pos := rng(next);
      next := next + 1;
      var attempts := 0;
      while IsPositionOccupied(WithPool(b, kind, pool), candidate) && attempts < 100
        invariant 0 <= attempts <= 100
        invariant next == roundStart + 1 + attempts
        invariant candidate == rng(next - 1)
        invariant forall j :: roundStart <= j < next - 1 ==> IsPositionOccupied(WithPool(b, kind, pool), rng(j))
      {
        attempts := attempts + 1;
        candidate := rng(next);
        next := next + 1;
      }
      if attempts < 100 {
        ghost var before := pool;
        pool := pool + [candidate];
        assert pool[..|before|] == before;
        assert forall i :: 0 <= i <= |before| ==> pool[..i] == before[..i];
      } else {
        break;
      }
    }
  }

  // ---------------------------------------------------------------------
  // Regulations and pools at a level start (addRegulation, fillRegulations,
  // startNextLevel)
  // ---------------------------------------------------------------------

  /**
   * n calls of addRegulation on board b under `cap`: each call below the cap
   * appends the first free cell, if the board has one, and otherwise adds
   * nothing.
   */
  function AddRegulations(b: Board, cap: int, n: nat): seq<Pos>
    decreases n
  {
    if n == 0 then b.regulations
    else
      var prev := AddRegulations(b, cap, n - 1);
      if |prev| >= cap then prev
      else
        match FirstFreeCell(b.(regulations := prev))
        case None => prev
        case Some(c) => prev + [c]
  }

  /**
   * What the n calls do: the list keeps its prefix, never passes the cap it
   * started under, grows by one per call until the cap or a full board stops
   * it, and every cell added was on the board and free when added.
   */
  lemma {:induction false} AddRegulationsMeaning(b: Board, cap: int, n: nat)
    ensures var r := AddRegulations(b, cap, n);
      && |b.regulations| <= |r| <= |b.regulations| + n && r[..|b.regulations|] == b.regulations
      && (|b.regulations| >= cap ==> r == b.regulations)
      && (|b.regulations| < cap ==>
            && |r| <= cap
            && (|r| == (if |b.regulations| + n <= cap then |b.regulations| + n else cap) || BoardFull(b.(regulations := r))))
      && forall i :: |b.regulations| <= i < |r| ==> InGrid(r[i]) && !IsPositionOccupied(b.(regulations := r[..i]), r[i])
    decreases n
  {
    if n > 0 {
      AddRegulationsMeaning(b, cap, n - 1);
      var prev := AddRegulations(b, cap, n - 1);
      if |prev| < cap {
        var cell := FirstFreeCell(b.(regulations := prev));
        if cell.Some? {
          assert forall i :: 0 <= i <= |prev| ==> (prev + [cell.value])[..i] == prev[..i];
        }
      }
    }
  }

  /** One more call is one call on the board the earlier calls left. */
  lemma AddRegulationsSucc(b: Board, cap: int, n: nat)
    ensures AddRegulations(b, cap, n + 1) == AddRegulations(b.(regulations := AddRegulations(b, cap, n)), cap, 1)
  {
    var prev := AddRegulations(b, cap, n);
    assert AddRegulations(b.(regulations := prev), cap, 0) == prev;
    assert b.(regulations := prev).(regulations := prev) == b.(regulations := prev);
  }

  /** The regulations after startNextLevel's level effects: five addRegulation calls on level 7, none otherwise. */
  function LevelRegulations(b: Board, level: int, cap: int): seq<Pos> {
    if level == 7 then AddRegulations(b, cap, 5) else b.regulations
  }

  /**
   * What fillRegulations leaves on board b under `cap`: the list reaches the
   * cap unless the board is full; a list over the cap is cut to its first
   * `cap` entries; otherwise the old list stays in front and every cell
   * added was free when added.
   */
  ghost predicate RegulationsFilled(b: Board, cap: int, r: seq<Pos>) {
    && (|r| == cap || (|r| < cap && BoardFull(b.(regulations := r))))
    && (|b.regulations| > cap ==> r == b.regulations[..cap])
    && (|b.regulations| <= cap ==>
          && |b.regulations| <= |r| && r[..|b.regulations|] == b.regulations
          && forall i :: |b.regulations| <= i < |r| ==> !IsPositionOccupied(b.(regulations := r[..i]), r[i]))
  }

  /**
   * The pools startNextLevel leaves on board b at `level`, drawing from
   * rng(k) up to rng(next - 1): the three pools are emptied and filled in
   * turn (assets, labor, communities), each with cells free on the board of
   * its moment, never above the level, and short of it only when its last
   * round gave up.
   */
  ghost predicate Restocked(b: Board, level: int, rng: Rng, k: nat, next: nat,
                            assets: seq<Pos>, labor: seq<Pos>, communities: seq<Pos>) {
    && k <= next
    && |assets| <= level && |labor| <= level && |communities| <= level
    && (forall i :: 0 <= i < |assets| ==>
          !IsPositionOccupied(b.(assets := assets[..i], labor := [], communities := []), assets[i]))
    && (forall i :: 0 <= i < |labor| ==>
          !IsPositionOccupied(b.(assets := assets, labor := labor[..i], communities := []), labor[i]))
    && (forall i :: 0 <= i < |communities| ==>
          !IsPositionOccupied(b.(assets := assets, labor := labor, communities := communities[..i]), communities[i]))
    && (|assets| < level ==> exists last ::
          k + 101 <= last <= next && GaveUp(b.(assets := assets, labor := [], communities := []), rng, last))
    && (|labor| < level ==> exists last ::
          k + 101 <= last <= next && GaveUp(b.(assets := assets, labor := labor, communities := []), rng, last))
    && (|communities| < level ==>
          next >= k + 101 && GaveUp(b.(assets := assets, labor := labor, communities := communities), rng, next))
  }
}

=== FILE: storm.dfy ===
/**
 * The storm power-up of js/twitter-storm.js: a single collectible cell, its
 * seven effects, and the active-effect state with its end rule.
 *
 * The effects write properties of `window`. The game's own `let` bindings in
 * js/game.js are not window properties, so the effects act on a HostView, a
 * record of the window properties the effects consult, each None while
 * undefined, exactly as the source's `typeof` guards see them.
 */
module Storm {
  import opened Grid

  // ---------------------------------------------------------------------
  // The effect table (twitterEffects)
  // ---------------------------------------------------------------------

  datatype Effect = Effect(name: string, description: string, duration: nat)

  const TwitterEffects: seq<Effect> := [
    Effect("TAX BREAK", "Double assets collected!", 10000),
    Effect("FAKE NEWS", "Temporary invincibility!", 8000),
    Effect("RALLY TIME", "Slow down game!", 10000),
    Effect("LOYAL BASE", "Add length without penalty!", 0),
    Effect("EXECUTIVE ORDER", "Clear all regulations!", 0),
    Effect("TWITTER FLURRY", "Gain capital for each segment!", 0),
    Effect("TV APPEARANCE", "Communities worth more!", 15000)
  ]

  /** The effects that stay active until endTwitterStorm runs. */
  const TimedEffects: set<string> := {"TAX BREAK", "FAKE NEWS", "RALLY TIME", "TV APPEARANCE"}

  /** The effects that act once and leave no active effect behind. */
  const InstantEffects: set<string> := {"LOYAL BASE", "EXECUTIVE ORDER", "TWITTER FLURRY"}

  /**
   * Seven entries with distinct names; an entry is instantaneous exactly when
   * its duration is 0, and exactly three are.
   */
  lemma EffectTable()
    ensures |TwitterEffects| == 7
    ensures forall i, j :: 0 <= i < j < |TwitterEffects| ==> TwitterEffects[i].name != TwitterEffects[j].name
    ensures forall i :: 0 <= i < |TwitterEffects| ==>
      (TwitterEffects[i].duration == 0 <==> TwitterEffects[i].name in InstantEffects)
    ensures forall i :: 0 <= i < |TwitterEffects| ==>
      (TwitterEffects[i].duration > 0 <==> TwitterEffects[i].name in TimedEffects)
    ensures |InstantEffects| == 3 && InstantEffects !! TimedEffects
  {
  }

  // ---------------------------------------------------------------------
  // The window properties the effects read and write
  // ---------------------------------------------------------------------

  datatype HostView = HostView(
    invincibilityMode: Option<bool>,
    regulations: Option<seq<Pos>>,
    corporation: Option<seq<Pos>>,
    capital: Option<real>,
    currentLevel: Option<int>)

  /**
   * The window as js/game.js leaves it: exposeGameAPI stores the body array
   * of the moment (the empty array of the initial declaration, which startGame
   * then replaces by a fresh one) and defines no capital, regulations,
   * invincibility or level property.
   */
  const ExposedHost: HostView := HostView(None, None, Some([]), None, None)

  function Max(a: int, b: int): int {
    if a >= b then a else b
  }

  /** LOYAL BASE: three copies of the last segment, if there is one. */
  function LoyalBase(body: seq<Pos>): (r: seq<Pos>)
    ensures |body| == 0 ==> r == body
    ensures |body| > 0 ==> |r| == |body| + 3 && r[..|body|] == body
    ensures |body| > 0 ==> forall i :: |body| <= i < |r| ==> r[i] == body[|body| - 1]
  {
    if |body| == 0 then body else body + [body[|body| - 1], body[|body| - 1], body[|body| - 1]]
  }

  /** TWITTER FLURRY's gain: max(5, floor(length * 0.5)). */
  function FlurryGain(length: nat): (r: int)
    ensures r >= 5
    ensures length < 10 ==> r == 5
    ensures length >= 10 ==> 2 * r <= length < 2 * r + 2
  {
    Max(5, length / 2)
  }

  /** The instantaneous part of an effect, as the activation switch applies it. */
  function ApplyEffect(h: HostView, name: string): HostView {
    if name == "FAKE NEWS" then
      h.(invincibilityMode := Some(true))
    else if name == "EXECUTIVE ORDER" then
      if h.regulations.Some? then h.(regulations := Some([])) else h
    else if name == "LOYAL BASE" then
      if h.corporation.Some? then h.(corporation := Some(LoyalBase(h.corporation.value))) else h
    else if name == "TWITTER FLURRY" then
      if h.capital.Some? && h.corporation.Some? then
        h.(capital := Some(h.capital.value + FlurryGain(|h.corporation.value|) as real))
      else h
    else
      h
  }

  /** The end rule: FAKE NEWS switches invincibility off, but never at level 8. */
  function EndEffect(h: HostView, name: string): HostView {
    if name == "FAKE NEWS" && h.currentLevel.Some? && h.currentLevel.value < 8 then
      h.(invincibilityMode := Some(false))
    else
      h
  }

  /** What each effect does to the window, field by field. */
  lemma ApplyEffectMeaning(h: HostView, name: string)
    ensures var r := ApplyEffect(h, name);
      && (name == "FAKE NEWS" ==> r == h.(invincibilityMode := Some(true)))
      && (name == "EXECUTIVE ORDER" && h.regulations.Some? ==> r == h.(regulations := Some([])))
      && (name == "EXECUTIVE ORDER" && h.regulations.None? ==> r == h)
      && (name == "LOYAL BASE" && h.corporation.Some? ==>
            r == h.(corporation := Some(LoyalBase(h.corporation.value))))
      && (name == "LOYAL BASE" && h.corporation.None? ==> r == h)
      && (name == "TWITTER FLURRY" && h.capital.Some? && h.corporation.Some? ==>
            && r == h.(capital := Some(h.capital.value + FlurryGain(|h.corporation.value|) as real))
            && r.capital.value >= h.capital.value + 5.0)
      && (name == "TWITTER FLURRY" && (h.capital.None? || h.corporation.None?) ==> r == h)
      && (name !in InstantEffects && name != "FAKE NEWS" ==> r == h)
      && r.currentLevel == h.currentLevel
  {
  }

  /**
   * On the window js/game.js actually exposes, the effects change nothing but
   * the otherwise unread invincibilityMode property, and ending an effect
   * changes nothing at all: the storm never reaches the game's own state.
   */
  lemma EffectsOnExposedHost(name: string)
    ensures ApplyEffect(ExposedHost, name).(invincibilityMode := None) == ExposedHost
    ensures EndEffect(ExposedHost, name) == ExposedHost
    ensures EndEffect(ApplyEffect(ExposedHost, name), name) == ApplyEffect(ExposedHost, name)
  {
    assert LoyalBase([]) == [];
  }

  /** FAKE NEWS followed by its end rule: invincibility back off below level 8, still on at level 8. */
  lemma FakeNewsRoundTrip(h: HostView)
    requires h.currentLevel.Some?
    ensures h.currentLevel.value < 8 ==>
      EndEffect(ApplyEffect(h, "FAKE NEWS"), "FAKE NEWS") == h.(invincibilityMode := Some(false))
    ensures h.currentLevel.value >= 8 ==>
      EndEffect(ApplyEffect(h, "FAKE NEWS"), "FAKE NEWS").invincibilityMode == Some(true)
  {
  }

  // ---------------------------------------------------------------------
  // The storm state (twitterStorm, twitterStormActive, ...)
  // ---------------------------------------------------------------------

  datatype StormState = StormState(
    twitterStorm: Option<Pos>,
    active: bool,
    effect: string,
    endTime: int,
    host: HostView)

  /** The state after activateTwitterStorm picks effect `index` at time `now`. */
  function Activate(s: StormState, index: nat, now: int): (r: StormState)
    requires index < |TwitterEffects|
    ensures r.twitterStorm == s.twitterStorm
    ensures r.endTime == now + TwitterEffects[index].duration
    ensures r.active <==> TwitterEffects[index].name in TimedEffects
    ensures r.effect == (if r.active then TwitterEffects[index].name else "")
    ensures r.host == ApplyEffect(s.host, TwitterEffects[index].name)
  {
    EffectTable();
    var e := TwitterEffects[index];
    var started := s.(effect := e.name, active := true, endTime := now + e.duration,
                      host := ApplyEffect(s.host, e.name));
    if e.duration > 0 then started else started.(active := false, effect := "")
  }

  /** The state after endTwitterStorm. */
  function End(s: StormState): (r: StormState)
    ensures !r.active && r.effect == ""
    ensures r.twitterStorm == s.twitterStorm && r.endTime == s.endTime
    ensures r.host == EndEffect(s.host, s.effect)
  {
    s.(active := false, effect := "", host := EndEffect(s.host, s.effect))
  }

  /** Ending an effect is idempotent: a second end changes nothing. */
  lemma EndIdempotent(s: StormState)
    ensures End(End(s)) == End(s)
  {
  }

  class StormSystem {
    var twitterStorm: Option<Pos>
    var twitterStormActive: bool
    var twitterStormEffect: string
    var twitterStormEndTime: int
    var host: HostView

    ghost function State(): StormState
      reads this
    {
      StormState(twitterStorm, twitterStormActive, twitterStormEffect, twitterStormEndTime, host)
    }

    /** The storm cell lies on the board, and an effect is active exactly while a timed one is named. */
    ghost predicate Valid()
      reads this
    {
      && (twitterStorm.Some? ==> InGrid(twitterStorm.value))
      && (twitterStormActive <==> twitterStormEffect != "")
      && (twitterStormActive ==> twitterStormEffect in TimedEffects)
    }

    /** The module-level declarations: no storm, no effect, end time 0. */
    constructor (window: HostView)
      ensures Valid()
      ensures State() == StormState(None, false, "", 0, window)
    {
      twitterStorm := None;
      twitterStormActive := false;
      twitterStormEffect := "";
      twitterStormEndTime := 0;
      host := window;
    }

    /** The board as this storm system sees it: the given collections and its own storm cell. */
    function Around(b: Board): Board
      reads this
    {
      b.(storm := twitterStorm)
    }

    /**
     * placeTweetStorm with the candidate kept apart from twitterStorm until
     * it is known to be free. `roll` is the gating Math.random draw; draws
     * k, k + 1, ... of `rng` are the candidate cells.
     */
    method PlaceTweetStorm(b: Board, roll: real, rng: Rng, k: nat) returns (next: nat)
      requires Valid()
      modifies this`twitterStorm
      ensures Valid()
      ensures roll > 0.2 || old(twitterStorm).Some? || twitterStormActive ==>
        twitterStorm == old(twitterStorm) && next == k
      ensures !(roll > 0.2 || old(twitterStorm).Some? || twitterStormActive) ==>
        && k < next <= k + 51
        && (twitterStorm.Some? ==> twitterStorm.value == rng(next - 1) && !IsPositionOccupied(old(Around(b)), twitterStorm.value))
        && (forall j :: k <= j < next - 1 ==> IsPositionOccupied(old(Around(b)), rng(j)))
        && (twitterStorm.None? ==> next == k + 51)
    {
      if roll > 0.2 || twitterStorm.Some? || twitterStormActive {
        return k;
      }
      var attempts := 0;
      var candidate: Pos := rng(k);
      next := k + 1;
      while IsPositionOccupied(Around(b), candidate) && attempts < 50
        invariant 0 <= attempts <= 50
        invariant next == k + 1 + attempts
        invariant candidate == rng(next - 1)
        invariant twitterStorm == None
        invariant forall j :: k <= j < next - 1 ==> IsPositionOccupied(Around(b), rng(j))
      {
        attempts := attempts + 1;
        candidate := rng(next);
        next := next + 1;
      }
      if attempts >= 50 {
        return;
      }
      twitterStorm := Some(candidate);
    }

    /**
     * placeTweetStorm as written: the candidate is stored in twitterStorm
     * before the occupancy test, which then always finds the storm's own
     * cell, so after fifty retries the storm is cleared again.
     */
    method PlaceTweetStormAsWritten(b: Board, roll: real, rng: Rng, k: nat) returns (next: nat)
      requires Valid()
      modifies this`twitterStorm
      ensures Valid()
      ensures roll > 0.2 || old(twitterStorm).Some? || twitterStormActive ==>
        twitterStorm == old(twitterStorm) && next == k
      ensures !(roll > 0.2 || old(twitterStorm).Some? || twitterStormActive) ==>
        twitterStorm == None && next == k + 51
    {
      if roll > 0.2 || twitterStorm.Some? || twitterStormActive {
        return k;
      }
      var attempts := 0;
      twitterStorm := Some(rng(k));
      next := k + 1;
      while IsPositionOccupied(Around(b), twitterStorm.value) && attempts < 50
        invariant 0 <= attempts <= 50
        invariant next == k + 1 + attempts
        invariant twitterStorm.Some? && InGrid(twitterStorm.value)
      {
        attempts := attempts + 1;
        twitterStorm := Some(rng(next));
        next := next + 1;
      }
      if attempts >= 50 {
        twitterStorm := None;
        return;
      }
    }

    /** The ten-second auto-remove timer of a placed storm. */
    method ExpireStorm()
      requires Valid()
      modifies this`twitterStorm
      ensures Valid()
      ensures State() == old(State()).(twitterStorm := None)
    {
      twitterStorm := None;
    }

    /**
     * activateTwitterStorm with effect `index` (the Math.random draw) at time
     * `now` (Date.now()). LOYAL BASE pushes copies of the last segment one at
     * a time, as the source's loop does.
     */
    method ActivateTwitterStorm(index: nat, now: int)
      requires Valid()
      requires index < |TwitterEffects|
      modifies this`twitterStormActive, this`twitterStormEffect, this`twitterStormEndTime, this`host
      ensures Valid()
      ensures State() == Activate(old(State()), index, now)
    {
      EffectTable();
      var effect := TwitterEffects[index];
      twitterStormEffect := effect.name;
      twitterStormActive := true;
      twitterStormEndTime := now + effect.duration;
      if twitterStormEffect == "FAKE NEWS" {
        host := host.(invincibilityMode := Some(true));
      } else if twitterStormEffect == "EXECUTIVE ORDER" {
        if host.regulations.Some? {
          host := host.(regulations := Some([]));
        }
      } else if twitterStormEffect == "LOYAL BASE" {
        if host.corporation.Some? {
          var body := host.corporation.value;
          ghost var original := body;
          for i := 0 to 3
            invariant |original| == 0 ==> body == original
            invariant |original| > 0 ==> body == original + seq(i, _ => original[|original| - 1])
          {
            if |body| > 0 {
              body := body + [body[|body| - 1]];
            }
          }
          assert |original| > 0 ==> (seq(3, _ => original[|original| - 1]) ==
            [original[|original| - 1], original[|original| - 1], original[|original| - 1]]);
          host := host.(corporation := Some(body));
        }
      } else if twitterStormEffect == "TWITTER FLURRY" {
        if host.capital.Some? && host.corporation.Some? {
          host := host.(capital := Some(host.capital.value + Max(5, |host.corporation.value| / 2) as real));
        }
      }
      if effect.duration <= 0 {
        twitterStormActive := false;
        twitterStormEffect := "";
      }
    }

    /** endTwitterStorm, run by the effect's timer. */
    method EndTwitterStorm()
      requires Valid()
      modifies this`twitterStormActive, this`twitterStormEffect, this`host
      ensures Valid()
      ensures State() == End(old(State()))
    {
      if twitterStormEffect == "FAKE NEWS" {
        if host.currentLevel.Some? && host.currentLevel.value < 8 {
          host := host.(invincibilityMode := Some(false));
        }
      }
      twitterStormActive := false;
      twitterStormEffect := "";
    }

    /**
     * checkTwitterStormCollision: a head on the storm cell activates effect
     * `index` at time `now` and removes the storm.
     */
    method CheckTwitterStormCollision(head: Pos, index: nat, now: int) returns (hit: bool)
      requires Valid()
      requires index < |TwitterEffects|
      modifies this
      ensures Valid()
      ensures hit <==> old(twitterStorm) == Some(head)
      ensures !hit ==> State() == old(State())
      ensures hit ==> State() == Activate(old(State()), index, now).(twitterStorm := None)
    {
      if twitterStorm.None? {
        return false;
      }
      if head == twitterStorm.value {
        ActivateTwitterStorm(index, now);
        twitterStorm := None;
        return true;
      }
      return false;
    }
  }

  /** The candidate that placeTweetStorm as written stores is always occupied, by the storm itself. */
  lemma StoredCandidateOccupied(b: Board, p: Pos)
    ensures IsPositionOccupied(b.(storm := Some(p)), p)
  {
  }

  /**
   * On a board with a free cell, a draw sequence that hits it first places a
   * storm in the corrected placement; the as-written one clears it whatever
   * the draws are.
   */
  lemma FreeFirstDrawPlaces(b: Board, rng: Rng, k: nat)
    requires b.storm == None
    requires !IsPositionOccupied(b, rng(k))
    ensures !IsPositionOccupied(b.(storm := None), rng(k))
    ensures IsPositionOccupied(b.(storm := Some(rng(k))), rng(k))
  {
  }
}
